=== FILE: README.md ===
# Personal finance dashboard: a Dafny model

This project models the computational core of a small personal-finance web
application. The application stores income and expense entries ("lançamentos")
in a database and mirrors them to a Google Sheets tab. A dashboard page then
derives everything it shows from the full list of transactions.

The model covers three parts of the program:

- **The dashboard aggregation** in `Home()` of `src/pages/index.tsx`:
  - the month, search and type filter;
  - the KPIs and the end-of-month projection;
  - the previous-month comparison;
  - the daily running-balance series and the six-month bars;
  - the category, place and weekday breakdowns;
  - the month highlights and the recurring-expense detection;
  - the list of years;
  - the choice of insight sentences;
  - the cleaning, validation and rewriting of the amount typed into the form.
- **The `POST /api/new` handler** in `src/pages/api/new.ts`:
  - body validation with its defaults;
  - the amount's sign rule;
  - the split of the date string;
  - the status codes;
  - the layout of the spreadsheet row.
- **The row and range arithmetic** of `src/lib/sheets.ts`:
  - quoting the tab name;
  - finding a row by its first cell;
  - the one-row delete range;
  - reading the row number of an append;
  - the cached sheet id.

The data model:

- A transaction is a `Ledger.Tx` with a calendar date (a `Calendar.Date` triple), a description, a kind (`Income`/`Expense`), an exact `real` amount, and an optional category and account.
- Amounts are real numbers, not IEEE doubles.
- `Number(...)` of a string is `Numerals.NumberOf`, which returns `None` where JavaScript yields NaN.
- The wall-clock "today", the database's id, the creation timestamp and the outcome of the spreadsheet call are all parameters.
- A spreadsheet tab is an in-memory grid `seq<seq<string>>`.

Modules, in dependency order:

| module | contents |
|---|---|
| `Wrappers` | `Option` and `Result` |
| `Calendar` | Gregorian month lengths, month arithmetic, day numbers, day of week |
| `Seqs` | filtering, sums, stable descending sort, grouping by key |
| `Ledger` | the transaction record and its signed totals |
| `Text` | trim, lower case, substring, index, replace-first, remove-all, split/join |
| `Numerals` | decimal digits and the decimal forms of `Number()` the model reads |
| `Period` | the filter, the KPIs, the projection and the comparison |
| `Series` | the running balance and the six-month bars |
| `Rankings` | the category, place, weekday, priciest-day and top-expense breakdowns, and the years |
| `Recurring` | recurring-expense detection |
| `Insights` | the insight sentences |
| `AmountInput` | the form's amount cleaning, submit rewrite and guard |
| `NewTransaction` | the `/api/new` handler |
| `Sheets` | the spreadsheet row and range arithmetic |

## Model

| member | source | states |
|---|---|---|
| Calendar.DaysInMonth | src/pages/index.tsx:259 | A month has 28 to 31 days. It has 31 exactly for January, March, May, July, August, October and December, and 30 exactly for April, June, September and November. February has 29 exactly in Gregorian leap years. |
| Calendar.PrevMonth | src/pages/index.tsx:273-274 | January steps back to December of the previous year; any other month steps back one month in the same year. The result is a valid month. |
| Calendar.PrevNextAreAddMonths | src/pages/index.tsx:273-274 | The explicit previous/next-month rules are month arithmetic by -1 and +1, and they are inverse to each other. |
| Calendar.AddMonths | src/pages/index.tsx:383-385 | `new Date(y, m - 1 + k, 1)` lands on a valid month whose month index is the original index plus `k`, wrapping across years. |
| Calendar.AddMonthsCompose | src/pages/index.tsx:383-385 | Shifting by `a` months and then by `b` is shifting by `a + b`. |
| Calendar.InMonthRangeIff | src/pages/index.tsx:232-237 | A real calendar day lies in `[first of month, first of next month)` exactly when it is dated in that month. |
| Calendar.ShiftMonthsKeepingDay | src/pages/index.tsx:572-573 | `setMonth(getMonth() + k)` keeps the day of month, and overflows into the following month when that day does not exist. The result is a valid date. |
| Calendar.DayOfWeek | src/pages/index.tsx:473-474 | The weekday of a date is in 0..6 and is its distance in days from Sunday 7 January 2024, modulo seven. So 0 is Sunday, as for `getDay()`. |
| Calendar.DayOfWeekNext | src/pages/index.tsx:473-474 | From each day to the next, the weekday advances by one modulo seven. |
| Calendar.NextDayNumber | src/pages/index.tsx:245 | Consecutive calendar days have consecutive timestamps (day numbers). |
| Calendar.DayNumberOrder | src/pages/index.tsx:245 | Timestamps order valid dates exactly as the calendar does, and equal timestamps mean equal dates. So sorting by `+new Date(date)` sorts by date. |
| Ledger.IncomePlusExpense | src/pages/index.tsx:249-255 | Every row is income or expense, so the income sum plus the expense sum is the net of all rows. |
| Ledger.SignedTotals | src/pages/index.tsx:254 | Under the sign convention `/api/new` enforces, expenses sum to at most 0 and incomes to at least 0. |
| Seqs.SortDesc | src/pages/index.tsx:426 | The descending sort is a permutation of its input (same multiset, same length) and its keys are non-increasing. |
| Seqs.InsertDescStable | src/pages/index.tsx:426 | Inserting an element puts it after every element already there with the same key. |
| Seqs.SortDescStable | src/pages/index.tsx:426 | The sort is stable: for every key, the elements carrying it come out in the order they went in. |
| Seqs.TopNProperties | src/pages/index.tsx:426-427 | `sort(desc).slice(0, n)` has at most `n` elements, all of them when there are at most `n`. It is sorted and drawn from the input, and every element left out is no larger than every element kept. |
| Seqs.TopNCount | src/pages/index.tsx:426-427 | `sort(desc).slice(0, n)` holds exactly `min(n, length)` elements, none repeated more often than in the input. |
| Seqs.TopNStable | src/pages/index.tsx:426-427 | For every key, the kept elements with that key are a prefix of the input's elements with that key, in the input's order. |
| Seqs.GroupSumSpec | src/pages/index.tsx:418-424 | Grouping by key yields the distinct keys in first-seen order, each carrying the sum of the values of exactly its rows. |
| Seqs.GroupSumTotal | src/pages/index.tsx:418-424 | The group totals add up to the sum over all rows. |
| Seqs.FirstMax | src/pages/index.tsx:548-553 | The scan keeping an entry only on a strictly larger total returns a listed entry that is maximal. Every entry listed before it is strictly smaller. |
| Period.Filtered | src/pages/index.tsx:231-245 | The filtered list holds exactly the selected rows of the history, each with its multiplicity. A row is selected when it is in the month, matches the query and matches the type. On real dates, no row precedes a later-dated row. |
| Period.PeriodBoundaries | src/pages/index.tsx:232-237 | The first day of the month is inside the period, and the first day of the next month is outside it. |
| Period.InPeriodIff | src/pages/index.tsx:232-237 | For a real calendar day, being in the period means being dated in the selected month. |
| Period.UnfilteredIsPeriod | src/pages/index.tsx:239-244 | An empty or blank query with the `ALL` filter keeps exactly the month's rows, as a multiset. |
| Period.KpisScenario | src/pages/index.tsx:249-257 | Worked example: a 50 expense and a 1000 income in January 2024 give income 1000, expense -50, balance 950, total expense 50 and a count of 2. |
| Period.ComputeKpis | src/pages/index.tsx:249-257 | `balance` is the net of the filtered rows and equals `income + expense`. `totalExpenseAbs` is the magnitude of `expense`, and the count is the number of rows. `income` is the sum of the income rows and `expense` the sum of the expense rows. Under the sign convention, income is non-negative, expense is non-positive and `totalExpenseAbs == -expense`. |
| Period.KpisPerKind | src/pages/index.tsx:249-251 | `income` and `expense` are the amounts summed over exactly the rows of each kind, stated through the keyed sum used by the breakdowns. |
| Period.KpisOrderIndependent | src/pages/index.tsx:245-257 | The KPIs depend only on which rows are selected, not on their order. |
| Period.Project | src/pages/index.tsx:259-268 | Only the live month uses today's day as elapsed days. Any other month counts all its days, leaves 0 remaining and projects its balance unchanged. The remaining days are never negative. The daily averages are the totals divided by the elapsed days, and the projection is the balance scaled to the whole month. |
| Period.PctChange | src/pages/index.tsx:295-300 | On a positive base, the percentage satisfies `pct * prev == (cur - prev) * 100`, and it is non-negative exactly when `cur >= prev`. |
| Period.MakeComparison | src/pages/index.tsx:292-310 | `incomePct` is defined exactly when the previous income is positive, and `expensePct` exactly when the previous expense magnitude is positive. Each defined value is the relative change times 100. |
| Period.Compare | src/pages/index.tsx:271-301 | The comparison is null exactly for an empty history. Otherwise it compares with the previous month, whose income and expense magnitude are those of that month's rows. |
| Series.DailyBalance | src/pages/index.tsx:314-345 | The series is empty for an empty history and otherwise has one point per day of the month. The point for day `k` is the balance before the month plus the net of the month's rows up to day `k`. The last point is the prior balance plus the month's net. |
| Series.RunningBalance | src/pages/index.tsx:335-345 | Starting from the opening balance and adding each day's `dailyNet` entry, the loop records point `k` as the opening balance plus the month's net through day `k` (the reference series `Points`). |
| Series.PointsAt | src/pages/index.tsx:338-344 | Every point of the reference series is the opening balance plus the net of the month's rows dated on that day or earlier. |
| Series.DailyNetLookup | src/pages/index.tsx:324-331 | The per-day map entry is exactly what that day adds to the running net (0 for a day without rows). |
| Series.NetThroughMonthEnd | src/pages/index.tsx:336-345 | By the last day of the month, every row of the month has been counted. |
| Series.SeriesReconcilesWithKpis | src/pages/index.tsx:249-255 | The month's movement in the series equals the unfiltered month's `income + expense`. |
| Series.MonthAggLookup | src/pages/index.tsx:366-377 | Each month's bucket holds that month's income sum and the signed sum of all its non-income rows. |
| Series.MonthlyBars | src/pages/index.tsx:363-397 | There are no bars for an empty history, otherwise exactly six. Bar `i` is the month at offset `i - 5` from the selected month. It shows that month's income and the magnitude of that month's expense, which is never negative. |
| Series.LastBarIsSelected | src/pages/index.tsx:384-385 | The sixth bar is the selected month itself. |
| Series.EmptyMonthIsZero | src/pages/index.tsx:393 | A month without rows shows zero income and zero expense. |
| Rankings.CategoryKey | src/pages/index.tsx:422 | A missing or empty category name falls back to `Outros`; otherwise the name is the key. The key is never empty. |
| Rankings.PlaceKey | src/pages/index.tsx:447 | The trimmed description is the key, or `Sem descrição` when it trims to nothing. |
| Rankings.CategoryTotals | src/pages/index.tsx:491-499 | One entry per distinct category of the month's expenses, in first-seen order. Each carries the summed magnitudes of exactly its expenses and is non-negative. |
| Rankings.PieMatchesKpi | src/pages/index.tsx:491-501 | The pie slices add up to the month's spending. Under the sign convention this is `totalExpenseAbs`. |
| Rankings.TopCategories | src/pages/index.tsx:417-438 | At most six categories with distinct names, sorted non-increasing. Each comes from the category totals, and no omitted category exceeds any listed one. The list is empty exactly when the month has no expenses. |
| Rankings.TopCategoriesCount | src/pages/index.tsx:426-427 | The ranking holds six categories, or all of them when there are fewer, each drawn from the grouped totals without repetition. |
| Rankings.TopCategoriesStable | src/pages/index.tsx:426 | Categories with equal totals keep the order in which they were first seen. |
| Rankings.TopCategoryMaximal | src/pages/index.tsx:417-427 | The first ranked category is one with expenses, carries its exact total, and no category spent more. |
| Rankings.TopPlaces | src/pages/index.tsx:441-463 | At most eight places with distinct names, sorted non-increasing, with no omitted place above a listed one. The list is empty exactly when there are no expenses. |
| Rankings.TopPlacesCount | src/pages/index.tsx:451-452 | The ranking holds eight places, or all of them when there are fewer, each drawn from the grouped totals without repetition. |
| Rankings.TopPlacesStable | src/pages/index.tsx:451 | Places with equal totals keep the order in which they were first seen. |
| Rankings.DowOf | src/pages/index.tsx:473-474 | A row's weekday is in 0..6, and on a real date it is the day's distance from Sunday 7 January 2024, modulo seven. |
| Rankings.WeekdaySums | src/pages/index.tsx:466-476 | Exactly seven non-negative buckets, Sunday first (bucket `w` collects the rows whose `DowOf` is `w`). Each is the spending on that weekday, and together they sum to the month's spending. |
| Rankings.BucketsSpec | src/pages/index.tsx:470-476 | The bucket of weekday `w` equals the reference sum of the expenses falling on `w`. |
| Rankings.PriciestDay | src/pages/index.tsx:530-553 | None exactly when there are no expenses. Otherwise it is a day on which an expense fell, with that day's exact total; no day spent more, and every earlier-listed day spent strictly less (the first maximum wins). |
| Rankings.TopExpenses | src/pages/index.tsx:555-559 | At most three expenses (all of them when there are at most three), sorted by magnitude. No omitted expense is larger than a listed one. |
| Rankings.TopExpensesCount | src/pages/index.tsx:555-559 | Three expenses, or all of them when there are fewer, none repeated more often than in the month's expenses. |
| Rankings.TopExpensesStable | src/pages/index.tsx:555-558 | Expenses of equal magnitude keep their order in the filtered list. |
| Rankings.Years | src/pages/index.tsx:606-610 | Every year that occurs in the history appears, nothing else does, and the list is strictly decreasing, so each year appears once. |
| Recurring.Threshold | src/pages/index.tsx:572-573 | The threshold date is a valid date 6 months before today. When today's day does not exist six months earlier, it falls in the following month. |
| Recurring.Rows | src/pages/index.tsx:575-578 | Only expense rows dated on or after the threshold count. |
| Recurring.GroupRowsKeys | src/pages/index.tsx:580-590 | There is one group per distinct trimmed, lower-cased description (or `Sem descrição`), in first-seen order. |
| Recurring.GroupRowsSpec | src/pages/index.tsx:580-590 | Each group's count and total are those of exactly its rows, and its name is the first-seen description of the group. |
| Recurring.AddRow | src/pages/index.tsx:581-589 | Adding a row to an existing key bumps that group's count and total. A new key gets a group at the end, named after the row. Keys stay distinct and earlier names never change. |
| Recurring.Candidates | src/pages/index.tsx:592-598 | Each candidate describes a group seen at least 3 times, with `avg == total / count`. Every such group has its candidate. |
| Recurring.FrequentKeys | src/pages/index.tsx:579-593 | The reference list of grouping keys seen at least 3 times: no key twice, and a key is listed exactly when it occurs at least 3 times. |
| Recurring.CandidatesOnePerKey | src/pages/index.tsx:579-593 | There are exactly as many candidates as frequent keys, and the `i`-th candidate is the item of the `i`-th frequent key. So no group is listed twice, and keys keep their first-seen order. |
| Recurring.RecurringExpenses | src/pages/index.tsx:565-603 | Empty for an empty history, and at most six items. Each item was seen at least 3 times and summarises its group. Items are sorted by `avg * count`, no omitted candidate ranks above a listed one, and all candidates are listed when there are at most six. |
| Recurring.RecurringCount | src/pages/index.tsx:592-600 | There is one candidate per frequent key. For a non-empty history the list has six items, or every frequent group when there are fewer. No item is repeated more often than among the candidates. |
| Recurring.RecurringStable | src/pages/index.tsx:599-600 | Frequent groups with equal spend keep their order among the candidates. |
| Recurring.SpendIsTotal | src/pages/index.tsx:596-599 | The sort key `avg * count` is the group's total spend. |
| Insights.InsightsOf | src/pages/index.tsx:612-674 | The panel holds one to six sentences in fixed order, and each kind appears exactly when its guard holds. It is the single "record more" sentence exactly when no guard holds. The top-category sentence quotes that category's own total. |
| Insights.InsightsAsWritten | src/pages/index.tsx:612-674 | The same panel, with the top-category sentence quoting `totalExpenseAbs` as the source does. |
| Insights.PanelsAgreeBeyondFirst | src/pages/index.tsx:622-674 | The two panels have the same length and agree on every sentence after the first. They are identical when the category sentence is not shown. |
| Insights.DashboardInsights | src/pages/index.tsx:612-674 | The panel the dashboard shows, built as the source builds it: one to six sentences in panel order, each kind present exactly when its guard holds on the month's facts. |
| Insights.DashboardInsightsCorrected | src/pages/index.tsx:612-674 | The same panel with the corrected top-category figure, with the same guarantees. |
| Insights.DashboardPanelsAgree | src/pages/index.tsx:622-674 | The dashboard's two panels have the same length and agree after the first sentence. |
| Insights.EmptyHistoryPanel | src/pages/index.tsx:670-674 | With no history at all, both panels only ask for more entries. |
| Insights.NoExpensesNoSpendingLines | src/pages/index.tsx:623-640 | A month without expenses has no top-category, top-place or priciest-day sentence. |
| Insights.ProjectionOnlyForLiveMonth | src/pages/index.tsx:663-669 | In either panel, the projection sentence never appears for a month other than the live one. |
| Insights.TopCategoryIsLargest | src/pages/index.tsx:613-629 | In the corrected panel, when the month has spending, the first sentence names a category no other category exceeds and quotes that category's total. |
| Insights.AsWrittenOverstatesCategory | src/pages/index.tsx:623-628 | As written, whenever two categories have spending, the first sentence quotes more than its category's total. |
| AmountInput.KeepAllowed | src/pages/index.tsx:1125 | The filter keeps exactly the digits, `,`, `.` and `-` of the input, never lengthening it. |
| AmountInput.KeepAllowedIsFilter | src/pages/index.tsx:1125 | The kept characters are exactly the allowed ones, in their order and with their multiplicity. |
| AmountInput.DropEarlierDotsIsKeepLastDot | src/pages/index.tsx:1126 | The look-ahead rewrite equals the reference rule: remove every `.` before the last one and keep the rest. |
| AmountInput.CleanSpec | src/pages/index.tsx:1124-1126 | The cleaned value holds only allowed characters and at most one `.`, and it has a `.` exactly when the input had one. Apart from dots it is the filtered input. The text after its `.` is the text after the last `.` of the filtered input. |
| AmountInput.CleanIdempotent | src/pages/index.tsx:1124-1126 | Cleaning an already cleaned value changes nothing. |
| AmountInput.SubmitTextSpec | src/pages/index.tsx:686-690 | The submitted text has at most one `.`, and has one exactly when the typed value had a `,`. In that case the `.` stands where the first `,` was, with the dots removed. |
| AmountInput.SubmitBrazilian | src/pages/index.tsx:686-690 | A value typed as `<digits with grouping dots>,<digits>` submits the decimal number written, with the grouping dots ignored. |
| AmountInput.ZeroWithCommaSlipsThrough | src/pages/index.tsx:679-690 | As written, "0,00" passes the guard yet submits 0. |
| AmountInput.LoneDotSlipsThrough | src/pages/index.tsx:679-690 | As written, "." passes the guard yet submits 0. |
| AmountInput.CorrectedGuardRejectsMore | src/pages/index.tsx:679-690 | Every value the guard as written rejects, the corrected guard rejects too. With `ZeroWithCommaSlipsThrough`, the corrected guard rejects strictly more. |
| AmountInput.GuardsAgreeWithoutSeparators | src/pages/index.tsx:679-690 | Without `.` or `,` in the value, the corrected guard and the guard as written agree. |
| Numerals.NumberOf | src/pages/api/new.ts:11 | `Number` of a string is a number only when every character is a digit, `.`, a sign or white space. Any other character, such as a `,` or a `/`, gives NaN. |
| AmountInput.DecimalValue | src/pages/index.tsx:686-690 | `Number` of `<digits>.<digits>` is the decimal written. |
| NewTransaction.AmountOf | src/pages/api/new.ts:10-13 | Only a number or a text amount can pass, and a number passes as it is. Text without a comma is read by `Number` unchanged. Accepted text contains only literal characters apart from its first comma, so a second comma rejects it. |
| NewTransaction.RequiredText | src/pages/api/new.ts:8-9 | A field passes `z.string().min(1)` exactly when it is a non-empty string, and yields that string. |
| NewTransaction.TypeOf | src/pages/api/new.ts:14 | The type passes exactly when it is the string `INCOME` or `EXPENSE`, and yields that kind. |
| NewTransaction.ParseBody | src/pages/api/new.ts:7-17 | A body that is not an object fails as a whole, and every failure names at least one field. An object body names each of the six fields exactly when that field's own check fails: date and description must be non-empty text, amount must be a finite number, or text that `Number` reads as a finite number once its first comma is a dot, type must be `INCOME` or `EXPENSE`, and category and account must be non-empty text when present. An accepted body carries exactly the checked values, with `Outros` and `Conta Corrente` for a missing category and account. |
| NewTransaction.ParseFieldsOf | src/pages/api/new.ts:7-17 | Every valid body sent as JSON passes validation unchanged. |
| NewTransaction.ParseDefaults | src/pages/api/new.ts:15-16 | Leaving out category and account gives `Outros` and `Conta Corrente`. |
| NewTransaction.EmptyCategoryRejected | src/pages/api/new.ts:15 | An empty category is rejected, not defaulted. |
| NewTransaction.AmountWithComma | src/pages/api/new.ts:10-11 | A string amount with a decimal comma reads as the decimal written. |
| NewTransaction.AmountNeedsNumberOrText | src/pages/api/new.ts:12-13 | A missing amount, `null`, a boolean, an array or an object is rejected. |
| NewTransaction.ClientAmountReachesServer | src/pages/api/new.ts:10-13 | The server reads back exactly the amount the form computed, and rejects the form's NaN (sent as `null`). |
| NewTransaction.NormalizedAmount | src/pages/api/new.ts:31-32 | Normalisation preserves the magnitude. An expense becomes non-positive and an income non-negative. |
| NewTransaction.NormalizeIdempotent | src/pages/api/new.ts:31-32 | Normalising twice is normalising once. |
| NewTransaction.NormalizeFixesConvention | src/pages/api/new.ts:31-32 | An amount is left unchanged exactly when it already has its kind's sign. |
| NewTransaction.IsoDateArgs | src/pages/api/new.ts:35-36 | `Y-M-D` gives the year, month and day written. |
| NewTransaction.YearOnlyDateArgs | src/pages/api/new.ts:35-36 | `Y` alone gives month 1 and day 1. |
| NewTransaction.YearMonthDateArgs | src/pages/api/new.ts:35-36 | `Y-M` gives day 1 of that month. |
| NewTransaction.SheetRow | src/pages/api/new.ts:73-82 | The sheet row has exactly eight columns. |
| NewTransaction.ReadSheetRow | src/pages/api/new.ts:73-82 | The row reads back as column A the id (via `String`), B the creation time, C the raw date string, then description, normalised amount, type, account and category. |
| NewTransaction.ParseIntToString | src/pages/api/new.ts:74 | Reading back the id's decimal text gives the id, negative or not. |
| NewTransaction.Handle | src/pages/api/new.ts:19-90 | Non-POST gives 405 and stores nothing. An invalid body gives 400 and stores nothing. A valid body whose date parts are all numbers gives 201. It stores the database's id, the date's `Date.UTC` arguments, the description, the normalised amount, the type, the category and the account. A valid body with a non-numeric date part gives 500 and stores nothing. A row reaches the sheet exactly when a record was stored, the sheet is configured and the append does not throw, and that row reads back as the stored record. |
| NewTransaction.BadAmountRejected | src/pages/api/new.ts:10-26 | A well-formed body whose amount is replaced by one that fails the amount check, such as `null`, is answered 400 and nothing is stored. |
| NewTransaction.FormNaNRejected | src/pages/api/new.ts:10-26 | An amount the form cannot read is sent as `null`, so the request is answered 400 and nothing is stored. |
| NewTransaction.HandleStoresIsoDate | src/pages/api/new.ts:35-60 | A `Y-M-D` date is stored as that day, with each other field taken from the body. |
| NewTransaction.SlashedDateFails | src/pages/api/new.ts:7-60 | As written, a date such as `10/11/2025` passes validation and the request fails with a server error. |
| NewTransaction.ParseBodyChecked | src/pages/api/new.ts:7-17 | The corrected validation accepts exactly the bodies the original accepts whose date parts are all numbers, and returns the same body. |
| NewTransaction.CheckedHandlerAgrees | src/pages/api/new.ts:19-90 | The corrected handler never answers 500. It answers 400 exactly where the original fails with 500, and agrees everywhere else. |
| NewTransaction.AppendFailureInvisible | src/pages/api/new.ts:63-89 | A failing append changes neither the status nor the stored record. |
| NewTransaction.StoredFollowsSignConvention | src/pages/api/new.ts:31-32 | Every stored record obeys the sign convention the dashboard's totals rely on. |
| Sheets.QuoteRoundTrip | src/lib/sheets.ts:41 | Un-quoting a quoted tab name gives the name back. A quoted range un-quotes to a name exactly when it is that name quoted. |
| Sheets.UndoubleDoubleQuotes | src/lib/sheets.ts:41 | Undoubling the doubled `'`s recovers the name. |
| Sheets.DoubleQuotesPlain | src/lib/sheets.ts:59 | A name without `'` is used verbatim. |
| Sheets.FindRowByFirstCell | src/lib/sheets.ts:62-68 | The scan returns a 1-based row number whose first cell (`""` for an empty row) equals the key and with no match above it. It returns none exactly when no row matches. |
| Sheets.FirstRowSpec | src/lib/sheets.ts:62-68 | The reference definition finds the smallest matching row, and finds nothing only when no row matches. |
| Sheets.FindAgreesWithFirstRow | src/lib/sheets.ts:62-68 | Any result meeting the scan's contract is the reference result. |
| Sheets.DeleteRangeIsOneRow | src/lib/sheets.ts:74-86 | Deleting `[r-1, r)` removes exactly row `r`. Rows above keep their place, rows below move up by one, and the multiset loses exactly that row. |
| Sheets.DeleteRowByFirstCell | src/lib/sheets.ts:94-98 | With no match, nothing is deleted and the result is false. With a match whose tab-id lookup fails, the delete ends in that lookup's error and nothing is deleted. |
| Sheets.DeleteRemovesFirstMatch | src/lib/sheets.ts:94-98 | With a match, the first matching row, and only it, is removed, and the result is true. Other rows keep their order and the key occurs once less. |
| Sheets.DeleteOnZeroIdTab | src/lib/sheets.ts:23-36 | As written, deleting a matching row from a tab whose id is 0 ends in "tab not found". With the corrected lookup, the same delete succeeds and reports true. |
| Sheets.DeleteUndoesAppend | src/lib/sheets.ts:94-98 | Appending a row under a fresh key and deleting by that key restores the tab. |
| Sheets.RowNumberAsWrittenWithoutBang | src/lib/sheets.ts:50-51 | As written, the reported row number is the appended row whenever the tab name has no `!`. |
| Sheets.RowNumberAsWrittenMisreads | src/lib/sheets.ts:50-51 | As written, a tab named `Q1!<m>` makes every append report row `m`. The corrected reading reports the real row. |
| Sheets.RowNumberOfAppend | src/lib/sheets.ts:50-51 | Reading the digits after the last `!` recovers the appended row number for every tab name. |
| Sheets.FindTab | src/lib/sheets.ts:31 | The search returns the first tab with the title, or none when no tab has it. |
| Sheets.Lookup | src/lib/sheets.ts:31-35 | The corrected lookup succeeds exactly when the first tab with the title has an id, and returns that id. |
| Sheets.SheetIdZeroRejected | src/lib/sheets.ts:32-34 | As written, a tab whose id is 0 is reported as not found. |
| Sheets.LookupsAgreeOffZero | src/lib/sheets.ts:32-34 | The two lookups agree whenever the id is not 0. |
| Sheets.GetSheetId | src/lib/sheets.ts:23-36 | A cached id is returned as is. Otherwise the lookup as written runs, a success is cached, and a failure leaves the cache empty. |
| Sheets.GetSheetIdCorrected | src/lib/sheets.ts:23-36 | Without a cached id, the corrected version returns the corrected lookup's result. |
| Sheets.ZeroIdNeverCached | src/lib/sheets.ts:23-36 | As written, a tab with id 0 is reported as not found and never cached. The corrected version finds and caches it. |
| Sheets.GetSheetIdsAgreeOffZero | src/lib/sheets.ts:23-36 | Whenever the id is not 0, the two versions return and cache alike. |
| Sheets.CachedIdIsStable | src/lib/sheets.ts:23-25 | Once an id is cached, later calls return it whatever the spreadsheet says. |

## Left out

- Rendering, styles, chart options, sidebar state, toasts, confirmation dialogs and the periodic refresh of the page are UI and timers.
- `fetch`, the database calls (upserts, creates, queries), Google authentication and the Sheets HTTP requests are foreign I/O. Their results are parameters: the database id, the tab list, the appended row and whether the append throws.
- The other API routes, the seed script and the diagnostics scripts are left out; they hold no aggregation logic.
- The webhook `src/pages/api/hook/new-transaction.ts` is not modelled. It stores the amount exactly as sent (lines 29-39), so its rows need not follow `Ledger.SignConvention`. The lemmas that assume the convention speak only of rows `/api/new` stored.
- The category and account upserts of `/api/new` (lines 38-49) are not modelled. They run before the create, so on the server-error path they may already have added a category or an account.
- JavaScript `Date` time zones are not modelled. The source compares local-time month boundaries with UTC-midnight stored dates, and keys days with `toISOString`. Every date here is a calendar day, and local and UTC days coincide.
- `Date.UTC`'s normalisation of out-of-range arguments is not modelled. `NewTransaction.DateArgs` stops at the numbers passed to it. A NaN part is a server error in `NewTransaction.Handle`. A year so large that the date exceeds 8.64e15 ms is not treated as invalid.
- IEEE double arithmetic, `toFixed`/`toLocaleString` formatting and the exact sentence texts are left out. Amounts are exact reals, and a sentence is the data it shows.
- `Numerals.NumberOf` covers the forms the dashboard's own form produces: white space, an optional sign, and digits with at most one `.`. Exponents, hexadecimal, `Infinity` and similar forms are read as NaN.
- NewTransaction.ParseBody: an amount sent as text goes through `Number` (src/pages/api/new.ts:11), and any client can send text. So a text amount in exponent or hexadecimal form, such as `"1e3"` or `"0x10"`, is rejected here with 400, where the source reads 1000 or 16 and answers 201. `NewTransaction.AmountOf` and `NewTransaction.Handle` inherit the gap.
- Rankings.DowOf: the weekday comes from the calendar day, not from `getDay()` in the local time zone.
- Period.Filtered: the search lower-cases with `Text.ToLower`, which maps only A–Z and U+00C0–U+00DE (except U+00D7). `toLowerCase` also lowers other letters, so a query in other scripts may match differently.
- Recurring.GroupRowsKeys: descriptions are grouped after the same partial lower-casing. Two descriptions that differ only in letters outside those ranges form two groups here, where `toLowerCase` would merge them.
- Period.Filtered: the date sort is stated as "no row precedes a later-dated row" plus a permutation. Which of two same-dated rows comes first is left to the stable sort and not stated.
- Series.DailyBalance: the day labels (`"01"`, `"02"`, …) are not produced. Only the values are.
- Series.MonthlyBars: the `MM/YY` labels are not produced. Each bar carries its month instead.
- Sheets.GetSheetId: the cache is an explicit value passed in and returned, not a module-level variable.
- NewTransaction.Handle: `Numerals.NumberOf` reads exponent and hexadecimal date parts as NaN, so such dates answer 500 here, where `Number` would read them as numbers.
- Sheets.DeleteRowByFirstCell: the key is compared with each first cell as text. A cell that the API returns as a number or boolean is assumed to be its text already.
- Sheets.RowNumberOfAppend: the format of `updatedRange` is taken to be `<quoted tab>!A<n>:H<n>`. The API's other renderings, such as an unquoted tab name, are not enumerated.
- Recurring.Threshold: `setMonth` is applied to a calendar day, and the time of day of `new Date()` is dropped. So `Recurring.Rows` counts expenses dated on the threshold day itself. The source excludes them unless the request runs at exactly midnight UTC, because `d < thresholdDate` (src/pages/index.tsx:576-577) compares a date at UTC midnight with a threshold that keeps the current time of day.

## Findings

| source | as written | input that shows it | evidently intended | confidence | as-written member | corrected member |
|---|---|---|---|---|---|---|
| src/pages/index.tsx:623-628 | the top-category sentence quotes `totalExpenseAbs`, the month's whole spending | two categories with spending, e.g. 100 on `Mercado` and 50 on `Lazer`: the sentence says `Mercado` totals 150 | quote the top category's own total | not executed | Insights.InsightsAsWritten, Insights.DashboardInsights, Insights.AsWrittenOverstatesCategory | Insights.InsightsOf, Insights.DashboardInsightsCorrected, Insights.TopCategoryIsLargest |
| src/pages/index.tsx:679-690 | the zero check applies `Number` to the raw text, where a `,` or a lone `.` gives NaN, which is not 0 | amount `0,00` or `.`: the guard passes and the body carries amount 0 | reject a value that submits 0 | not executed | AmountInput.RejectedAsWritten, AmountInput.ZeroWithCommaSlipsThrough | AmountInput.Rejected, AmountInput.CorrectedGuardRejectsMore |
| src/lib/sheets.ts:32-34 | `!target?.properties?.sheetId` treats the id 0 as missing | a spreadsheet whose tab has sheet id 0 (the default id of a spreadsheet's first tab): delete throws "tab not found" | reject only a missing tab or a missing id | not executed | Sheets.LookupAsWritten, Sheets.GetSheetId, Sheets.ZeroIdNeverCached, Sheets.DeleteOnZeroIdTab | Sheets.Lookup, Sheets.GetSheetIdCorrected, Sheets.GetSheetIdsAgreeOffZero |
| src/lib/sheets.ts:51 | the row number is read from the segment after the first `!` | a tab named `Q1!7`: `updatedRange` is `'Q1!7'!A12:H12`, and the reported row is 7 | read the cell part after the last `!`, which a quoted tab name cannot end inside | not executed | Sheets.RowNumberAsWritten, Sheets.RowNumberAsWrittenMisreads | Sheets.RowNumber, Sheets.RowNumberOfAppend |
| src/pages/api/new.ts:35-60 | the date only has to be a non-empty string (line 8), and its parts go through `Number` into `Date.UTC` | date `10/11/2025`: `Number` gives NaN, `new Date` is an Invalid Date, the create throws and the request ends in a 500 after the upserts have run | reject a date that is not `Y[-M[-D]]` in numbers with 400 | not executed | NewTransaction.Handle, NewTransaction.SlashedDateFails | NewTransaction.ParseBodyChecked, NewTransaction.CheckedHandlerAgrees |

=== FILE: amount_input.dfy ===
/** The "Valor (R$)" field of the new-entry form: the cleaning applied on
    every keystroke, the rewrite applied on submit, and the submit guard.
    The field is written the Brazilian way: `.` groups thousands and `,`
    is the decimal point. */
module AmountInput {
  import opened Wrappers
  import opened Text
  import opened Numerals
  import Seqs

  // ---------------------------------------------------------------------
  // Cleaning on every keystroke

  /** Characters the field lets through: digits, `,`, `.` and `-`. */
  predicate Allowed(c: char) {
    IsDigit(c) || c == ',' || c == '.' || c == '-'
  }

  predicate AllAllowed(s: string) {
    forall k :: 0 <= k < |s| ==> Allowed(s[k])
  }

  /** `replace(/[^\d,.-]/g, '')`: the allowed characters, in order. */
  function KeepAllowed(s: string): (r: string)
    ensures |r| <= |s|
    ensures AllAllowed(r)
    ensures forall c :: c in r <==> c in s && Allowed(c)
  {
    if |s| == 0 then ""
    else if Allowed(s[0]) then [s[0]] + KeepAllowed(s[1..])
      else KeepAllowed(s[1..])
  }

  /** The kept characters are exactly the allowed ones, in their order and
      with their multiplicity. */
  lemma {:induction false} KeepAllowedIsFilter(s: string)
    ensures KeepAllowed(s) == Seqs.Filter(s, Allowed)
  {
    if |s| > 0 {
      Seqs.FilterHead(s, Allowed);
      KeepAllowedIsFilter(s[1..]);
    }
  }

  /** Text that is already clean passes the filter unchanged. */
  lemma {:induction false} KeepAllowedIdentity(s: string)
    requires AllAllowed(s)
    ensures KeepAllowed(s) == s
  {
    if |s| > 0 {
      assert s == [s[0]] + s[1..];
      KeepAllowedIdentity(s[1..]);
    }
  }

  /** `replace(/\.(?=.*\.)/g, '')`: drops every `.` that has another `.`
      somewhere after it. The lookahead's `.*` stops at line terminators,
      but none are left after `KeepAllowed`. */
  function DropEarlierDots(s: string): string {
    if |s| == 0 then ""
    else if s[0] == '.' && '.' in s[1..] then DropEarlierDots(s[1..])
    else [s[0]] + DropEarlierDots(s[1..])
  }

  /** The `onChange` handler's value. */
  function Clean(s: string): string {
    DropEarlierDots(KeepAllowed(s))
  }

  /** The index of the last `c` in `s`, or -1. */
  function LastIndexOf(s: string, c: char): (i: int)
    ensures -1 <= i < |s|
    ensures i == -1 <==> c !in s
    ensures i >= 0 ==> s[i] == c && c !in s[i + 1..]
  {
    if |s| == 0 then -1
    else
      var t := s[1..];
      var j := LastIndexOf(t, c);
      if j >= 0 then
        assert s[j + 2..] == t[j + 1..];
        j + 1
      else if s[0] == c then
        assert s[1..] == t;
        0
      else
        assert forall k :: 0 <= k < |s| ==> s[k] != c by {
          assert forall k :: 1 <= k < |s| ==> s[k] == t[k - 1];
        }
        -1
  }

  /** Reference definition of the dot rule: with no `.`, nothing changes;
      otherwise every `.` before the last one is removed and the last one
      and everything after it are kept. */
  function KeepLastDot(s: string): string {
    var j := LastIndexOf(s, '.');
    if j < 0 then s else RemoveAll(s[..j], '.') + s[j..]
  }

  lemma {:induction false} DropEarlierDotsIsKeepLastDot(s: string)
    ensures DropEarlierDots(s) == KeepLastDot(s)
  {
    if |s| > 0 {
      var t := s[1..];
      DropEarlierDotsIsKeepLastDot(t);
      if '.' in t {
        KeepLastDotCons(s);
      } else {
        assert LastIndexOf(t, '.') == -1;
        assert s == [s[0]] + t;
        if s[0] == '.' {
          assert LastIndexOf(s, '.') == 0;
          assert s[..0] == "";
        }
      }
    }
  }

  /** One step of the reference definition, when a later `.` exists. */
  lemma KeepLastDotCons(s: string)
    requires |s| > 0 && '.' in s[1..]
    ensures KeepLastDot(s)
      == if s[0] == '.' then KeepLastDot(s[1..]) else [s[0]] + KeepLastDot(s[1..])
  {
    var t := s[1..];
    var jt := LastIndexOf(t, '.');
    LastIndexOfCons(s, '.');
    SplitCons(s, jt + 1);
    RemoveAllCons(s[..jt + 1], '.');
    var a := RemoveAll(s[..jt + 1], '.');
    var b := RemoveAll(t[..jt], '.');
    var x := t[jt..];
    assert KeepLastDot(s) == a + x;
    assert KeepLastDot(t) == b + x;
    if s[0] != '.' {
      AppendAssoc([s[0]], b, x);
    }
  }

  lemma AppendAssoc<T>(a: seq<T>, b: seq<T>, c: seq<T>)
    ensures (a + b) + c == a + (b + c)
  {
  }

  lemma LastIndexOfCons(s: string, c: char)
    requires |s| > 0 && c in s[1..]
    ensures LastIndexOf(s, c) == LastIndexOf(s[1..], c) + 1
  {
  }

  lemma SplitCons(s: string, j: int)
    requires 0 < j <= |s|
    ensures s[..j][1..] == s[1..][..j - 1]
    ensures s[j..] == s[1..][j - 1..]
  {
  }

  lemma RemoveAllCons(p: string, c: char)
    requires |p| > 0
    ensures RemoveAll(p, c) == if p[0] == c then RemoveAll(p[1..], c) else [p[0]] + RemoveAll(p[1..], c)
  {
  }

  predicate AtMostOneDot(s: string) {
    forall i, j :: 0 <= i < j < |s| && s[i] == '.' ==> s[j] != '.'
  }

  /** What the field keeps: only allowed characters, at most one `.`; the
      `.` survives exactly when one was typed, and it is the last one typed:
      the digits, commas and minus signs typed are all kept in order, and so
      is everything after the last `.`. */
  lemma {:induction false} CleanSpec(s: string)
    ensures AllAllowed(Clean(s))
    ensures AtMostOneDot(Clean(s))
    ensures '.' in Clean(s) <==> '.' in s
    ensures RemoveAll(Clean(s), '.') == RemoveAll(KeepAllowed(s), '.')
    ensures '.' in s ==>
      var k := KeepAllowed(s);
      Clean(s)[LastIndexOf(Clean(s), '.') + 1..] == k[LastIndexOf(k, '.') + 1..]
  {
    var k := KeepAllowed(s);
    DropEarlierDotsIsKeepLastDot(k);
    if '.' in k {
      KeepLastDotWithDot(k);
    } else {
      KeepLastDotNoDot(k);
    }
  }

  /** The dot rule on allowed text holding a `.`. */
  lemma {:induction false} KeepLastDotWithDot(k: string)
    requires AllAllowed(k) && '.' in k
    ensures AllAllowed(KeepLastDot(k))
    ensures AtMostOneDot(KeepLastDot(k))
    ensures '.' in KeepLastDot(k)
    ensures RemoveAll(KeepLastDot(k), '.') == RemoveAll(k, '.')
    ensures KeepLastDot(k)[LastIndexOf(KeepLastDot(k), '.') + 1..] == k[LastIndexOf(k, '.') + 1..]
  {
    var r := KeepLastDot(k);
    var j := LastIndexOf(k, '.');
    var pre := k[..j];
    var tail := k[j + 1..];
    assert k == pre + ['.'] + tail;
    var head := RemoveAll(pre, '.');
    ShapeKeep(pre, tail);
    DotBetween(head, tail);
    ShapeRemove(pre, tail);
    assert forall x :: x in r ==> x in k;
    MembersAllowed(r);
  }

  /** The dot rule on allowed text without `.` changes nothing. */
  lemma KeepLastDotNoDot(k: string)
    requires AllAllowed(k) && '.' !in k
    ensures KeepLastDot(k) == k
    ensures AtMostOneDot(k)
  {
    NoDotAtMostOne(k);
  }

  /** The reference rule on a text whose last `.` is known. */
  lemma ShapeKeep(pre: string, tail: string)
    requires '.' !in tail
    ensures LastIndexOf(pre + ['.'] + tail, '.') == |pre|
    ensures KeepLastDot(pre + ['.'] + tail) == RemoveAll(pre, '.') + ['.'] + tail
  {
    var k := pre + ['.'] + tail;
    ShapeIndex(pre, tail);
    SplitAt(pre, tail);
    AppendAssoc(RemoveAll(pre, '.'), ['.'], tail);
  }

  lemma SplitAt(pre: string, tail: string)
    ensures (pre + ['.'] + tail)[..|pre|] == pre
    ensures (pre + ['.'] + tail)[|pre|..] == ['.'] + tail
  {
  }

  lemma ShapeIndex(pre: string, tail: string)
    requires '.' !in tail
    ensures LastIndexOf(pre + ['.'] + tail, '.') == |pre|
  {
    var k := pre + ['.'] + tail;
    DotFreeAfter(pre, tail);
    LastIndexOfAt(k, |pre|);
  }

  lemma DotFreeAfter(pre: string, tail: string)
    requires '.' !in tail
    ensures var k := pre + ['.'] + tail;
      k[|pre|] == '.' && forall m :: |pre| < m < |k| ==> k[m] != '.'
  {
    var k := pre + ['.'] + tail;
    forall m | |pre| < m < |k| ensures k[m] != '.' {
      var q := m - |pre| - 1;
      assert k[m] == tail[q];
      assert tail[q] in tail;
    }
  }

  lemma LastIndexOfAt(k: string, i: int)
    requires 0 <= i < |k| && k[i] == '.'
    requires forall m :: i < m < |k| ==> k[m] != '.'
    ensures LastIndexOf(k, '.') == i
  {
    var j := LastIndexOf(k, '.');
    assert k[i] in k;
    assert forall m :: j < m < |k| ==> k[m] != '.' by {
      forall m | j < m < |k| ensures k[m] != '.' {
        assert k[m] == k[j + 1..][m - j - 1];
      }
    }
  }

  /** Dropping the earlier dots loses nothing but dots. */
  lemma ShapeRemove(pre: string, tail: string)
    ensures RemoveAll(RemoveAll(pre, '.') + ['.'] + tail, '.') == RemoveAll(pre + ['.'] + tail, '.')
  {
    var head := RemoveAll(pre, '.');
    RemoveAllAppend(head + ['.'], tail, '.');
    RemoveAllAppend(head, ['.'], '.');
    RemoveAllAppend(pre + ['.'], tail, '.');
    RemoveAllAppend(pre, ['.'], '.');
    RemoveAllIdempotent(pre, '.');
  }

  /** A single `.` between two dot-free texts is the only and the last one. */
  lemma DotBetween(head: string, tail: string)
    requires '.' !in head && '.' !in tail
    ensures var r := head + ['.'] + tail;
      AtMostOneDot(r) && LastIndexOf(r, '.') == |head| && r[|head| + 1..] == tail
  {
    var r := head + ['.'] + tail;
    assert r[|head|] == '.';
    assert r[|head| + 1..] == tail;
    assert forall k :: 0 <= k < |head| ==> r[k] == head[k];
  }

  lemma MembersAllowed(r: string)
    requires forall x :: x in r ==> Allowed(x)
    ensures AllAllowed(r)
  {
    assert forall k :: 0 <= k < |r| ==> r[k] in r;
  }

  lemma NoDotAtMostOne(r: string)
    requires '.' !in r
    ensures AtMostOneDot(r)
  {
    assert forall k :: 0 <= k < |r| ==> r[k] in r;
  }

  lemma RemoveAllIdempotent(s: string, c: char)
    ensures RemoveAll(RemoveAll(s, c), c) == RemoveAll(s, c)
  {
    RemoveAllAbsent(RemoveAll(s, c), c);
  }

  /** Cleaning a cleaned value changes nothing, so re-rendering the field
      with its own value is stable. */
  lemma CleanIdempotent(s: string)
    ensures Clean(Clean(s)) == Clean(s)
  {
    var r := Clean(s);
    CleanSpec(s);
    KeepAllowedIdentity(r);
    DropEarlierDotsIsKeepLastDot(r);
    KeepLastDotSingle(r);
  }

  /** With at most one `.`, the dot rule has nothing to drop. */
  lemma KeepLastDotSingle(r: string)
    requires AtMostOneDot(r)
    ensures KeepLastDot(r) == r
  {
    var j := LastIndexOf(r, '.');
    if j >= 0 {
      assert '.' !in r[..j] by {
        forall i | 0 <= i < j ensures r[..j][i] != '.' {
          assert r[j] == '.';
        }
      }
      RemoveAllAbsent(r[..j], '.');
      assert r[..j] + r[j..] == r;
    }
  }

  // ---------------------------------------------------------------------
  // Submit

  /** The amount text sent on submit: `.replace(/\./g, '').replace(',', '.')`
      — every `.` is a thousands separator and goes, the first `,` becomes
      the decimal point. */
  function SubmitText(a: string): (r: string)
    ensures |r| <= |a|
  {
    ReplaceFirst(RemoveAll(a, '.'), ',', '.')
  }

  /** `Number(...)` of the rewritten text: `None` stands for NaN, which
      `JSON.stringify` sends as `null`. */
  function BodyAmount(a: string): Option<real> {
    NumberOf(SubmitText(a))
  }

  /** The rewrite leaves at most one `.`, and it sits where the first `,`
      was, with the text before it unchanged: the result reads as a
      JavaScript decimal. */
  lemma SubmitTextSpec(a: string)
    ensures AtMostOneDot(SubmitText(a))
    ensures '.' in SubmitText(a) <==> ',' in a
    ensures ',' in a ==>
      var t := RemoveAll(a, '.');
      var i := IndexOf(t, ',');
      SubmitText(a)[i] == '.' && SubmitText(a)[..i] == t[..i]
  {
    var t := RemoveAll(a, '.');
    var r := SubmitText(a);
    var i := IndexOf(t, ',');
    assert ',' in t <==> ',' in a;
    forall x | 0 <= x < |r| && x != i ensures r[x] != '.' {
      assert r[x] == t[x];
      assert t[x] in t;
    }
    if ',' in a {
      assert r[i] == '.';
    } else {
      assert r == t;
    }
  }

  /** The Brazilian notation reads as intended: an integer part (possibly
      grouped with `.`), a `,` and decimal digits submit the value they
      denote, e.g. "1.234,5" submits 1234.5. */
  lemma SubmitBrazilian(whole: string, frac: string)
    requires ',' !in whole
    requires |RemoveAll(whole, '.')| > 0 && AllDigits(RemoveAll(whole, '.'))
    requires AllDigits(frac)
    ensures BodyAmount(whole + "," + frac)
      == Some(DecimalOf(RemoveAll(whole, '.'), frac))
  {
    SubmitTextOf(whole, frac);
    DecimalValue(RemoveAll(whole, '.'), frac);
  }

  /** On "<whole>,<frac>" the rewrite drops the grouping dots and turns the comma into `.`. */
  lemma SubmitTextOf(whole: string, frac: string)
    requires ',' !in whole
    requires AllDigits(frac)
    ensures SubmitText(whole + "," + frac) == RemoveAll(whole, '.') + "." + frac
  {
    var w := RemoveAll(whole, '.');
    DigitsHaveNoDot(frac);
    RemoveAllAppend(whole + ",", frac, '.');
    RemoveAllAppend(whole, ",", '.');
    RemoveAllAbsent(frac, '.');
    assert RemoveAll(",", '.') == ",";
    assert ',' !in w;
    IndexOfAfter(w, ',', frac);
    ReplaceAt(w, frac);
  }

  lemma DigitsHaveNoDot(s: string)
    requires AllDigits(s)
    ensures '.' !in s && ',' !in s
  {
    assert forall k :: 0 <= k < |s| ==> s[k] != '.' && s[k] != ',';
  }

  lemma ReplaceAt(w: string, frac: string)
    requires IndexOf(w + "," + frac, ',') == |w|
    ensures ReplaceFirst(w + "," + frac, ',', '.') == w + "." + frac
  {
    var t := w + "," + frac;
    assert t[..|w|] == w;
    assert t[|w| + 1..] == frac;
  }

  /** `Number("<digits>.<digits>")` is the decimal value written. */
  lemma DecimalValue(w: string, frac: string)
    requires |w| > 0 && AllDigits(w) && AllDigits(frac)
    ensures NumberOf(w + "." + frac) == Some(DecimalOf(w, frac))
  {
    var u := w + "." + frac;
    DecimalTrims(w, frac);
    assert u[0] == w[0];
    DecimalUnsigned(w, frac);
  }

  lemma DecimalTrims(w: string, frac: string)
    requires |w| > 0 && AllDigits(w) && AllDigits(frac)
    ensures Trim(w + "." + frac) == w + "." + frac
  {
    var u := w + "." + frac;
    assert u[0] == w[0];
    NotSpace(u[0]);
    assert TrimStart(u) == u;
    if |frac| > 0 {
      assert u[|u| - 1] == frac[|frac| - 1];
      NotSpace(u[|u| - 1]);
    } else {
      assert u[|u| - 1] == '.';
    }
    assert TrimEnd(u) == u;
  }

  lemma NotSpace(c: char)
    requires IsDigit(c)
    ensures !IsSpace(c)
  {
  }

  lemma DecimalUnsigned(w: string, frac: string)
    requires |w| > 0 && AllDigits(w) && AllDigits(frac)
    ensures UnsignedDecimal(w + "." + frac) == Some(DecimalOf(w, frac))
  {
    var u := w + "." + frac;
    LeadingDigitsOf(w, "." + frac);
    assert u == w + ("." + frac);
    DecimalPieces(w, frac);
    UnsignedDecimalAt(u, |w|);
  }

  lemma DecimalPieces(w: string, frac: string)
    ensures (w + "." + frac)[..|w|] == w
    ensures (w + "." + frac)[|w| + 1..] == frac
    ensures (w + "." + frac)[|w|] == '.'
  {
  }

  /** `UnsignedDecimal` on digits, one `.` and digits. */
  lemma UnsignedDecimalAt(t: string, i: nat)
    requires i == LeadingDigits(t) && 0 < i < |t| && t[i] == '.' && AllDigits(t[i + 1..])
    ensures UnsignedDecimal(t)
      == Some(DecimalOf(t[..i], t[i + 1..]))
  {
  }

  // ---------------------------------------------------------------------
  // The submit guard

  /** `!form.description || form.amount === '' || Number(form.amount) === 0`:
      the guard reads the field as typed, before the rewrite. */
  predicate RejectedAsWritten(description: string, amount: string) {
    description == "" || amount == "" || NumberOf(amount) == Some(0.0)
  }

  /** The guard judging the value that is actually sent. */
  predicate Rejected(description: string, amount: string) {
    description == "" || amount == "" || BodyAmount(amount) == Some(0.0)
  }

  /** As written, "0,00" passes the guard (the comma makes `Number` NaN, and
      NaN is not 0) and yet submits the amount 0. */
  lemma ZeroWithCommaSlipsThrough()
    ensures !RejectedAsWritten("Mercado", "0,00")
    ensures BodyAmount("0,00") == Some(0.0)
  {
    CommaInZeroZero();
    CommaIsNaN("0,00");
    ZeroDigits();
    assert "0,00" == "0" + "," + "00";
    SubmitBrazilian("0", "00");
  }

  /** Likewise a lone "." passes (`Number(".")` is NaN) and submits
      `Number("")`, which is 0. */
  lemma LoneDotSlipsThrough()
    ensures !RejectedAsWritten("Mercado", ".")
    ensures BodyAmount(".") == Some(0.0)
  {
    assert !IsSpace('.');
    assert Trim(".") == ".";
    assert LeadingDigits(".") == 0;
    assert UnsignedDecimal(".") == None;
    assert RemoveAll(".", '.') == "";
    assert SubmitText(".") == "";
  }

  lemma CommaInZeroZero()
    ensures ',' in "0,00"
  {
    assert "0,00"[1] == ',';
  }

  lemma ZeroDigits()
    ensures AllDigits("0") && AllDigits("00") && RemoveAll("0", '.') == "0"
    ensures DecimalOf("0", "00") == 0.0
  {
    assert "00"[..1] == "0";
    assert "0"[..0] == "";
    assert ValueOf("0") == 0;
    assert ValueOf("00") == 0;
  }

  /** The correction only adds rejections: whatever the guard as written
      rejects, the corrected guard rejects too. A typed amount that reads
      as 0 still submits 0 once its dots are dropped. */
  lemma CorrectedGuardRejectsMore(description: string, amount: string)
    ensures RejectedAsWritten(description, amount) ==> Rejected(description, amount)
  {
    if NumberOf(amount) == Some(0.0) {
      if ',' in amount {
        CommaIsNaN(amount);
      } else {
        assert ',' !in RemoveAll(amount, '.');
        NumberOfZeroWithoutDots(amount);
      }
    }
  }

  /** Without `.` or `,` the rewrite is the identity, so both guards judge
      such amounts alike: the correction only changes decimal-notation cases. */
  lemma GuardsAgreeWithoutSeparators(description: string, amount: string)
    requires '.' !in amount && ',' !in amount
    ensures Rejected(description, amount) <==> RejectedAsWritten(description, amount)
  {
    RemoveAllAbsent(amount, '.');
  }
}

=== FILE: calendar.dfy ===
/** Proleptic Gregorian calendar dates, the month arithmetic the dashboard
    performs with `new Date(year, month - k, 1)`, and the day-of-week rule
    behind `Date.getDay()` (0 = Sunday). */
module Calendar {

  datatype Date = Date(year: int, month: int, day: int)

  /** A calendar month, `month` in 1..12 when well formed. */
  datatype YearMonth = YearMonth(year: int, month: int)

  predicate IsLeapYear(y: int) {
    y % 4 == 0 && (y % 100 != 0 || y % 400 == 0)
  }

  function DaysInMonth(y: int, m: int): (n: int)
    requires 1 <= m <= 12
    ensures 28 <= n <= 31
    ensures n == 31 <==> m in {1, 3, 5, 7, 8, 10, 12}
    ensures n == 30 <==> m in {4, 6, 9, 11}
    ensures m == 2 ==> (n == 29 <==> IsLeapYear(y))
  {
    if m == 2 then (if IsLeapYear(y) then 29 else 28)
    else if m == 4 || m == 6 || m == 9 || m == 11 then 30
    else 31
  }

  predicate ValidMonth(ym: YearMonth) {
    1 <= ym.month <= 12
  }

  predicate ValidDate(d: Date) {
    1 <= d.month <= 12 && 1 <= d.day <= DaysInMonth(d.year, d.month)
  }

  function MonthOf(d: Date): YearMonth {
    YearMonth(d.year, d.month)
  }

  function FirstDay(ym: YearMonth): Date {
    Date(ym.year, ym.month, 1)
  }

  /** Chronological order on date triples (lexicographic). */
  predicate DateLt(a: Date, b: Date) {
    a.year < b.year
    || (a.year == b.year && a.month < b.month)
    || (a.year == b.year && a.month == b.month && a.day < b.day)
  }

  predicate DateLe(a: Date, b: Date) {
    a == b || DateLt(a, b)
  }

  /** Months counted from January of year 0. */
  function MonthIndex(ym: YearMonth): int {
    ym.year * 12 + ym.month - 1
  }

  /** The month `k` months after `ym` (before, for negative `k`), with the
      year carried the way `new Date(y, m - 1 + k, 1)` normalises it. */
  function AddMonths(ym: YearMonth, k: int): (r: YearMonth)
    ensures ValidMonth(r)
    ensures ValidMonth(ym) ==> MonthIndex(r) == MonthIndex(ym) + k
  {
    var i := ym.year * 12 + (ym.month - 1) + k;
    YearMonth(i / 12, i % 12 + 1)
  }

  /** The source's previous-month rule: January steps back to December of the previous year. */
  function PrevMonth(ym: YearMonth): (r: YearMonth)
    requires ValidMonth(ym)
    ensures ValidMonth(r)
    ensures ym.month == 1 ==> r == YearMonth(ym.year - 1, 12)
    ensures ym.month != 1 ==> r == YearMonth(ym.year, ym.month - 1)
  {
    if ym.month == 1 then YearMonth(ym.year - 1, 12) else YearMonth(ym.year, ym.month - 1)
  }

  function NextMonth(ym: YearMonth): (r: YearMonth)
    requires ValidMonth(ym)
  {
    if ym.month == 12 then YearMonth(ym.year + 1, 1) else YearMonth(ym.year, ym.month + 1)
  }

  /** Two well-formed months with the same index are the same month. */
  lemma MonthIndexInjective(a: YearMonth, b: YearMonth)
    requires ValidMonth(a) && ValidMonth(b)
    requires MonthIndex(a) == MonthIndex(b)
    ensures a == b
  {
  }

  /** The explicit previous/next-month rules agree with month arithmetic. */
  lemma PrevNextAreAddMonths(ym: YearMonth)
    requires ValidMonth(ym)
    ensures PrevMonth(ym) == AddMonths(ym, -1)
    ensures NextMonth(ym) == AddMonths(ym, 1)
    ensures NextMonth(PrevMonth(ym)) == ym
  {
    MonthIndexInjective(PrevMonth(ym), AddMonths(ym, -1));
    MonthIndexInjective(NextMonth(ym), AddMonths(ym, 1));
  }

  lemma AddMonthsCompose(ym: YearMonth, a: int, b: int)
    requires ValidMonth(ym)
    ensures AddMonths(AddMonths(ym, a), b) == AddMonths(ym, a + b)
  {
    MonthIndexInjective(AddMonths(AddMonths(ym, a), b), AddMonths(ym, a + b));
  }

  /** A date lies in month `ym` exactly when it falls in the half-open
      interval from the first day of `ym` to the first day of the next month. */
  predicate InMonthRange(d: Date, ym: YearMonth)
    requires ValidMonth(ym)
  {
    DateLe(FirstDay(ym), d) && DateLt(d, FirstDay(NextMonth(ym)))
  }

  lemma InMonthRangeIff(d: Date, ym: YearMonth)
    requires ValidMonth(ym) && ValidDate(d)
    ensures InMonthRange(d, ym) <==> MonthOf(d) == ym
  {
  }

  /** JavaScript's `Date.setMonth(getMonth() + k)` keeps the day of month and
      lets it overflow into the following month when the target month is shorter. */
  function ShiftMonthsKeepingDay(d: Date, k: int): (r: Date)
    requires ValidDate(d)
    ensures ValidDate(r)
    ensures var t := AddMonths(MonthOf(d), k);
      if d.day <= DaysInMonth(t.year, t.month) then r == Date(t.year, t.month, d.day)
      else MonthOf(r) == NextMonth(t) && r.day == d.day - DaysInMonth(t.year, t.month)
  {
    var t := AddMonths(MonthOf(d), k);
    var n := DaysInMonth(t.year, t.month);
    if d.day <= n then Date(t.year, t.month, d.day)
    else
      var u := NextMonth(t);
      Date(u.year, u.month, d.day - n)
  }

  // ---------------------------------------------------------------------
  // Day numbers and day of week

  /** Days from 0001-01-01 to January 1st of year `y`. */
  function DaysBeforeYear(y: int): int {
    365 * (y - 1) + (y - 1) / 4 - (y - 1) / 100 + (y - 1) / 400
  }

  function YearLength(y: int): int {
    if IsLeapYear(y) then 366 else 365
  }

  /** Days from January 1st to the first of month `m` (m in 1..13). */
  function DaysBeforeMonth(y: int, m: int): (n: int)
    requires 1 <= m <= 13
    ensures n >= 0
    decreases m
  {
    if m == 1 then 0 else DaysBeforeMonth(y, m - 1) + DaysInMonth(y, m - 1)
  }

  /** Days since 0001-01-01; the model of a date's UTC timestamp. */
  function DayNumber(d: Date): int
    requires ValidDate(d)
  {
    DaysBeforeYear(d.year) + DaysBeforeMonth(d.year, d.month) + d.day - 1
  }

  /** 2024-01-07, a Sunday. */
  const KnownSunday := Date(2024, 1, 7)

  /** 0 = Sunday .. 6 = Saturday (`getDay()`): the number of days since a
      known Sunday, modulo seven. 0001-01-01 was a Monday. */
  function DayOfWeek(d: Date): (w: int)
    requires ValidDate(d)
    ensures 0 <= w < 7
    ensures w == (DayNumber(d) - DayNumber(KnownSunday)) % 7
  {
    KnownSundayNumber();
    ModShift7(DayNumber(d) + 1, 105556);
    (DayNumber(d) + 1) % 7
  }

  lemma KnownSundayNumber()
    ensures DayNumber(KnownSunday) == 7 * 105556 - 1
  {
    assert DaysBeforeYear(2024) == 365 * 2023 + 505 - 20 + 5;
  }

  lemma ModShift7(a: int, k: int)
    ensures (a - 7 * k) % 7 == a % 7
  {
  }

  function NextDay(d: Date): (r: Date)
    requires ValidDate(d)
    ensures ValidDate(r)
    ensures DateLt(d, r)
  {
    if d.day < DaysInMonth(d.year, d.month) then Date(d.year, d.month, d.day + 1)
    else if d.month < 12 then Date(d.year, d.month + 1, 1)
    else Date(d.year + 1, 1, 1)
  }

  /** Stepping a numerator by one raises its floor quotient by one exactly at multiples. */
  lemma DivStep4(n: int)
    ensures (n + 1) / 4 - n / 4 == (if (n + 1) % 4 == 0 then 1 else 0)
  {
  }

  lemma DivStep100(n: int)
    ensures (n + 1) / 100 - n / 100 == (if (n + 1) % 100 == 0 then 1 else 0)
  {
  }

  lemma DivStep400(n: int)
    ensures (n + 1) / 400 - n / 400 == (if (n + 1) % 400 == 0 then 1 else 0)
  {
  }

  lemma YearStep(y: int)
    ensures DaysBeforeYear(y + 1) == DaysBeforeYear(y) + YearLength(y)
  {
    DivStep4(y - 1);
    DivStep100(y - 1);
    DivStep400(y - 1);
    LeapSteps(y);
  }

  /** The leap-year rule as the sum of the three divisibility steps. */
  lemma LeapSteps(y: int)
    ensures YearLength(y) - 365
      == (if y % 4 == 0 then 1 else 0) - (if y % 100 == 0 then 1 else 0) + (if y % 400 == 0 then 1 else 0)
  {
    if y % 400 == 0 {
      MultipleOf400(y);
    } else if y % 100 == 0 {
      MultipleOf100(y);
    }
  }

  lemma MultipleOf400(y: int)
    requires y % 400 == 0
    ensures y % 100 == 0 && y % 4 == 0
  {
    var q := y / 400;
    assert y == 100 * (4 * q);
    assert y == 4 * (100 * q);
  }

  lemma MultipleOf100(y: int)
    requires y % 100 == 0
    ensures y % 4 == 0
  {
    var q := y / 100;
    assert y == 4 * (25 * q);
  }

  lemma MonthsOfYear(y: int)
    ensures DaysBeforeMonth(y, 13) == YearLength(y)
  {
  }

  /** Consecutive days have consecutive day numbers. */
  lemma NextDayNumber(d: Date)
    requires ValidDate(d)
    ensures DayNumber(NextDay(d)) == DayNumber(d) + 1
  {
    if d.day == DaysInMonth(d.year, d.month) && d.month == 12 {
      YearStep(d.year);
      MonthsOfYear(d.year);
    }
  }

  /** The weekday advances by one, modulo seven, from each day to the next. */
  lemma DayOfWeekNext(d: Date)
    requires ValidDate(d)
    ensures DayOfWeek(NextDay(d)) == (DayOfWeek(d) + 1) % 7
  {
    NextDayNumber(d);
    Mod7Succ(DayNumber(d) + 1);
  }

  lemma Mod7Succ(n: int)
    ensures (n + 1) % 7 == (n % 7 + 1) % 7
  {
  }

  lemma DaysBeforeMonthBound(y: int, m: int)
    requires 1 <= m <= 12
    ensures DaysBeforeMonth(y, m) + DaysInMonth(y, m) <= YearLength(y)
    decreases 12 - m
  {
    if m < 12 {
      DaysBeforeMonthBound(y, m + 1);
    }
  }

  lemma DaysBeforeMonthMono(y: int, m1: int, m2: int)
    requires 1 <= m1 < m2 <= 12
    ensures DaysBeforeMonth(y, m1) + DaysInMonth(y, m1) <= DaysBeforeMonth(y, m2)
    decreases m2 - m1
  {
    if m1 + 1 < m2 {
      DaysBeforeMonthMono(y, m1 + 1, m2);
    }
  }

  lemma DaysBeforeYearMono(y1: int, y2: int)
    requires y1 < y2
    ensures DaysBeforeYear(y1) + YearLength(y1) <= DaysBeforeYear(y2)
    decreases y2 - y1
  {
    YearStep(y1);
    if y1 + 1 < y2 {
      DaysBeforeYearMono(y1 + 1, y2);
    }
  }

  /** Day numbers order valid dates exactly as the calendar does, so sorting
      by timestamp is sorting by date. */
  lemma {:induction false} DayNumberOrder(a: Date, b: Date)
    requires ValidDate(a) && ValidDate(b)
    ensures DateLt(a, b) <==> DayNumber(a) < DayNumber(b)
    ensures a == b <==> DayNumber(a) == DayNumber(b)
  {
    if a.year < b.year {
      DaysBeforeMonthBound(a.year, a.month);
      DaysBeforeYearMono(a.year, b.year);
    } else if b.year < a.year {
      DaysBeforeMonthBound(b.year, b.month);
      DaysBeforeYearMono(b.year, a.year);
    } else if a.month < b.month {
      DaysBeforeMonthMono(a.year, a.month, b.month);
    } else if b.month < a.month {
      DaysBeforeMonthMono(a.year, b.month, a.month);
    }
  }
}

=== FILE: insights.dfy ===
/** The summary sentences of the highlights panel (`insights` in `Home`):
    which sentences appear, in which order, and the figures each one quotes.
    Wording and currency formatting are left out; a sentence is its kind and
    its figures. */
module Insights {
  import opened Wrappers
  import opened Calendar
  import opened Seqs
  import opened Ledger
  import opened Period
  import opened Rankings

  datatype Insight =
    | TopCategoryLine(category: string, amount: real, month: YearMonth)
    | TopPlaceLine(place: string)
    | PriciestDayLine(date: Date, total: real)
    | IncomeChangeLine(pct: real, up: bool, prev: YearMonth)
    | ExpenseChangeLine(pct: real, up: bool)
    | ProjectionLine(projected: real)
    | NeedMoreData

  /** The position of each kind of sentence in the panel. */
  function Rank(x: Insight): nat {
    match x
    case TopCategoryLine(_, _, _) => 0
    case TopPlaceLine(_) => 1
    case PriciestDayLine(_, _) => 2
    case IncomeChangeLine(_, _, _) => 3
    case ExpenseChangeLine(_, _) => 4
    case ProjectionLine(_) => 5
    case NeedMoreData => 6
  }

  /** Everything the sentences are chosen from. */
  datatype Facts = Facts(
    month: YearMonth,
    topCategories: seq<Entry<string>>,
    topPlaces: seq<Entry<string>>,
    priciest: Option<Entry<Date>>,
    comparison: Option<Comparison>,
    projection: Projection,
    balance: real,
    totalExpenseAbs: real)

  // ---------------------------------------------------------------------
  // The guards, one per sentence

  /** `mainCategoryName && totalExpenseAbs > 0` (an empty name is falsy). */
  predicate ShowsCategory(f: Facts) {
    |f.topCategories| > 0 && f.topCategories[0].key != "" && f.totalExpenseAbs > 0.0
  }

  predicate ShowsPlace(f: Facts) {
    |f.topPlaces| > 0 && f.topPlaces[0].key != "" && f.totalExpenseAbs > 0.0
  }

  predicate ShowsDay(f: Facts) {
    f.priciest.Some?
  }

  /** The block holding both change sentences: a comparison with at least
      one percentage. */
  predicate ShowsChanges(f: Facts) {
    f.comparison.Some? && (f.comparison.value.incomePct.Some? || f.comparison.value.expensePct.Some?)
  }

  predicate ShowsIncome(f: Facts) {
    ShowsChanges(f) && f.comparison.value.incomePct.Some?
  }

  predicate ShowsExpense(f: Facts) {
    ShowsChanges(f) && f.comparison.value.expensePct.Some?
  }

  /** `projectedEndBalance !== balance && isCurrentMonth`. */
  predicate ShowsProjection(f: Facts) {
    f.projection.projectedEndBalance != f.balance && f.projection.isCurrentMonth
  }

  /** The guard of the sentence of rank `k`. */
  predicate Guard(f: Facts, k: int) {
    if k == 0 then ShowsCategory(f)
    else if k == 1 then ShowsPlace(f)
    else if k == 2 then ShowsDay(f)
    else if k == 3 then ShowsIncome(f)
    else if k == 4 then ShowsExpense(f)
    else if k == 5 then ShowsProjection(f)
    else false
  }

  // ---------------------------------------------------------------------
  // The sentences

  /** The sentence of rank `k`, or nothing when its guard fails. With
      `asWritten` the top-category sentence quotes what the source quotes,
      the month's whole expense total; otherwise it quotes the category's own
      total. */
  function Sentence(f: Facts, k: nat, asWritten: bool): seq<Insight>
    requires k < 6
  {
    if k == 0 then
      if ShowsCategory(f) then
        var top := f.topCategories[0];
        [TopCategoryLine(top.key, if asWritten then f.totalExpenseAbs else top.total, f.month)]
      else []
    else if k == 1 then
      if ShowsPlace(f) then [TopPlaceLine(f.topPlaces[0].key)] else []
    else if k == 2 then
      match f.priciest
      case Some(e) => [PriciestDayLine(e.key, e.total)]
      case None => []
    else if k == 3 then
      if ShowsIncome(f) then
        var p := f.comparison.value.incomePct.value;
        [IncomeChangeLine(p, p >= 0.0, f.comparison.value.prev)]
      else []
    else if k == 4 then
      if ShowsExpense(f) then
        var p := f.comparison.value.expensePct.value;
        [ExpenseChangeLine(p, p >= 0.0)]
      else []
    else
      if ShowsProjection(f) then [ProjectionLine(f.projection.projectedEndBalance)] else []
  }

  /** The sentences of ranks `k` to 5, in order. */
  function Lines(f: Facts, k: nat, asWritten: bool): seq<Insight>
    requires k <= 6
    decreases 6 - k
  {
    if k == 6 then [] else Sentence(f, k, asWritten) + Lines(f, k + 1, asWritten)
  }

  /** The panel: the sentences in their fixed order, or the single "record
      more entries" line when none applies. */
  function Panel(f: Facts, asWritten: bool): seq<Insight> {
    var lines := Lines(f, 0, asWritten);
    if lines == [] then [NeedMoreData] else lines
  }

  /** The kinds of sentence `r` holds, in order. */
  function Kinds(r: seq<Insight>): seq<nat> {
    Map(r, Rank)
  }

  predicate Mentions(r: seq<Insight>, k: nat) {
    k in Kinds(r)
  }

  /** Strictly increasing ranks: the kinds appear in panel order, each at most once. */
  predicate InPanelOrder(r: seq<Insight>) {
    forall i, j :: 0 <= i < j < |r| ==> Rank(r[i]) < Rank(r[j])
  }

  /** `insights`, with the top-category sentence quoting its own category:
      a sentence of each kind exactly when its guard holds, in panel order,
      and the "record more entries" line alone exactly when no guard holds. */
  function InsightsOf(f: Facts): (r: seq<Insight>)
    ensures 1 <= |r| <= 6 && InPanelOrder(r)
    ensures forall k :: 0 <= k < 6 ==> (Mentions(r, k) <==> Guard(f, k))
    ensures r == [NeedMoreData] <==> forall k :: 0 <= k < 6 ==> !Guard(f, k)
    ensures ShowsCategory(f) ==>
      r[0] == TopCategoryLine(f.topCategories[0].key, f.topCategories[0].total, f.month)
  {
    PanelShape(f, false);
    Panel(f, false)
  }

  /** The panel exactly as the source builds it. */
  function InsightsAsWritten(f: Facts): (r: seq<Insight>)
    ensures 1 <= |r| <= 6 && InPanelOrder(r)
    ensures forall k :: 0 <= k < 6 ==> (Mentions(r, k) <==> Guard(f, k))
    ensures r == [NeedMoreData] <==> forall k :: 0 <= k < 6 ==> !Guard(f, k)
    ensures ShowsCategory(f) ==>
      r[0] == TopCategoryLine(f.topCategories[0].key, f.totalExpenseAbs, f.month)
  {
    PanelShape(f, true);
    Panel(f, true)
  }

  /** The two panels differ at most in the figure of their first sentence. */
  lemma PanelsAgreeBeyondFirst(f: Facts)
    ensures |InsightsOf(f)| == |InsightsAsWritten(f)|
    ensures InsightsOf(f)[1..] == InsightsAsWritten(f)[1..]
    ensures !ShowsCategory(f) ==> InsightsOf(f) == InsightsAsWritten(f)
  {
    assert Lines(f, 1, false) == Lines(f, 1, true) by {
      LinesAgree(f, 1);
    }
  }

  /** Past the first rank the figure choice makes no difference. */
  lemma {:induction false} LinesAgree(f: Facts, k: nat)
    requires 1 <= k <= 6
    decreases 6 - k
    ensures Lines(f, k, false) == Lines(f, k, true)
  {
    if k < 6 {
      LinesAgree(f, k + 1);
    }
  }

  lemma PanelShape(f: Facts, asWritten: bool)
    ensures var r := Panel(f, asWritten);
      1 <= |r| <= 6 && InPanelOrder(r)
      && (forall k :: 0 <= k < 6 ==> (Mentions(r, k) <==> Guard(f, k)))
      && (r == [NeedMoreData] <==> forall k :: 0 <= k < 6 ==> !Guard(f, k))
      && (ShowsCategory(f) ==> r[0] == Sentence(f, 0, asWritten)[0])
  {
    LinesOrder(f, 0, asWritten);
    LinesMentions(f, 0, asWritten);
    var lines := Lines(f, 0, asWritten);
    if lines == [] {
      assert Kinds([NeedMoreData]) == [6];
    } else {
      assert Mentions(lines, Rank(lines[0]));
      assert lines != [NeedMoreData];
    }
    if ShowsCategory(f) {
      SentenceShape(f, 0, asWritten);
    }
  }

  /** The sentence slot of rank `k` holds at most one sentence, of that
      rank, present exactly when the guard holds. */
  lemma SentenceShape(f: Facts, k: nat, asWritten: bool)
    requires k < 6
    ensures var s := Sentence(f, k, asWritten);
      |s| <= 1 && (s != [] <==> Guard(f, k)) && (s != [] ==> Rank(s[0]) == k)
  {
  }

  /** The sentences of ranks `k` to 5 come in strictly increasing rank. */
  lemma {:induction false} LinesOrder(f: Facts, k: nat, asWritten: bool)
    requires k <= 6
    decreases 6 - k
    ensures var r := Lines(f, k, asWritten);
      |r| <= 6 - k && InPanelOrder(r) && (forall i :: 0 <= i < |r| ==> k <= Rank(r[i]) < 6)
  {
    if k < 6 {
      LinesOrder(f, k + 1, asWritten);
      SentenceShape(f, k, asWritten);
      var s, rest := Sentence(f, k, asWritten), Lines(f, k + 1, asWritten);
      assert Lines(f, k, asWritten) == s + rest;
      OrderStep(k, s, rest);
    }
  }

  lemma OrderStep(k: nat, s: seq<Insight>, rest: seq<Insight>)
    requires k < 6
    requires |s| <= 1 && (s != [] ==> Rank(s[0]) == k)
    requires |rest| <= 5 - k && InPanelOrder(rest)
    requires forall i :: 0 <= i < |rest| ==> k + 1 <= Rank(rest[i]) < 6
    ensures var r := s + rest;
      |r| <= 6 - k && InPanelOrder(r) && (forall i :: 0 <= i < |r| ==> k <= Rank(r[i]) < 6)
  {
    var r := s + rest;
    forall i | 0 <= i < |r| ensures k <= Rank(r[i]) < 6 {
      if i >= |s| {
        assert r[i] == rest[i - |s|];
      }
    }
    forall i, j | 0 <= i < j < |r| ensures Rank(r[i]) < Rank(r[j]) {
      if i >= |s| {
        assert r[i] == rest[i - |s|];
      }
      assert r[j] == rest[j - |s|];
    }
  }

  /** ... and hold a sentence of rank `m` exactly when guard `m` holds. */
  lemma {:induction false} LinesMentions(f: Facts, k: nat, asWritten: bool)
    requires k <= 6
    decreases 6 - k
    ensures forall m: nat :: Mentions(Lines(f, k, asWritten), m) <==> k <= m < 6 && Guard(f, m)
  {
    if k < 6 {
      LinesMentions(f, k + 1, asWritten);
      SentenceShape(f, k, asWritten);
      var s, rest := Sentence(f, k, asWritten), Lines(f, k + 1, asWritten);
      assert Lines(f, k, asWritten) == s + rest;
      MentionsStep(f, k, s, rest);
    } else {
      assert Kinds([]) == [];
    }
  }

  lemma MentionsStep(f: Facts, k: nat, s: seq<Insight>, rest: seq<Insight>)
    requires k < 6
    requires |s| <= 1 && (s != [] <==> Guard(f, k)) && (s != [] ==> Rank(s[0]) == k)
    requires forall m: nat :: Mentions(rest, m) <==> k + 1 <= m < 6 && Guard(f, m)
    ensures forall m: nat :: Mentions(s + rest, m) <==> k <= m < 6 && Guard(f, m)
  {
    KindsAppend(s, rest);
    assert Kinds(s) == if Guard(f, k) then [k] else [];
    forall m: nat ensures Mentions(s + rest, m) <==> k <= m < 6 && Guard(f, m) {
      assert Mentions(s + rest, m) <==> m in Kinds(s) || Mentions(rest, m);
    }
  }

  lemma KindsAppend(a: seq<Insight>, b: seq<Insight>)
    ensures Kinds(a + b) == Kinds(a) + Kinds(b)
  {
    assert forall i :: 0 <= i < |a + b| ==> Kinds(a + b)[i] == (Kinds(a) + Kinds(b))[i];
  }

  // ---------------------------------------------------------------------
  // The panel of the dashboard

  /** The facts the dashboard feeds the panel for month `ym`, search `q`,
      type filter `tf` and wall-clock day `now`. */
  function DashboardFacts(txs: seq<Tx>, ym: YearMonth, q: string, tf: TypeFilter, now: Date): (f: Facts)
    requires ValidMonth(ym) && ValidDate(now)
    ensures f.projection.isCurrentMonth <==> MonthOf(now) == ym
  {
    var filtered := Filtered(txs, ym, q, tf);
    var k := ComputeKpis(filtered);
    Facts(ym, TopCategories(filtered), TopPlaces(filtered), PriciestDay(filtered),
          Compare(txs, ym, k.income, k.totalExpenseAbs),
          Project(k.balance, k.totalExpenseAbs, ym, now), k.balance, k.totalExpenseAbs)
  }

  /** The panel the dashboard shows, as the source builds it: each kind of
      sentence appears exactly when its guard holds on the month's facts. */
  function DashboardInsights(txs: seq<Tx>, ym: YearMonth, q: string, tf: TypeFilter, now: Date): (r: seq<Insight>)
    requires ValidMonth(ym) && ValidDate(now)
    ensures 1 <= |r| <= 6 && InPanelOrder(r)
    ensures forall k :: 0 <= k < 6 ==> (Mentions(r, k) <==> Guard(DashboardFacts(txs, ym, q, tf, now), k))
  {
    InsightsAsWritten(DashboardFacts(txs, ym, q, tf, now))
  }

  /** The same panel with the top-category sentence quoting its own category. */
  function DashboardInsightsCorrected(txs: seq<Tx>, ym: YearMonth, q: string, tf: TypeFilter, now: Date): (r: seq<Insight>)
    requires ValidMonth(ym) && ValidDate(now)
    ensures 1 <= |r| <= 6 && InPanelOrder(r)
    ensures forall k :: 0 <= k < 6 ==> (Mentions(r, k) <==> Guard(DashboardFacts(txs, ym, q, tf, now), k))
  {
    InsightsOf(DashboardFacts(txs, ym, q, tf, now))
  }

  /** The dashboard's two panels differ at most in the figure of their first
      sentence. */
  lemma DashboardPanelsAgree(txs: seq<Tx>, ym: YearMonth, q: string, tf: TypeFilter, now: Date)
    requires ValidMonth(ym) && ValidDate(now)
    ensures var a := DashboardInsights(txs, ym, q, tf, now);
      var c := DashboardInsightsCorrected(txs, ym, q, tf, now);
      |a| == |c| && a[1..] == c[1..]
  {
    PanelsAgreeBeyondFirst(DashboardFacts(txs, ym, q, tf, now));
  }

  /** With no history at all the panel only asks for more entries. */
  lemma EmptyHistoryPanel(ym: YearMonth, q: string, tf: TypeFilter, now: Date)
    requires ValidMonth(ym) && ValidDate(now)
    ensures DashboardInsights([], ym, q, tf, now) == [NeedMoreData]
    ensures DashboardInsightsCorrected([], ym, q, tf, now) == [NeedMoreData]
  {
    var f := DashboardFacts([], ym, q, tf, now);
    assert Filtered([], ym, q, tf) == [];
    assert Expenses([]) == [];
    assert forall k :: 0 <= k < 6 ==> !Guard(f, k);
  }

  /** A month without expenses has none of the three spending sentences. */
  lemma NoExpensesNoSpendingLines(txs: seq<Tx>, ym: YearMonth, q: string, tf: TypeFilter, now: Date)
    requires ValidMonth(ym) && ValidDate(now)
    requires Expenses(Filtered(txs, ym, q, tf)) == []
    ensures var r := DashboardInsights(txs, ym, q, tf, now);
      !Mentions(r, 0) && !Mentions(r, 1) && !Mentions(r, 2)
  {
    var f := DashboardFacts(txs, ym, q, tf, now);
    assert !Guard(f, 0) && !Guard(f, 1) && !Guard(f, 2);
  }

  /** The projection sentence only ever appears for the live month. */
  lemma ProjectionOnlyForLiveMonth(txs: seq<Tx>, ym: YearMonth, q: string, tf: TypeFilter, now: Date)
    requires ValidMonth(ym) && ValidDate(now)
    requires MonthOf(now) != ym
    ensures !Mentions(DashboardInsights(txs, ym, q, tf, now), 5)
    ensures !Mentions(DashboardInsightsCorrected(txs, ym, q, tf, now), 5)
  {
    var f := DashboardFacts(txs, ym, q, tf, now);
    NoProjectionOffMonth(f);
  }

  lemma NoProjectionOffMonth(f: Facts)
    requires !f.projection.isCurrentMonth
    ensures !Mentions(InsightsAsWritten(f), 5) && !Mentions(InsightsOf(f), 5)
  {
    assert !Guard(f, 5);
  }

  /** Under the sign convention, whenever the month has expenses with a
      non-zero total, the panel opens with the top-category sentence, and the
      figure it quotes is what that category summed, which no other
      category exceeds. */
  lemma TopCategoryIsLargest(txs: seq<Tx>, ym: YearMonth, q: string, tf: TypeFilter, now: Date)
    requires ValidMonth(ym) && ValidDate(now)
    requires forall t :: t in txs ==> SignConvention(t)
    requires SumOf(Expenses(Filtered(txs, ym, q, tf)), AbsAmount) > 0.0
    ensures var r := DashboardInsightsCorrected(txs, ym, q, tf, now);
      var es := Expenses(Filtered(txs, ym, q, tf));
      r[0].TopCategoryLine?
      && r[0].amount == SumFor(es, CategoryKey, AbsAmount, r[0].category)
      && forall c :: SumFor(es, CategoryKey, AbsAmount, c) <= r[0].amount
  {
    var filtered := Filtered(txs, ym, q, tf);
    var f := DashboardFacts(txs, ym, q, tf, now);
    ShowsTopCategory(txs, ym, q, tf, now);
    TopCategoryMaximal(filtered);
  }

  /** Under the sign convention, a month whose expenses have a non-zero total
      shows the top-category sentence, and `totalExpenseAbs` is that total. */
  lemma ShowsTopCategory(txs: seq<Tx>, ym: YearMonth, q: string, tf: TypeFilter, now: Date)
    requires ValidMonth(ym) && ValidDate(now)
    requires forall t :: t in txs ==> SignConvention(t)
    requires SumOf(Expenses(Filtered(txs, ym, q, tf)), AbsAmount) > 0.0
    ensures ShowsCategory(DashboardFacts(txs, ym, q, tf, now))
    ensures DashboardFacts(txs, ym, q, tf, now).totalExpenseAbs
      == SumOf(Expenses(Filtered(txs, ym, q, tf)), AbsAmount)
  {
    var filtered := Filtered(txs, ym, q, tf);
    TopCategoryNamed(filtered);
  }

  /** The same fact read off `filtered` alone. */
  lemma TopCategoryNamed(filtered: seq<Tx>)
    requires forall t :: t in filtered ==> SignConvention(t)
    requires SumOf(Expenses(filtered), AbsAmount) > 0.0
    ensures ComputeKpis(filtered).totalExpenseAbs == SumOf(Expenses(filtered), AbsAmount)
    ensures |TopCategories(filtered)| > 0 && TopCategories(filtered)[0].key != ""
  {
    var es := Expenses(filtered);
    PieMatchesKpi(filtered);
    assert es != [];
    TopCategoryMaximal(filtered);
    var top := TopCategories(filtered)[0];
    var i :| 0 <= i < |es| && Map(es, CategoryKey)[i] == top.key;
  }

  /** When two categories both have spending, the whole expense total is
      strictly more than what the first ranked category summed. */
  lemma WholeExceedsTop(filtered: seq<Tx>, c1: string, c2: string)
    requires c1 != c2
    requires SumFor(Expenses(filtered), CategoryKey, AbsAmount, c1) > 0.0
    requires SumFor(Expenses(filtered), CategoryKey, AbsAmount, c2) > 0.0
    ensures Expenses(filtered) != []
    ensures SumOf(Expenses(filtered), AbsAmount) > TopCategories(filtered)[0].total
  {
    var es := Expenses(filtered);
    var ct := CategoryTotals(filtered);
    PieMatchesKpi(filtered);
    SumForNonEmpty(es, CategoryKey, AbsAmount, c1);
    var top := TopCategories(filtered)[0];
    assert top in ct;
    var k := if top.key == c1 then c2 else c1;
    assert SumFor(es, CategoryKey, AbsAmount, k) > 0.0;
    if k !in KeysOf(ct) {
      SumForAbsent(es, CategoryKey, AbsAmount, k);
    }
    assert forall e :: e in ct ==> e.total == SumFor(es, CategoryKey, AbsAmount, e.key);
    SumExceedsEntry(ct, top, k);
  }

  /** The panel as written overstates the top category whenever a second
      category also has spending: it quotes the month's whole expense total,
      which is strictly more than what the named category summed. */
  lemma AsWrittenOverstatesCategory(txs: seq<Tx>, ym: YearMonth, q: string, tf: TypeFilter,
                                    now: Date, c1: string, c2: string)
    requires ValidMonth(ym) && ValidDate(now)
    requires forall t :: t in txs ==> SignConvention(t)
    requires c1 != c2
    requires SumFor(Expenses(Filtered(txs, ym, q, tf)), CategoryKey, AbsAmount, c1) > 0.0
    requires SumFor(Expenses(Filtered(txs, ym, q, tf)), CategoryKey, AbsAmount, c2) > 0.0
    ensures var r := DashboardInsights(txs, ym, q, tf, now);
      var es := Expenses(Filtered(txs, ym, q, tf));
      r[0].TopCategoryLine?
      && r[0].amount > SumFor(es, CategoryKey, AbsAmount, r[0].category)
  {
    var filtered := Filtered(txs, ym, q, tf);
    WholeExceedsTop(filtered, c1, c2);
    TopCategoryMaximal(filtered);
    var es := Expenses(filtered);
    assert SumOf(es, AbsAmount) > 0.0 by {
      SumForNonNeg(es, CategoryKey, AbsAmount, TopCategories(filtered)[0].key);
    }
    ShowsTopCategory(txs, ym, q, tf, now);
  }
}

=== FILE: ledger.dfy ===
/** Transactions as the dashboard receives them from `/api/transactions`,
    and the sums every aggregate is built from. Amounts are exact reals
    (the source uses JavaScript numbers). */
module Ledger {
  import opened Wrappers
  import opened Calendar
  import opened Seqs

  datatype TxType = Income | Expense

  datatype Tx = Tx(
    id: int,
    date: Date,
    description: string,
    kind: TxType,
    amount: real,
    category: Option<string>,
    account: Option<string>)

  predicate IsIncome(t: Tx) {
    t.kind == Income
  }

  predicate IsExpense(t: Tx) {
    t.kind == Expense
  }

  function Amount(t: Tx): real {
    t.amount
  }

  function Abs(x: real): (r: real)
    ensures r >= 0.0
    ensures r == x || r == -x
  {
    if x < 0.0 then -x else x
  }

  /** `Math.abs(Number(t.amount))`: the magnitude used wherever the source
      wants "how much was spent" regardless of the stored sign. */
  function AbsAmount(t: Tx): (r: real)
    ensures r >= 0.0
  {
    Abs(t.amount)
  }

  function DateOf(t: Tx): Date {
    t.date
  }

  /** Stored dates come from a date column, so they are real calendar days. */
  predicate WellDated(txs: seq<Tx>) {
    forall t :: t in txs ==> ValidDate(t.date)
  }

  /** The sign convention `/api/new` enforces on the rows it stores; rows
      stored by other routes need not follow it. */
  predicate SignConvention(t: Tx) {
    (t.kind == Expense ==> t.amount <= 0.0) && (t.kind == Income ==> t.amount >= 0.0)
  }

  /** Sum of all amounts: `reduce((a, b) => a + Number(b.amount), 0)`. */
  function Net(s: seq<Tx>): real {
    SumOf(s, Amount)
  }

  function IncomeTotal(s: seq<Tx>): real {
    Net(Filter(s, IsIncome))
  }

  function ExpenseTotal(s: seq<Tx>): real {
    Net(Filter(s, IsExpense))
  }

  /** Every row is either income or expense, so the two totals add up to the net. */
  lemma IncomePlusExpense(s: seq<Tx>)
    ensures IncomeTotal(s) + ExpenseTotal(s) == Net(s)
  {
    SumOfSplit(s, Amount, IsIncome, IsExpense);
  }

  /** Under the sign convention, expenses sum to a non-positive and incomes to
      a non-negative amount. */
  lemma SignedTotals(s: seq<Tx>)
    requires forall t :: t in s ==> SignConvention(t)
    ensures ExpenseTotal(s) <= 0.0
    ensures IncomeTotal(s) >= 0.0
  {
    var e := Filter(s, IsExpense);
    var i := Filter(s, IsIncome);
    NegAmounts(e);
    SumOfNonNeg(i, Amount);
  }

  lemma {:induction false} NegAmounts(s: seq<Tx>)
    requires forall t :: t in s ==> t.amount <= 0.0
    ensures Net(s) <= 0.0
  {
    if |s| > 0 {
      assert Last(s) in s;
      assert forall t :: t in Init(s) ==> t in s;
      NegAmounts(Init(s));
    }
  }
}

=== FILE: new_transaction.dfy ===
/** `POST /api/new`: validation and defaults of the request body, the sign
    rule for amounts, the split of the date text, the row appended to the
    spreadsheet, and the status codes. The database and the spreadsheet are
    outside the model: the id the database assigns, the creation time and
    whether the append throws are parameters. */
module NewTransaction {
  import opened Wrappers
  import opened Text
  import opened Numerals
  import opened Calendar
  import opened Ledger
  import AmountInput

  // ---------------------------------------------------------------------
  // The request body

  /** A JSON value as a body field can hold it; arrays and objects are
      `Composite` since no field accepts them. */
  datatype Json = Null | Bool(b: bool) | Number(n: real) | Str(s: string) | Composite

  /** The fields of the body schema, and `WholeBody` for a body that is not an object. */
  datatype Field = DateField | DescriptionField | AmountField | TypeField
    | CategoryField | AccountField | WholeBody

  /** A body that passed validation. */
  datatype Body = Body(date: string, description: string, amount: real, kind: TxType,
                       category: string, account: string)

  /** `body[k]`, `None` when the key is absent (`undefined`). */
  function Get(fields: map<string, Json>, k: string): Option<Json> {
    if k in fields then Some(fields[k]) else None
  }

  /** `z.string().min(1)`. */
  function RequiredText(v: Option<Json>): (r: Option<string>)
    ensures r.Some? <==> v.Some? && v.value.Str? && |v.value.s| >= 1
    ensures r.Some? ==> r.value == v.value.s
  {
    match v
    case Some(Str(s)) => if |s| >= 1 then Some(s) else None
    case _ => None
  }

  /** `z.string().min(1).default(d)`: the default replaces only a missing
      field; an empty or non-string value is still an error. */
  function TextOrDefault(v: Option<Json>, d: string): Option<string> {
    if v.None? then Some(d) else RequiredText(v)
  }

  /** The `amount` preprocess followed by `z.number().finite()`: a string has
      its first `,` turned into `.` and goes through `Number`, a number passes,
      anything else is NaN. `None` is a rejection. */
  function AmountOf(v: Option<Json>): (r: Option<real>)
    ensures r.Some? ==> v.Some? && (v.value.Number? || v.value.Str?)
    ensures v.Some? && v.value.Number? ==> r == Some(v.value.n)
    ensures v.Some? && v.value.Str? && ',' !in v.value.s ==> r == NumberOf(v.value.s)
    ensures v.Some? && v.value.Str? && r.Some? ==>
      forall k :: 0 <= k < |v.value.s| && k != IndexOf(v.value.s, ',') ==> LiteralChar(v.value.s[k])
  {
    match v
    case Some(Str(s)) => NumberOf(ReplaceFirst(s, ',', '.'))
    case Some(Number(n)) => Some(n)
    case _ => None
  }

  function TypeName(k: TxType): string {
    match k
    case Income => "INCOME"
    case Expense => "EXPENSE"
  }

  /** `z.enum(['INCOME', 'EXPENSE'])`. */
  function TypeOf(v: Option<Json>): (r: Option<TxType>)
    ensures r.Some? <==> v == Some(Str("INCOME")) || v == Some(Str("EXPENSE"))
    ensures r.Some? ==> v == Some(Str(TypeName(r.value)))
  {
    if v == Some(Str("INCOME")) then Some(Income)
    else if v == Some(Str("EXPENSE")) then Some(Expense)
    else None
  }

  /** `Body.safeParse(req.body)`: the parsed body, or the set of fields that
      failed (zod checks every field and reports all failures). Keys outside
      the schema are ignored. */
  function ParseBody(body: Option<map<string, Json>>): (r: Result<Body, set<Field>>)
    ensures body.None? ==> r == Err({WholeBody})
    ensures r.Err? ==> r.error != {}
    ensures r.Ok? ==>
      (|r.value.date| >= 1 && |r.value.description| >= 1
       && |r.value.category| >= 1 && |r.value.account| >= 1)
    ensures body.Some? ==>
      (r.Err? && DateField in r.error <==> RequiredText(Get(body.value, "date")).None?)
    ensures body.Some? ==>
      (r.Err? && DescriptionField in r.error <==> RequiredText(Get(body.value, "description")).None?)
    ensures body.Some? ==>
      (r.Err? && AmountField in r.error <==> AmountOf(Get(body.value, "amount")).None?)
    ensures body.Some? ==>
      (r.Err? && TypeField in r.error <==> TypeOf(Get(body.value, "type")).None?)
    ensures body.Some? ==>
      (r.Err? && CategoryField in r.error <==> TextOrDefault(Get(body.value, "category"), "Outros").None?)
    ensures body.Some? ==>
      (r.Err? && AccountField in r.error <==> TextOrDefault(Get(body.value, "account"), "Conta Corrente").None?)
    ensures body.Some? && r.Err? ==> WholeBody !in r.error
    ensures r.Ok? ==>
      (body.Some? &&
       var f := body.value;
       r.value == Body(RequiredText(Get(f, "date")).value, RequiredText(Get(f, "description")).value,
                       AmountOf(Get(f, "amount")).value, TypeOf(Get(f, "type")).value,
                       TextOrDefault(Get(f, "category"), "Outros").value,
                       TextOrDefault(Get(f, "account"), "Conta Corrente").value))
  {
    if body.None? then Err({WholeBody})
    else
      var f := body.value;
      var date := RequiredText(Get(f, "date"));
      var description := RequiredText(Get(f, "description"));
      var amount := AmountOf(Get(f, "amount"));
      var kind := TypeOf(Get(f, "type"));
      var category := TextOrDefault(Get(f, "category"), "Outros");
      var account := TextOrDefault(Get(f, "account"), "Conta Corrente");
      var bad := Failures(date, description, amount, kind, category, account);
      if bad == {} then
        Ok(Body(date.value, description.value, amount.value, kind.value, category.value, account.value))
      else
        Err(bad)
  }

  /** The fields whose check failed: each field is named exactly when its
      check gave nothing. */
  function Failures(date: Option<string>, description: Option<string>, amount: Option<real>,
                    kind: Option<TxType>, category: Option<string>, account: Option<string>)
    : (bad: set<Field>)
    ensures DateField in bad <==> date.None?
    ensures DescriptionField in bad <==> description.None?
    ensures AmountField in bad <==> amount.None?
    ensures TypeField in bad <==> kind.None?
    ensures CategoryField in bad <==> category.None?
    ensures AccountField in bad <==> account.None?
    ensures WholeBody !in bad
  {
    (if date.None? then {DateField} else {})
    + (if description.None? then {DescriptionField} else {})
    + (if amount.None? then {AmountField} else {})
    + (if kind.None? then {TypeField} else {})
    + (if category.None? then {CategoryField} else {})
    + (if account.None? then {AccountField} else {})
  }

  /** The body a client sends for `b`, with the amount as a JSON number. */
  function FieldsOf(b: Body): map<string, Json> {
    map["date" := Str(b.date), "description" := Str(b.description),
        "amount" := Number(b.amount), "type" := Str(TypeName(b.kind)),
        "category" := Str(b.category), "account" := Str(b.account)]
  }

  predicate WellFormed(b: Body) {
    |b.date| >= 1 && |b.description| >= 1 && |b.category| >= 1 && |b.account| >= 1
  }

  /** Every valid body survives the trip through JSON and validation unchanged. */
  lemma ParseFieldsOf(b: Body)
    requires WellFormed(b)
    ensures ParseBody(Some(FieldsOf(b))) == Ok(b)
  {
    var f := FieldsOf(b);
    assert Get(f, "date") == Some(Str(b.date));
    assert Get(f, "description") == Some(Str(b.description));
    assert Get(f, "amount") == Some(Number(b.amount));
    assert Get(f, "type") == Some(Str(TypeName(b.kind)));
    assert Get(f, "category") == Some(Str(b.category));
    assert Get(f, "account") == Some(Str(b.account));
  }

  /** Leaving `category` and `account` out gives 'Outros' and 'Conta Corrente'. */
  lemma ParseDefaults(b: Body)
    requires WellFormed(b)
    ensures ParseBody(Some(FieldsOf(b) - {"category", "account"}))
      == Ok(b.(category := "Outros", account := "Conta Corrente"))
  {
    var f := FieldsOf(b) - {"category", "account"};
    assert Get(f, "date") == Some(Str(b.date));
    assert Get(f, "description") == Some(Str(b.description));
    assert Get(f, "amount") == Some(Number(b.amount));
    assert Get(f, "type") == Some(Str(TypeName(b.kind)));
    assert Get(f, "category") == None;
    assert Get(f, "account") == None;
  }

  /** An empty `category` is not replaced by the default: it is an error. */
  lemma EmptyCategoryRejected(b: Body)
    requires WellFormed(b)
    ensures ParseBody(Some(FieldsOf(b)["category" := Str("")])) == Err({CategoryField})
  {
    var f := FieldsOf(b)["category" := Str("")];
    assert Get(f, "date") == Some(Str(b.date));
    assert Get(f, "description") == Some(Str(b.description));
    assert Get(f, "amount") == Some(Number(b.amount));
    assert Get(f, "type") == Some(Str(TypeName(b.kind)));
    assert Get(f, "category") == Some(Str(""));
    assert Get(f, "account") == Some(Str(b.account));
    assert TypeOf(Get(f, "type")).Some?;
    assert TextOrDefault(Get(f, "category"), "Outros") == None;
    assert TextOrDefault(Get(f, "account"), "Conta Corrente").Some?;
    assert RequiredText(Get(f, "date")).Some?;
    assert RequiredText(Get(f, "description")).Some?;
    assert AmountOf(Get(f, "amount")).Some?;
    assert ParseBody(Some(f)).Err?;
    assert ParseBody(Some(f)).error == {CategoryField};
  }

  /** A string amount written with a decimal comma is read as that decimal. */
  lemma AmountWithComma(w: string, frac: string)
    requires |w| > 0 && AllDigits(w) && AllDigits(frac)
    ensures AmountOf(Some(Str(w + "," + frac))) == Some(DecimalOf(w, frac))
  {
    assert ',' !in w by {
      assert forall k :: 0 <= k < |w| ==> w[k] != ',';
    }
    IndexOfAfter(w, ',', frac);
    AmountInput.ReplaceAt(w, frac);
    AmountInput.DecimalValue(w, frac);
  }

  /** `null`, booleans, composites and a missing amount are all rejected. */
  lemma AmountNeedsNumberOrText(v: Option<Json>)
    requires v.None? || v == Some(Null) || v.value.Bool? || v == Some(Composite)
    ensures AmountOf(v).None?
  {
  }

  /** What the form sends: `Number(...)` of its rewritten amount, where NaN
      becomes `null` in `JSON.stringify`. */
  function ClientAmount(typed: string): Json {
    match AmountInput.BodyAmount(typed)
    case Some(v) => Number(v)
    case None => Null
  }

  /** The server reads back exactly the value the form computed, and rejects
      the amount exactly when the form computed NaN. */
  lemma ClientAmountReachesServer(typed: string)
    ensures AmountOf(Some(ClientAmount(typed))) == AmountInput.BodyAmount(typed)
  {
  }

  // ---------------------------------------------------------------------
  // Sign rule

  /** `normalizedAmount`: an expense is stored as `-|amount|`, an income as `|amount|`. */
  function NormalizedAmount(kind: TxType, amount: real): (r: real)
    ensures Abs(r) == Abs(amount)
    ensures kind == Expense ==> r <= 0.0
    ensures kind == Income ==> r >= 0.0
  {
    if kind == Expense then -Abs(amount) else Abs(amount)
  }

  lemma NormalizeIdempotent(kind: TxType, amount: real)
    ensures NormalizedAmount(kind, NormalizedAmount(kind, amount)) == NormalizedAmount(kind, amount)
  {
  }

  /** Normalisation leaves an amount alone exactly when it already has the
      sign its type calls for. */
  lemma NormalizeFixesConvention(kind: TxType, amount: real)
    ensures NormalizedAmount(kind, amount) == amount
      <==> (kind == Expense ==> amount <= 0.0) && (kind == Income ==> amount >= 0.0)
  {
  }

  // ---------------------------------------------------------------------
  // The date text

  /** The arguments of `Date.UTC`, with the month still 1-based (`None` is NaN). */
  datatype UtcArgs = UtcArgs(year: Option<real>, month: Option<real>, day: Option<real>)

  /** `date.split('-').map(Number)` with `m ?? 1` and `d ?? 1`: a missing
      month or day is 1, while a part that is not a number stays NaN. */
  function DateArgs(date: string): UtcArgs {
    var ps := Split(date, '-');
    UtcArgs(NumberOf(ps[0]),
            if |ps| > 1 then NumberOf(ps[1]) else Some(1.0),
            if |ps| > 2 then NumberOf(ps[2]) else Some(1.0))
  }

  lemma DecHasNoDash(n: nat)
    ensures '-' !in Dec(n)
  {
    var r := Dec(n);
    assert forall k :: 0 <= k < |r| ==> r[k] != '-';
  }

  /** "Y-M-D" gives the three numbers written. */
  lemma IsoDateArgs(y: nat, m: nat, d: nat)
    ensures DateArgs(Dec(y) + "-" + Dec(m) + "-" + Dec(d))
      == UtcArgs(Some(y as real), Some(m as real), Some(d as real))
  {
    DecHasNoDash(y);
    DecHasNoDash(m);
    DecHasNoDash(d);
    DashesGroup(Dec(y), Dec(m), Dec(d));
    SplitAfterFirst(Dec(y), '-', Dec(m) + ['-'] + Dec(d));
    SplitAfterFirst(Dec(m), '-', Dec(d));
    SplitNone(Dec(d), '-');
    NumberOfDec(y);
    NumberOfDec(m);
    NumberOfDec(d);
  }

  lemma DashesGroup(a: string, b: string, c: string)
    ensures a + "-" + b + "-" + c == a + ['-'] + (b + ['-'] + c)
  {
  }

  /** "Y" alone is the first of January. */
  lemma YearOnlyDateArgs(y: nat)
    ensures DateArgs(Dec(y)) == UtcArgs(Some(y as real), Some(1.0), Some(1.0))
  {
    DecHasNoDash(y);
    SplitNone(Dec(y), '-');
    NumberOfDec(y);
  }

  /** "Y-M" is the first day of that month. */
  lemma YearMonthDateArgs(y: nat, m: nat)
    ensures DateArgs(Dec(y) + "-" + Dec(m)) == UtcArgs(Some(y as real), Some(m as real), Some(1.0))
  {
    DecHasNoDash(y);
    DecHasNoDash(m);
    SplitAfterFirst(Dec(y), '-', Dec(m));
    SplitNone(Dec(m), '-');
    NumberOfDec(y);
    NumberOfDec(m);
  }

  // ---------------------------------------------------------------------
  // The spreadsheet row

  datatype Cell = TextCell(text: string) | NumberCell(value: real)

  /** Columns A to H: id, creation time, the date as sent, description,
      signed amount, type, account, category. */
  function SheetRow(id: int, createdAt: string, b: Body, amount: real): (row: seq<Cell>)
    ensures |row| == 8
  {
    [TextCell(IntToString(id)), TextCell(createdAt), TextCell(b.date), TextCell(b.description),
     NumberCell(amount), TextCell(TypeName(b.kind)), TextCell(b.account), TextCell(b.category)]
  }

  /** What a reader of the sheet recovers from one row. */
  datatype RowView = RowView(id: int, createdAt: string, date: string, description: string,
                             amount: real, kind: TxType, account: string, category: string)

  /** Reads an integer written by `String`. */
  function ParseInt(s: string): Option<int> {
    if |s| > 1 && s[0] == '-' && AllDigits(s[1..]) then Some(-(ValueOf(s[1..]) as int))
    else if |s| > 0 && AllDigits(s) then Some(ValueOf(s))
    else None
  }

  function ParseType(s: string): Option<TxType> {
    if s == "INCOME" then Some(Income) else if s == "EXPENSE" then Some(Expense) else None
  }

  function ReadRow(row: seq<Cell>): Option<RowView> {
    if |row| != 8 || !row[0].TextCell? || !row[1].TextCell? || !row[2].TextCell?
       || !row[3].TextCell? || !row[4].NumberCell? || !row[5].TextCell?
       || !row[6].TextCell? || !row[7].TextCell? then None
    else
      match (ParseInt(row[0].text), ParseType(row[5].text))
      case (Some(id), Some(kind)) =>
        Some(RowView(id, row[1].text, row[2].text, row[3].text, row[4].value, kind,
                     row[6].text, row[7].text))
      case _ => None
  }

  lemma ParseIntToString(i: int)
    ensures ParseInt(IntToString(i)) == Some(i)
  {
    IntToStringRoundTrip(i);
    var s := IntToString(i);
    if i >= 0 {
      assert s == Dec(i);
      if |s| > 1 {
        assert !IsDigit('-');
        assert s[0] != '-';
      }
    } else {
      assert |s| > 1 by {
        assert s == "-" + Dec(-i);
      }
    }
  }

  /** The row layout can be read back: column A gives the id, C the date as
      sent and E the signed amount, and every other column its value. */
  lemma ReadSheetRow(id: int, createdAt: string, b: Body, amount: real)
    ensures ReadRow(SheetRow(id, createdAt, b, amount))
      == Some(RowView(id, createdAt, b.date, b.description, amount, b.kind, b.account, b.category))
  {
    ParseIntToString(id);
  }

  // ---------------------------------------------------------------------
  // The handler

  datatype Request = Request(verb: string, body: Option<map<string, Json>>)

  /** The record written to the database. */
  datatype Stored = Stored(id: int, when: UtcArgs, description: string, amount: real,
                           kind: TxType, category: string, account: string)

  /** The status code, the record stored and the row that reached the sheet. */
  datatype Reply = Reply(status: int, stored: Option<Stored>, sheetRow: Option<seq<Cell>>)

  /** `Date.UTC` of a NaN argument is NaN, so `whenUTC` is an Invalid Date
      unless every part is a number. */
  predicate AllNumbers(a: UtcArgs) {
    a.year.Some? && a.month.Some? && a.day.Some?
  }

  /** The record stored for an accepted body. */
  function RecordOf(b: Body, id: int): Stored {
    Stored(id, DateArgs(b.date), b.description, NormalizedAmount(b.kind, b.amount),
           b.kind, b.category, b.account)
  }

  /** The 201 reply for an accepted body: the record, and the row when the
      sheet is configured and the append does not throw. */
  function Accept(b: Body, id: int, createdAt: string, sheetsConfigured: bool,
                  appendThrows: bool): Reply
  {
    var amount := NormalizedAmount(b.kind, b.amount);
    Reply(201, Some(RecordOf(b, id)),
          if sheetsConfigured && !appendThrows then Some(SheetRow(id, createdAt, b, amount)) else None)
  }

  /** `handler`: `id` is the id the database assigns, `createdAt` the clock's
      ISO text, `sheetsConfigured` whether the sheet credentials are set and
      `appendThrows` whether the append fails. A body whose date has a part
      that is not a number passes validation, but the database refuses the
      Invalid Date: the create throws outside the `try`, nothing is stored
      or appended, and the request ends in a server error. */
  function Handle(req: Request, id: int, createdAt: string, sheetsConfigured: bool,
                  appendThrows: bool): (r: Reply)
    ensures req.verb != "POST" ==> r == Reply(405, None, None)
    ensures req.verb == "POST" && ParseBody(req.body).Err? ==> r == Reply(400, None, None)
    ensures req.verb == "POST" && ParseBody(req.body).Ok? ==>
      var b := ParseBody(req.body).value;
      if AllNumbers(DateArgs(b.date)) then
        r.status == 201
        && r.stored == Some(Stored(id, DateArgs(b.date), b.description,
                                   NormalizedAmount(b.kind, b.amount), b.kind, b.category, b.account))
      else r == Reply(500, None, None)
    ensures r.stored.Some? ==>
      (r.stored.value.id == id
       && (r.stored.value.kind == Expense ==> r.stored.value.amount <= 0.0)
       && (r.stored.value.kind == Income ==> r.stored.value.amount >= 0.0))
    ensures r.sheetRow.Some? <==> r.stored.Some? && sheetsConfigured && !appendThrows
    ensures r.sheetRow.Some? ==>
      var b := ParseBody(req.body).value;
      ReadRow(r.sheetRow.value) == Some(RowView(id, createdAt, b.date, b.description,
        r.stored.value.amount, b.kind, b.account, b.category))
  {
    if req.verb != "POST" then Reply(405, None, None)
    else
      match ParseBody(req.body)
      case Err(_) => Reply(400, None, None)
      case Ok(b) =>
        if !AllNumbers(DateArgs(b.date)) then Reply(500, None, None)
        else
          ReadSheetRow(id, createdAt, b, NormalizedAmount(b.kind, b.amount));
          Accept(b, id, createdAt, sheetsConfigured, appendThrows)
  }

  /** What the form sends for a "Y-M-D" date is stored field by field:
      that day, the description, the signed amount, the type, category and account. */
  lemma HandleStoresIsoDate(b: Body, y: nat, m: nat, d: nat, id: int, createdAt: string,
                            sheetsConfigured: bool, appendThrows: bool)
    requires WellFormed(b) && b.date == Dec(y) + "-" + Dec(m) + "-" + Dec(d)
    ensures Handle(Request("POST", Some(FieldsOf(b))), id, createdAt, sheetsConfigured, appendThrows).stored
      == Some(Stored(id, UtcArgs(Some(y as real), Some(m as real), Some(d as real)), b.description,
                     NormalizedAmount(b.kind, b.amount), b.kind, b.category, b.account))
  {
    ParseFieldsOf(b);
    IsoDateArgs(y, m, d);
  }

  /** As written: a date such as "10/11/2025" passes `z.string().min(1)`,
      `Number` makes it NaN, and the request fails with nothing stored. */
  lemma SlashedDateFails(b: Body, id: int, createdAt: string, sheetsConfigured: bool,
                         appendThrows: bool)
    requires WellFormed(b) && '/' in b.date && '-' !in b.date
    ensures Handle(Request("POST", Some(FieldsOf(b))), id, createdAt, sheetsConfigured, appendThrows)
      == Reply(500, None, None)
  {
    ParseFieldsOf(b);
    SplitNone(b.date, '-');
    assert !IsDigit('/') && !IsSpace('/');
    ForeignCharIsNaN(b.date, '/');
  }

  /** The date field as a date check would see it: text, but not "Y[-M[-D]]" in numbers. */
  predicate BadDateText(body: Option<map<string, Json>>) {
    body.Some? && RequiredText(Get(body.value, "date")).Some?
    && !AllNumbers(DateArgs(RequiredText(Get(body.value, "date")).value))
  }

  /** Corrected validation: a date whose parts are not numbers is a field
      error like any other. */
  function ParseBodyChecked(body: Option<map<string, Json>>): (r: Result<Body, set<Field>>)
    ensures r.Ok? <==> ParseBody(body).Ok? && AllNumbers(DateArgs(ParseBody(body).value.date))
    ensures r.Ok? ==> r == ParseBody(body)
  {
    match ParseBody(body)
    case Ok(b) => if AllNumbers(DateArgs(b.date)) then Ok(b) else Err({DateField})
    case Err(e) => Err(e + (if BadDateText(body) then {DateField} else {}))
  }

  /** The handler with the corrected validation. */
  function HandleChecked(req: Request, id: int, createdAt: string, sheetsConfigured: bool,
                         appendThrows: bool): Reply
  {
    if req.verb != "POST" then Reply(405, None, None)
    else
      match ParseBodyChecked(req.body)
      case Err(_) => Reply(400, None, None)
      case Ok(b) => Accept(b, id, createdAt, sheetsConfigured, appendThrows)
  }

  /** The correction turns exactly the server errors into 400s and changes
      nothing else: the checked handler never answers 500. */
  lemma CheckedHandlerAgrees(req: Request, id: int, createdAt: string, sheetsConfigured: bool,
                             appendThrows: bool)
    ensures HandleChecked(req, id, createdAt, sheetsConfigured, appendThrows).status in {201, 400, 405}
    ensures Handle(req, id, createdAt, sheetsConfigured, appendThrows).status == 500 ==>
      HandleChecked(req, id, createdAt, sheetsConfigured, appendThrows) == Reply(400, None, None)
    ensures Handle(req, id, createdAt, sheetsConfigured, appendThrows).status != 500 ==>
      HandleChecked(req, id, createdAt, sheetsConfigured, appendThrows)
        == Handle(req, id, createdAt, sheetsConfigured, appendThrows)
  {
  }

  /** A body whose amount fails the check, e.g. `null`, a boolean or text
      that `Number` reads as NaN, is answered 400 and nothing is stored. */
  lemma BadAmountRejected(b: Body, v: Json, id: int, createdAt: string, sheetsConfigured: bool,
                          appendThrows: bool)
    requires WellFormed(b) && AmountOf(Some(v)).None?
    ensures Handle(Request("POST", Some(FieldsOf(b)["amount" := v])), id, createdAt,
                   sheetsConfigured, appendThrows) == Reply(400, None, None)
  {
    assert Get(FieldsOf(b)["amount" := v], "amount") == Some(v);
  }

  /** The form's NaN amount, sent as `null`, never reaches the database. */
  lemma FormNaNRejected(b: Body, typed: string, id: int, createdAt: string, sheetsConfigured: bool,
                        appendThrows: bool)
    requires WellFormed(b) && AmountInput.BodyAmount(typed).None?
    ensures Handle(Request("POST", Some(FieldsOf(b)["amount" := ClientAmount(typed)])), id, createdAt,
                   sheetsConfigured, appendThrows) == Reply(400, None, None)
  {
    BadAmountRejected(b, Null, id, createdAt, sheetsConfigured, appendThrows);
  }

  /** A failing append is invisible to the caller: same status, same record. */
  lemma AppendFailureInvisible(req: Request, id: int, createdAt: string, sheetsConfigured: bool)
    ensures Handle(req, id, createdAt, sheetsConfigured, true).status
      == Handle(req, id, createdAt, sheetsConfigured, false).status
    ensures Handle(req, id, createdAt, sheetsConfigured, true).stored
      == Handle(req, id, createdAt, sheetsConfigured, false).stored
  {
  }

  /** The dashboard's row for a stored record. */
  function AsTx(s: Stored, date: Date): Tx {
    Tx(s.id, date, s.description, s.kind, s.amount, Some(s.category), Some(s.account))
  }

  /** Every record the handler stores obeys the sign convention the dashboard
      relies on. */
  lemma StoredFollowsSignConvention(req: Request, id: int, createdAt: string,
                                    sheetsConfigured: bool, appendThrows: bool, date: Date)
    requires Handle(req, id, createdAt, sheetsConfigured, appendThrows).stored.Some?
    ensures SignConvention(AsTx(Handle(req, id, createdAt, sheetsConfigured, appendThrows).stored.value, date))
  {
  }
}

=== FILE: numerals.dfy ===
/** Decimal numerals: `String(n)` for integers, the `/\d+/` match, and the
    plain decimal literals that JavaScript's `Number(string)` accepts. */
module Numerals {
  import opened Wrappers
  import Text

  predicate IsDigit(c: char) {
    '0' <= c <= '9'
  }

  predicate AllDigits(s: string) {
    forall i :: 0 <= i < |s| ==> IsDigit(s[i])
  }

  function DigitChar(d: nat): (c: char)
    requires d < 10
    ensures IsDigit(c)
  {
    ('0' as int + d) as char
  }

  function DigitValue(c: char): (d: nat)
    requires IsDigit(c)
    ensures d < 10
  {
    c as int - '0' as int
  }

  /** The value of a string of decimal digits (leading zeros allowed). */
  function ValueOf(s: string): nat
    requires AllDigits(s)
  {
    if |s| == 0 then 0 else ValueOf(s[..|s| - 1]) * 10 + DigitValue(s[|s| - 1])
  }

  /** Decimal digits of `n` without leading zeros. */
  function Dec(n: nat): (r: string)
    ensures |r| > 0 && AllDigits(r)
    ensures |r| > 1 ==> r[0] != '0'
  {
    if n < 10 then [DigitChar(n)] else Dec(n / 10) + [DigitChar(n % 10)]
  }

  /** Reading the digits back gives the number: `Number(String(n)) === n`. */
  lemma {:induction false} ValueOfDec(n: nat)
    ensures ValueOf(Dec(n)) == n
  {
    if n >= 10 {
      ValueOfDec(n / 10);
      var r := Dec(n);
      assert r[..|r| - 1] == Dec(n / 10);
    }
  }

  /** `String(i)` for an integer. */
  function IntToString(i: int): string {
    if i < 0 then "-" + Dec(-i) else Dec(i)
  }

  lemma IntToStringRoundTrip(i: int)
    ensures i >= 0 ==> AllDigits(IntToString(i)) && ValueOf(IntToString(i)) == i
    ensures i < 0 ==> IntToString(i)[0] == '-'
    ensures i < 0 ==> AllDigits(IntToString(i)[1..]) && ValueOf(IntToString(i)[1..]) == -i
  {
    if i >= 0 {
      ValueOfDec(i);
    } else {
      assert IntToString(i)[1..] == Dec(-i);
      ValueOfDec(-i);
    }
  }

  /** Length of the longest all-digit prefix. */
  function LeadingDigits(s: string): (n: nat)
    ensures n <= |s| && AllDigits(s[..n])
    ensures n < |s| ==> !IsDigit(s[n])
  {
    if |s| == 0 || !IsDigit(s[0]) then 0
    else
      var n := LeadingDigits(s[1..]);
      assert s[..n + 1] == [s[0]] + s[1..][..n];
      n + 1
  }

  /** `r` is a maximal run of digits of `s` starting at `i`, with no digit before it. */
  predicate FirstRunAt(s: string, r: string, i: int) {
    0 <= i && i + |r| <= |s| && s[i..i + |r|] == r
    && (forall k :: 0 <= k < i ==> !IsDigit(s[k]))
    && (i + |r| == |s| || !IsDigit(s[i + |r|]))
  }

  /** `s.match(/\d+/)?.[0]`: the first maximal run of digits, "" when there is none. */
  function FirstDigitRun(s: string): (r: string)
    ensures AllDigits(r)
    ensures r == "" <==> forall i :: 0 <= i < |s| ==> !IsDigit(s[i])
    ensures r != "" ==> exists i :: FirstRunAt(s, r, i)
  {
    if |s| == 0 then ""
    else if IsDigit(s[0]) then
      var n := LeadingDigits(s);
      assert s[0..0 + n] == s[..n];
      assert FirstRunAt(s, s[..n], 0);
      s[..n]
    else
      var r := FirstDigitRun(s[1..]);
      if r != "" then
        var i :| FirstRunAt(s[1..], r, i);
        assert s[i + 1..i + 1 + |r|] == r;
        assert FirstRunAt(s, r, i + 1);
        r
      else
        r
  }

  /** A digit run followed by a non-digit is found as the first run of the text it starts. */
  lemma FirstDigitRunPrefix(ds: string, rest: string)
    requires |ds| > 0 && AllDigits(ds)
    requires |rest| > 0 && !IsDigit(rest[0])
    ensures FirstDigitRun(ds + rest) == ds
  {
    var s := ds + rest;
    assert LeadingDigits(s) == |ds| by {
      LeadingDigitsOf(ds, rest);
    }
    assert s[..|ds|] == ds;
  }

  lemma {:induction false} LeadingDigitsOf(ds: string, rest: string)
    requires AllDigits(ds)
    requires |rest| > 0 && !IsDigit(rest[0])
    ensures LeadingDigits(ds + rest) == |ds|
  {
    if |ds| > 0 {
      assert (ds + rest)[1..] == ds[1..] + rest;
      LeadingDigitsOf(ds[1..], rest);
    } else {
      assert ds + rest == rest;
    }
  }

  function Pow10(n: nat): (p: nat)
    ensures p >= 1
  {
    if n == 0 then 1 else 10 * Pow10(n - 1)
  }

  /** The value of "<whole>.<frac>". */
  function DecimalOf(whole: string, frac: string): real
    requires AllDigits(whole) && AllDigits(frac)
  {
    ValueOf(whole) as real + ValueOf(frac) as real / Pow10(|frac|) as real
  }

  /** Digits, optionally with one `.` and more digits, at least one digit in all. */
  function UnsignedDecimal(t: string): Option<real> {
    var i := LeadingDigits(t);
    if i == |t| then
      (if i > 0 then Some(ValueOf(t) as real) else None)
    else if t[i] == '.' && AllDigits(t[i + 1..]) && (i > 0 || i + 1 < |t|) then
      Some(DecimalOf(t[..i], t[i + 1..]))
    else
      None
  }

  /** A character a decimal literal may contain, white space around it
      included. */
  predicate LiteralChar(c: char) {
    IsDigit(c) || c == '.' || c == '-' || c == '+' || Text.IsSpace(c)
  }

  /** JavaScript `Number(s)` for the decimal literals this program handles:
      surrounding white space is ignored, the empty string is 0, an optional
      sign, digits with at most one `.`; anything else is NaN (`None`).
      Exponents, hexadecimal, `Infinity` and the like are NaN here. */
  function NumberOf(s: string): (r: Option<real>)
    ensures r.Some? ==> forall k :: 0 <= k < |s| ==> LiteralChar(s[k])
  {
    var t := Text.Trim(s);
    if t == "" then
      LiteralCharsOf(s);
      Some(0.0)
    else if t[0] == '-' then
      match UnsignedDecimal(t[1..])
      case Some(v) =>
        LiteralCharsOf(s);
        Some(-v)
      case None => None
    else if t[0] == '+' then
      var u := UnsignedDecimal(t[1..]);
      if u.Some? then
        LiteralCharsOf(s);
        u
      else u
    else
      var u := UnsignedDecimal(t);
      if u.Some? then
        LiteralCharsOf(s);
        u
      else u
  }

  /** A string whose trimmed core is empty or a signed or unsigned decimal
      holds literal characters only. */
  lemma LiteralCharsOf(s: string)
    requires var t := Text.Trim(s);
      t == "" || ((t[0] == '-' || t[0] == '+') && UnsignedDecimal(t[1..]).Some?)
      || UnsignedDecimal(t).Some?
    ensures forall k :: 0 <= k < |s| ==> LiteralChar(s[k])
  {
    var t := Text.Trim(s);
    Text.TrimSpec(s);
    var i :| Text.SpaceAround(s, t, i);
    if t != "" {
      if (t[0] == '-' || t[0] == '+') && UnsignedDecimal(t[1..]).Some? {
        UnsignedDecimalChars(t[1..]);
        assert forall k :: 1 <= k < |t| ==> t[k] == t[1..][k - 1];
      } else {
        UnsignedDecimalChars(t);
      }
    }
    forall k | 0 <= k < |s| ensures LiteralChar(s[k]) {
      if i <= k < i + |t| {
        assert s[k] == t[k - i];
      }
    }
  }

  lemma UnsignedDecimalChars(t: string)
    requires UnsignedDecimal(t).Some?
    ensures forall k :: 0 <= k < |t| ==> IsDigit(t[k]) || t[k] == '.'
  {
    var i := LeadingDigits(t);
    if i < |t| {
      forall k | 0 <= k < |t| ensures IsDigit(t[k]) || t[k] == '.' {
        if k < i {
          assert t[..i][k] == t[k];
        } else if k > i {
          assert t[i + 1..][k - i - 1] == t[k];
        }
      }
    }
  }

  /** A character that no decimal literal contains (anything but digits, `.`,
      a sign or white space) makes `Number` NaN: `Number("0,50")` and
      `Number("10/11/2025")` are NaN. */
  lemma ForeignCharIsNaN(s: string, c: char)
    requires c in s && !LiteralChar(c)
    ensures NumberOf(s) == None
  {
  }

  lemma CommaIsNaN(s: string)
    requires ',' in s
    ensures NumberOf(s) == None
  {
    assert !Text.IsSpace(',');
    ForeignCharIsNaN(s, ',');
  }

  /** Digits worth 0 stay worth 0 when joined. */
  lemma {:induction false} ZeroDigitsAppend(w: string, f: string)
    requires AllDigits(w) && AllDigits(f) && ValueOf(w) == 0 && ValueOf(f) == 0
    ensures AllDigits(w + f) && ValueOf(w + f) == 0
    decreases |f|
  {
    if |f| == 0 {
      assert w + f == w;
    } else {
      var f0 := f[..|f| - 1];
      assert AllDigits(f0);
      ZeroDigitsAppend(w, f0);
      assert (w + f)[..|w + f| - 1] == w + f0;
      assert (w + f)[|w + f| - 1] == f[|f| - 1];
    }
  }

  /** "<whole>.<frac>" is worth 0 only when both parts are. */
  lemma DecimalZero(w: string, f: string)
    requires AllDigits(w) && AllDigits(f) && DecimalOf(w, f) == 0.0
    ensures ValueOf(w) == 0 && ValueOf(f) == 0
  {
    var b := ValueOf(f) as real;
    var p := Pow10(|f|) as real;
    assert b / p >= 0.0;
    assert b / p == 0.0;
    assert b == (b / p) * p;
  }

  /** A plain literal worth 0 is still a literal worth 0 once its `.` is gone. */
  lemma UnsignedZeroWithoutDots(t: string)
    requires UnsignedDecimal(t) == Some(0.0)
    ensures var x := Text.RemoveAll(t, '.');
      |x| > 0 && AllDigits(x) && UnsignedDecimal(x) == Some(0.0)
  {
    var i := LeadingDigits(t);
    if i == |t| {
      assert t[..i] == t;
      ZeroDigitsWithoutDots(t);
    } else {
      ZeroDecimalWithoutDots(t, i);
    }
  }

  lemma ZeroDigitsWithoutDots(t: string)
    requires |t| > 0 && AllDigits(t) && ValueOf(t) == 0
    ensures var x := Text.RemoveAll(t, '.');
      |x| > 0 && AllDigits(x) && UnsignedDecimal(x) == Some(0.0)
  {
    assert '.' !in t by {
      assert forall k :: 0 <= k < |t| ==> t[k] != '.';
    }
    Text.RemoveAllAbsent(t, '.');
    AllDigitsLeading(t);
  }

  lemma ZeroDecimalWithoutDots(t: string, i: nat)
    requires i == LeadingDigits(t) && i < |t| && UnsignedDecimal(t) == Some(0.0)
    ensures var x := Text.RemoveAll(t, '.');
      |x| > 0 && AllDigits(x) && UnsignedDecimal(x) == Some(0.0)
  {
    var w, f := t[..i], t[i + 1..];
    assert t == w + "." + f;
    DotsOutOfDecimal(w, f);
    DecimalZero(w, f);
    ZeroDigitsAppend(w, f);
    ZeroDigitsWithoutDots(w + f);
    Text.RemoveAllAbsent(w + f, '.');
  }

  lemma DotsOutOfDecimal(w: string, f: string)
    requires AllDigits(w) && AllDigits(f)
    ensures Text.RemoveAll(w + "." + f, '.') == w + f
  {
    assert '.' !in w && '.' !in f by {
      assert forall k :: 0 <= k < |w| ==> w[k] != '.';
      assert forall k :: 0 <= k < |f| ==> f[k] != '.';
    }
    Text.RemoveAllAppend(w + ".", f, '.');
    Text.RemoveAllAppend(w, ".", '.');
    Text.RemoveAllAbsent(w, '.');
    Text.RemoveAllAbsent(f, '.');
    assert Text.RemoveAll(".", '.') == "";
  }

  /** `Number(s) === 0` survives deleting every `.` from `s`. */
  lemma NumberOfZeroWithoutDots(a: string)
    requires NumberOf(a) == Some(0.0)
    ensures NumberOf(Text.RemoveAll(a, '.')) == Some(0.0)
  {
    var t := Text.Trim(a);
    Text.TrimSpec(a);
    var i :| Text.SpaceAround(a, t, i);
    var pre, post := a[..i], a[i + |t|..];
    DotsAround(a, pre, t, post);
    if t == "" {
      assert pre + Text.RemoveAll(t, '.') + post == pre + post;
      Text.AllSpaceTrim(pre + post);
    } else if t[0] == '-' || t[0] == '+' {
      SignedZeroWithoutDots(pre, t, post);
    } else {
      PlainZeroWithoutDots(pre, t, post);
    }
  }

  lemma DotsAround(a: string, pre: string, t: string, post: string)
    requires a == pre + t + post
    requires forall k :: 0 <= k < |pre| ==> Text.IsSpace(pre[k])
    requires forall k :: 0 <= k < |post| ==> Text.IsSpace(post[k])
    ensures Text.RemoveAll(a, '.') == pre + Text.RemoveAll(t, '.') + post
  {
    assert '.' !in pre && '.' !in post by {
      assert forall k :: 0 <= k < |pre| ==> pre[k] != '.';
      assert forall k :: 0 <= k < |post| ==> post[k] != '.';
    }
    Text.RemoveAllAppend(pre + t, post, '.');
    Text.RemoveAllAppend(pre, t, '.');
    Text.RemoveAllAbsent(pre, '.');
    Text.RemoveAllAbsent(post, '.');
  }

  lemma SignedZeroWithoutDots(pre: string, t: string, post: string)
    requires forall k :: 0 <= k < |pre| ==> Text.IsSpace(pre[k])
    requires forall k :: 0 <= k < |post| ==> Text.IsSpace(post[k])
    requires |t| > 0 && (t[0] == '-' || t[0] == '+') && UnsignedDecimal(t[1..]) == Some(0.0)
    ensures NumberOf(pre + Text.RemoveAll(t, '.') + post) == Some(0.0)
  {
    UnsignedZeroWithoutDots(t[1..]);
    SignDots(t);
    SignedZeroNumber(pre, [t[0]] + Text.RemoveAll(t[1..], '.'), post);
  }

  lemma SignDots(t: string)
    requires |t| > 0 && t[0] != '.'
    ensures Text.RemoveAll(t, '.') == [t[0]] + Text.RemoveAll(t[1..], '.')
  {
  }

  lemma SignedZeroNumber(pre: string, x: string, post: string)
    requires forall k :: 0 <= k < |pre| ==> Text.IsSpace(pre[k])
    requires forall k :: 0 <= k < |post| ==> Text.IsSpace(post[k])
    requires |x| > 1 && (x[0] == '-' || x[0] == '+') && AllDigits(x[1..])
    requires UnsignedDecimal(x[1..]) == Some(0.0)
    ensures NumberOf(pre + x + post) == Some(0.0)
  {
    assert x[|x| - 1] == x[1..][|x| - 2];
    assert !Text.IsSpace(x[|x| - 1]);
    Text.TrimAround(pre, x, post);
  }

  lemma PlainZeroWithoutDots(pre: string, t: string, post: string)
    requires forall k :: 0 <= k < |pre| ==> Text.IsSpace(pre[k])
    requires forall k :: 0 <= k < |post| ==> Text.IsSpace(post[k])
    requires UnsignedDecimal(t) == Some(0.0)
    ensures NumberOf(pre + Text.RemoveAll(t, '.') + post) == Some(0.0)
  {
    var x := Text.RemoveAll(t, '.');
    UnsignedZeroWithoutDots(t);
    assert !Text.IsSpace(x[0]) && !Text.IsSpace(x[|x| - 1]);
    Text.TrimAround(pre, x, post);
  }

  lemma AllDigitsLeading(s: string)
    requires AllDigits(s)
    ensures LeadingDigits(s) == |s|
  {
    if |s| > 0 {
      assert AllDigits(s[1..]);
      AllDigitsLeading(s[1..]);
    }
  }

  lemma TrimDigits(s: string)
    requires |s| > 0 && AllDigits(s)
    ensures Text.Trim(s) == s
  {
    assert !Text.IsSpace(s[0]);
    assert Text.TrimStart(s) == s;
    assert !Text.IsSpace(s[|s| - 1]);
  }

  /** `Number(String(n)) === n` for the natural numbers `String` writes. */
  lemma NumberOfDec(n: nat)
    ensures NumberOf(Dec(n)) == Some(n as real)
  {
    var r := Dec(n);
    TrimDigits(r);
    AllDigitsLeading(r);
    assert IsDigit(r[0]);
    assert UnsignedDecimal(r) == Some(ValueOf(r) as real);
    ValueOfDec(n);
  }
}

=== FILE: period.dfy ===
/** The selected-month view of the dashboard (`Home` in src/pages/index.tsx):
    the `filtered` list, the KPI totals, the end-of-month projection and the
    comparison with the previous month. */
module Period {
  import opened Wrappers
  import opened Calendar
  import opened Seqs
  import opened Ledger
  import Text

  datatype TypeFilter = All | Only(kind: TxType)

  /** `d >= new Date(year, month - 1, 1) && d < new Date(year, month, 1)`. */
  predicate InPeriod(t: Tx, ym: YearMonth)
    requires ValidMonth(ym)
  {
    InMonthRange(t.date, ym)
  }

  /** The search box: a blank query passes everything, otherwise a
      case-insensitive substring test on the description. */
  predicate MatchesQuery(t: Tx, q: string) {
    var needle := Text.Trim(q);
    needle == "" || Text.Contains(Text.ToLower(t.description), Text.ToLower(needle))
  }

  predicate MatchesType(t: Tx, f: TypeFilter) {
    f.All? || t.kind == f.kind
  }

  predicate Selected(t: Tx, ym: YearMonth, q: string, f: TypeFilter)
    requires ValidMonth(ym)
  {
    InPeriod(t, ym) && MatchesQuery(t, q) && MatchesType(t, f)
  }

  /** `+new Date(t.date)`: the timestamp order of stored days. */
  function DateKey(t: Tx): real {
    if ValidDate(t.date) then DayNumber(t.date) as real else 0.0
  }

  /** All rows of month `ym`, in input order (the range filter the
      comparison and the balance series use on the full history). */
  function PeriodTxs(txs: seq<Tx>, ym: YearMonth): (r: seq<Tx>)
    requires ValidMonth(ym)
    ensures forall t :: t in r <==> t in txs && InPeriod(t, ym)
  {
    Filter(txs, (t: Tx) => InPeriod(t, ym))
  }

  /** The `filtered` list: the rows of the month that pass the search and the
      type filter, newest first. */
  function Filtered(txs: seq<Tx>, ym: YearMonth, q: string, f: TypeFilter): (r: seq<Tx>)
    requires ValidMonth(ym)
    ensures forall t :: multiset(r)[t] == if Selected(t, ym, q, f) then multiset(txs)[t] else 0
    ensures forall t :: t in r <==> t in txs && Selected(t, ym, q, f)
    ensures WellDated(txs) ==> forall i, j :: 0 <= i < j < |r| ==> !DateLt(r[i].date, r[j].date)
  {
    var p := (t: Tx) => Selected(t, ym, q, f);
    var sel := Filter(txs, p);
    var r := SortDesc(sel, DateKey);
    assert forall t :: multiset(r)[t] == if Selected(t, ym, q, f) then multiset(txs)[t] else 0 by {
      forall t ensures multiset(r)[t] == if Selected(t, ym, q, f) then multiset(txs)[t] else 0 {
        FilterCount(txs, p, t);
      }
    }
    assert forall t :: t in r <==> t in sel by {
      forall t ensures t in r <==> t in sel {
        assert t in r <==> t in multiset(r);
      }
    }
    assert WellDated(txs) ==> forall i, j :: 0 <= i < j < |r| ==> !DateLt(r[i].date, r[j].date) by {
      if WellDated(txs) {
        forall i, j | 0 <= i < j < |r| ensures !DateLt(r[i].date, r[j].date) {
          assert r[i] in r && r[j] in r;
          DayNumberOrder(r[i].date, r[j].date);
        }
      }
    }
    r
  }

  /** A date exactly on the first day of the month is inside the period, one
      on the first day of the next month is outside. */
  lemma PeriodBoundaries(t: Tx, ym: YearMonth)
    requires ValidMonth(ym)
    ensures t.date == FirstDay(ym) ==> InPeriod(t, ym)
    ensures t.date == FirstDay(NextMonth(ym)) ==> !InPeriod(t, ym)
  {
  }

  /** For a real calendar day, being in the period means being dated in that month. */
  lemma InPeriodIff(t: Tx, ym: YearMonth)
    requires ValidMonth(ym) && ValidDate(t.date)
    ensures InPeriod(t, ym) <==> MonthOf(t.date) == ym
  {
    InMonthRangeIff(t.date, ym);
  }

  /** An empty or blank search and the `ALL` filter keep exactly the month's rows. */
  lemma UnfilteredIsPeriod(txs: seq<Tx>, ym: YearMonth, q: string)
    requires ValidMonth(ym)
    requires forall k :: 0 <= k < |q| ==> Text.IsSpace(q[k])
    ensures multiset(Filtered(txs, ym, q, All)) == multiset(PeriodTxs(txs, ym))
  {
    Text.TrimEmptyIff(q);
    var r := Filtered(txs, ym, q, All);
    forall t ensures multiset(r)[t] == multiset(PeriodTxs(txs, ym))[t] {
      FilterCount(txs, (t: Tx) => InPeriod(t, ym), t);
    }
  }

  // ---------------------------------------------------------------------
  // KPIs

  datatype Kpis = Kpis(income: real, expense: real, balance: real, totalExpenseAbs: real, totalCount: nat)

  /** `income`, `expense`, `balance`, `totalExpenseAbs` and `totalCount`. */
  function ComputeKpis(filtered: seq<Tx>): (k: Kpis)
    ensures k.income == IncomeTotal(filtered) && k.expense == ExpenseTotal(filtered)
    ensures k.balance == Net(filtered)
    ensures k.income + k.expense == k.balance
    ensures k.totalExpenseAbs == Abs(k.expense)
    ensures k.totalCount == |filtered|
    ensures (forall t :: t in filtered ==> SignConvention(t)) ==>
      k.income >= 0.0 && k.expense <= 0.0 && k.totalExpenseAbs == -k.expense
  {
    var income := IncomeTotal(filtered);
    var expense := ExpenseTotal(filtered);
    IncomePlusExpense(filtered);
    assert (forall t :: t in filtered ==> SignConvention(t)) ==> income >= 0.0 && expense <= 0.0 by {
      if forall t :: t in filtered ==> SignConvention(t) {
        SignedTotals(filtered);
      }
    }
    Kpis(income, expense, income + expense, Abs(expense), |filtered|)
  }

  /** The KPIs do not depend on the order of the rows, so sorting `filtered`
      changes none of them. */
  lemma KpisOrderIndependent(a: seq<Tx>, b: seq<Tx>)
    requires multiset(a) == multiset(b)
    ensures ComputeKpis(a) == ComputeKpis(b)
  {
    FilterSameRows(a, b, IsIncome, IsIncome);
    FilterSameRows(a, b, IsExpense, IsExpense);
    SumOfPermutation(Filter(a, IsIncome), Filter(b, IsIncome), Amount);
    SumOfPermutation(Filter(a, IsExpense), Filter(b, IsExpense), Amount);
    assert |a| == |multiset(a)| == |multiset(b)| == |b|;
  }

  function KindOf(t: Tx): TxType {
    t.kind
  }

  /** Against the per-key reference sum: `income` is what the rows of type
      INCOME add up to, `expense` what the rows of type EXPENSE add up to. */
  lemma KpisPerKind(filtered: seq<Tx>)
    ensures ComputeKpis(filtered).income == SumFor(filtered, KindOf, Amount, Income)
    ensures ComputeKpis(filtered).expense == SumFor(filtered, KindOf, Amount, Expense)
  {
    KindSum(filtered, IsIncome, Income);
    KindSum(filtered, IsExpense, Expense);
  }

  lemma {:induction false} KindSum(s: seq<Tx>, p: Tx -> bool, kind: TxType)
    requires forall t :: p(t) <==> t.kind == kind
    ensures Net(Filter(s, p)) == SumFor(s, KindOf, Amount, kind)
  {
    if |s| > 0 {
      KindSum(Init(s), p, kind);
      var x := Last(s);
      var tail := if p(x) then [x] else [];
      assert Filter(s, p) == Filter(Init(s), p) + tail;
      SumOfAppend(Filter(Init(s), p), tail, Amount);
      if p(x) {
        SumOfSingle(x, Amount);
      } else {
        assert SumOf(tail, Amount) == 0.0;
      }
    }
  }

  /** Scenario: a 50 expense and a 1000 income in January 2024. */
  lemma KpisScenario()
    ensures var txs := [
        Tx(1, Date(2024, 1, 5), "Mercado", Expense, -50.0, Some("Mercado"), None),
        Tx(2, Date(2024, 1, 20), "Salario", Income, 1000.0, None, None)];
      ComputeKpis(txs) == Kpis(1000.0, -50.0, 950.0, 50.0, 2)
  {
    var a := Tx(1, Date(2024, 1, 5), "Mercado", Expense, -50.0, Some("Mercado"), None);
    var b := Tx(2, Date(2024, 1, 20), "Salario", Income, 1000.0, None, None);
    var txs := [a, b];
    assert Init(txs) == [a];
    assert Init([a]) == [];
    assert Filter([a], IsIncome) == [];
    assert Filter([a], IsExpense) == [a];
    assert Filter(txs, IsIncome) == [b];
    assert Filter(txs, IsExpense) == [a];
    SumOfSingle(a, Amount);
    SumOfSingle(b, Amount);
  }

  // ---------------------------------------------------------------------
  // Projection

  datatype Projection = Projection(
    daysInMonth: int,
    isCurrentMonth: bool,
    daysElapsed: int,
    avgDailyExpense: real,
    netPerDay: real,
    daysRemaining: int,
    projectedEndBalance: real)

  /** The end-of-month projection. `now` is the wall-clock day. Only the live
      month counts partial days; any other month is treated as complete. */
  function Project(balance: real, totalExpenseAbs: real, ym: YearMonth, now: Date): (p: Projection)
    requires ValidMonth(ym) && ValidDate(now)
    ensures p.daysInMonth == DaysInMonth(ym.year, ym.month)
    ensures p.isCurrentMonth <==> MonthOf(now) == ym
    ensures 1 <= p.daysElapsed <= p.daysInMonth
    ensures p.daysRemaining == p.daysInMonth - p.daysElapsed >= 0
    ensures p.isCurrentMonth ==> p.daysElapsed == now.day
    ensures !p.isCurrentMonth ==> p.daysElapsed == p.daysInMonth && p.daysRemaining == 0
    ensures !p.isCurrentMonth ==> p.projectedEndBalance == balance
    ensures p.avgDailyExpense * p.daysElapsed as real == totalExpenseAbs
    ensures p.netPerDay * p.daysElapsed as real == balance
    ensures p.projectedEndBalance * p.daysElapsed as real == balance * p.daysInMonth as real
  {
    var dim := DaysInMonth(ym.year, ym.month);
    var isCurrent := ym.year == now.year && ym.month == now.month;
    var elapsed := if isCurrent then now.day else dim;
    var avg := if elapsed > 0 then totalExpenseAbs / elapsed as real else 0.0;
    var net := if elapsed > 0 then balance / elapsed as real else 0.0;
    var remaining := if dim - elapsed > 0 then dim - elapsed else 0;
    var e := elapsed as real;
    assert net * e == balance;
    assert (balance + net * remaining as real) * e == balance * e + net * e * remaining as real;
    Projection(dim, isCurrent, elapsed, avg, net, remaining, balance + net * remaining as real)
  }

  // ---------------------------------------------------------------------
  // Month-over-month comparison

  datatype Comparison = Comparison(
    prev: YearMonth,
    prevIncome: real,
    prevExpenseAbs: real,
    incomePct: Option<real>,
    expensePct: Option<real>)

  /** `((cur - prev) / prev) * 100`, only ever taken on a positive base. */
  function PctChange(cur: real, prev: real): (r: real)
    requires prev > 0.0
    ensures r * prev == (cur - prev) * 100.0
    ensures r >= 0.0 <==> cur >= prev
  {
    var r := (cur - prev) / prev * 100.0;
    assert r * prev == (cur - prev) * 100.0;
    assert r >= 0.0 <==> cur >= prev by {
      if cur >= prev {
        assert r >= 0.0;
      } else {
        assert r < 0.0;
      }
    }
    r
  }

  /** The comparison record for given previous-month totals: each
      percentage exists exactly when its base is strictly positive. */
  function MakeComparison(prev: YearMonth, prevIncome: real, prevExpenseAbs: real,
                          income: real, totalExpenseAbs: real): (c: Comparison)
    ensures c.prev == prev && c.prevIncome == prevIncome && c.prevExpenseAbs == prevExpenseAbs
    ensures c.incomePct.Some? <==> prevIncome > 0.0
    ensures c.expensePct.Some? <==> prevExpenseAbs > 0.0
    ensures c.incomePct.Some? ==> c.incomePct.value * prevIncome == (income - prevIncome) * 100.0
    ensures c.expensePct.Some? ==>
      c.expensePct.value * prevExpenseAbs == (totalExpenseAbs - prevExpenseAbs) * 100.0
  {
    var incomePct := if prevIncome > 0.0 then Some(PctChange(income, prevIncome)) else None;
    var expensePct := if prevExpenseAbs > 0.0 then Some(PctChange(totalExpenseAbs, prevExpenseAbs)) else None;
    Comparison(prev, prevIncome, prevExpenseAbs, incomePct, expensePct)
  }

  /** `prevComparison`: null for an empty history; otherwise the previous
      month's totals over the full history, with the percentage changes of
      `MakeComparison`. */
  function Compare(txs: seq<Tx>, ym: YearMonth, income: real, totalExpenseAbs: real): (r: Option<Comparison>)
    requires ValidMonth(ym)
    ensures r.None? <==> |txs| == 0
    ensures r.Some? ==> r.value.prev == PrevMonth(ym)
    ensures r.Some? ==> r.value.prevIncome == IncomeTotal(PeriodTxs(txs, PrevMonth(ym)))
    ensures r.Some? ==> r.value.prevExpenseAbs == Abs(ExpenseTotal(PeriodTxs(txs, PrevMonth(ym))))
    ensures r.Some? ==> r.value == MakeComparison(r.value.prev, r.value.prevIncome,
                                                  r.value.prevExpenseAbs, income, totalExpenseAbs)
  {
    if |txs| == 0 then None
    else
      var prev := PrevMonth(ym);
      var prevTxs := PeriodTxs(txs, prev);
      Some(MakeComparison(prev, IncomeTotal(prevTxs), Abs(ExpenseTotal(prevTxs)), income, totalExpenseAbs))
  }

  /** Scenario: no income last month and 500 this month gives no income
      percentage (never an infinite one). */
  lemma NoIncomeBaseScenario(txs: seq<Tx>, ym: YearMonth)
    requires ValidMonth(ym) && |txs| > 0
    requires forall t :: t in txs ==> !(InPeriod(t, PrevMonth(ym)) && IsIncome(t))
    ensures Compare(txs, ym, 500.0, 0.0).value.incomePct == None
  {
    var prevTxs := PeriodTxs(txs, PrevMonth(ym));
    assert forall t :: t in prevTxs ==> !IsIncome(t);
    FilterNone(prevTxs, IsIncome);
  }
}

=== FILE: rankings.dfy ===
/** The expense breakdowns of the selected month, all computed from
    `filtered`: the category pie, the top categories and top places, the
    weekday totals and the month highlights; and the year list, computed from
    the whole history. */
module Rankings {
  import opened Wrappers
  import opened Calendar
  import opened Seqs
  import opened Ledger
  import opened Period
  import Text

  const OtherCategory: string := "Outros"
  const NoDescription: string := "Sem descrição"

  /** `t.category?.name || 'Outros'`: a missing or empty name falls back. */
  function CategoryKey(t: Tx): (k: string)
    ensures k != ""
    ensures t.category.Some? && t.category.value != "" ==> k == t.category.value
    ensures t.category.None? || t.category.value == "" ==> k == OtherCategory
  {
    if t.category.Some? && t.category.value != "" then t.category.value else OtherCategory
  }

  /** `t.description?.trim() || 'Sem descrição'`. */
  function PlaceKey(t: Tx): (k: string)
    ensures k != ""
    ensures Text.Trim(t.description) != "" ==> k == Text.Trim(t.description)
    ensures Text.Trim(t.description) == "" ==> k == NoDescription
  {
    var d := Text.Trim(t.description);
    if d != "" then d else NoDescription
  }

  /** `filtered.filter(t => t.type === 'EXPENSE')`. */
  function Expenses(filtered: seq<Tx>): (r: seq<Tx>)
    ensures forall t :: t in r <==> t in filtered && IsExpense(t)
  {
    Filter(filtered, IsExpense)
  }

  // ---------------------------------------------------------------------
  // Keyed totals: pie, top categories, top places

  /** `pieData`: per category, the sum of the expense magnitudes, in the order
      categories first appear. */
  function CategoryTotals(filtered: seq<Tx>): (r: seq<Entry<string>>)
    ensures KeysOf(r) == Dedup(Map(Expenses(filtered), CategoryKey))
    ensures forall i :: 0 <= i < |r| ==>
      r[i].total == SumFor(Expenses(filtered), CategoryKey, AbsAmount, r[i].key)
    ensures forall i :: 0 <= i < |r| ==> r[i].total >= 0.0
  {
    var es := Expenses(filtered);
    GroupSumSpec(es, CategoryKey, AbsAmount);
    assert forall k :: SumFor(es, CategoryKey, AbsAmount, k) >= 0.0 by {
      forall k ensures SumFor(es, CategoryKey, AbsAmount, k) >= 0.0 {
        SumForNonNeg(es, CategoryKey, AbsAmount, k);
      }
    }
    GroupSum(es, CategoryKey, AbsAmount)
  }

  /** The same grouping keyed by place (trimmed description). */
  function PlaceTotals(filtered: seq<Tx>): (r: seq<Entry<string>>)
    ensures KeysOf(r) == Dedup(Map(Expenses(filtered), PlaceKey))
    ensures forall i :: 0 <= i < |r| ==>
      r[i].total == SumFor(Expenses(filtered), PlaceKey, AbsAmount, r[i].key)
    ensures forall i :: 0 <= i < |r| ==> r[i].total >= 0.0
  {
    var es := Expenses(filtered);
    GroupSumSpec(es, PlaceKey, AbsAmount);
    assert forall k :: SumFor(es, PlaceKey, AbsAmount, k) >= 0.0 by {
      forall k ensures SumFor(es, PlaceKey, AbsAmount, k) >= 0.0 {
        SumForNonNeg(es, PlaceKey, AbsAmount, k);
      }
    }
    GroupSum(es, PlaceKey, AbsAmount)
  }

  /** The slices of the pie add up to the month's spending, and under the sign
      convention that is exactly the `totalExpenseAbs` KPI. */
  lemma PieMatchesKpi(filtered: seq<Tx>)
    ensures SumOf(CategoryTotals(filtered), Total) == SumOf(Expenses(filtered), AbsAmount)
    ensures (forall t :: t in filtered ==> SignConvention(t)) ==>
      SumOf(CategoryTotals(filtered), Total) == ComputeKpis(filtered).totalExpenseAbs
  {
    var es := Expenses(filtered);
    GroupSumTotal(es, CategoryKey, AbsAmount);
    if forall t :: t in filtered ==> SignConvention(t) {
      AbsOfNonPositive(es);
    }
  }

  lemma {:induction false} AbsOfNonPositive(s: seq<Tx>)
    requires forall t :: t in s ==> t.amount <= 0.0
    ensures SumOf(s, AbsAmount) == -Net(s)
  {
    if |s| > 0 {
      assert Last(s) in s;
      assert forall t :: t in Init(s) ==> t in s;
      AbsOfNonPositive(Init(s));
    }
  }

  /** `entries.sort((a, b) => b[1] - a[1]).slice(0, n)`, shared by the
      category and place rankings: at most `n` of the grouped entries, one per
      key, largest first, and no entry left out beats one kept. */
  function TopEntries(es: seq<Entry<string>>, n: nat): (r: seq<Entry<string>>)
    requires Distinct(KeysOf(es))
    ensures |r| <= n && (|es| <= n ==> |r| == |es|)
    ensures SortedDesc(r, Total)
    ensures forall e :: e in r ==> e in es
    ensures Distinct(KeysOf(r))
    ensures forall i, e :: 0 <= i < |r| && e in es && e !in r ==> e.total <= r[i].total
  {
    TopEntriesSpec(es, n);
    Take(SortDesc(es, Total), n)
  }

  lemma TopEntriesSpec(es: seq<Entry<string>>, n: nat)
    requires Distinct(KeysOf(es))
    ensures var r := Take(SortDesc(es, Total), n);
      && |r| <= n && (|es| <= n ==> |r| == |es|)
      && SortedDesc(r, Total)
      && (forall e :: e in r ==> e in es)
      && Distinct(KeysOf(r))
      && (forall i, e :: 0 <= i < |r| && e in es && e !in r ==> e.total <= r[i].total)
  {
    var r := Take(SortDesc(es, Total), n);
    TopNProperties(es, Total, n);
    TopKeysDistinct(es, n);
    forall i, e | 0 <= i < |r| && e in es && e !in r
      ensures e.total <= r[i].total
    {
      assert Total(e) <= Total(r[i]);
    }
  }

  lemma TopKeysDistinct(es: seq<Entry<string>>, n: nat)
    requires Distinct(KeysOf(es))
    ensures Distinct(KeysOf(Take(SortDesc(es, Total), n)))
  {
    var sorted := SortDesc(es, Total);
    TakeSub(sorted, n);
    SubKeysDistinct(es, Take(sorted, n));
  }

  /** Entries drawn without repetition from entries with distinct keys have distinct keys. */
  lemma SubKeysDistinct<K>(es: seq<Entry<K>>, r: seq<Entry<K>>)
    requires Distinct(KeysOf(es)) && multiset(r) <= multiset(es)
    ensures Distinct(KeysOf(r))
  {
    DistinctKeysDistinct(es);
    DistinctSub(r, es);
    forall i, j | 0 <= i < j < |r| ensures KeysOf(r)[i] != KeysOf(r)[j] {
      assert r[i] in multiset(r) && r[j] in multiset(r);
      assert r[i] in multiset(es) && r[j] in multiset(es);
      if r[i].key == r[j].key {
        UniqueKey(es, r[i], r[j]);
      }
    }
  }

  lemma DistinctKeysDistinct<K>(es: seq<Entry<K>>)
    requires Distinct(KeysOf(es))
    ensures Distinct(es)
  {
    forall i, j | 0 <= i < j < |es| ensures es[i] != es[j] {
      assert KeysOf(es)[i] != KeysOf(es)[j];
    }
  }

  lemma UniqueKey<K>(es: seq<Entry<K>>, a: Entry<K>, b: Entry<K>)
    requires Distinct(KeysOf(es)) && a in es && b in es && a.key == b.key
    ensures a == b
  {
    var i :| 0 <= i < |es| && es[i] == a;
    var j :| 0 <= j < |es| && es[j] == b;
    assert KeysOf(es)[i] == KeysOf(es)[j];
  }

  /** `topCategoriesData`: the six largest categories. */
  function TopCategories(filtered: seq<Tx>): (r: seq<Entry<string>>)
    ensures |r| <= 6 && SortedDesc(r, Total) && Distinct(KeysOf(r))
    ensures forall e :: e in r ==> e in CategoryTotals(filtered)
    ensures forall i, e :: 0 <= i < |r| && e in CategoryTotals(filtered) && e !in r ==>
      e.total <= r[i].total
    ensures r == [] <==> Expenses(filtered) == []
  {
    var ct := CategoryTotals(filtered);
    assert Distinct(KeysOf(ct));
    assert |ct| == 0 <==> Expenses(filtered) == [] by {
      DedupEmpty(Map(Expenses(filtered), CategoryKey));
    }
    TopEntries(ct, 6)
  }

  /** The ranking holds six categories, or all of them when there are fewer,
      each drawn from the grouped totals. */
  lemma TopCategoriesCount(filtered: seq<Tx>)
    ensures var r := TopCategories(filtered);
      var ct := CategoryTotals(filtered);
      |r| == (if |ct| < 6 then |ct| else 6) && multiset(r) <= multiset(ct)
  {
    TopNCount(CategoryTotals(filtered), Total, 6);
  }

  /** Categories with equal totals keep the order in which they were first
      seen: the ranking's sort is stable. */
  lemma TopCategoriesStable(filtered: seq<Tx>, v: real)
    ensures Filter(TopCategories(filtered), KeyIs(Total, v))
      <= Filter(CategoryTotals(filtered), KeyIs(Total, v))
  {
    TopNStable(CategoryTotals(filtered), Total, 6, v);
  }

  /** The first ranked category is the largest one: a category some expense
      carries, whose total is what it summed, and no category summed more. */
  lemma TopCategoryMaximal(filtered: seq<Tx>)
    requires Expenses(filtered) != []
    ensures var top := TopCategories(filtered)[0];
      var es := Expenses(filtered);
      top.key in Map(es, CategoryKey)
      && top.total == SumFor(es, CategoryKey, AbsAmount, top.key)
      && forall c :: SumFor(es, CategoryKey, AbsAmount, c) <= top.total
  {
    var es := Expenses(filtered);
    var ct := CategoryTotals(filtered);
    var r := TopCategories(filtered);
    var top := r[0];
    FirstIsMax(ct, r);
    var i :| 0 <= i < |ct| && ct[i] == top;
    assert KeysOf(ct)[i] == top.key;
    forall c ensures SumFor(es, CategoryKey, AbsAmount, c) <= top.total {
      if c in KeysOf(ct) {
        var j :| 0 <= j < |ct| && KeysOf(ct)[j] == c;
        assert ct[j] in ct;
      } else {
        SumForAbsent(es, CategoryKey, AbsAmount, c);
      }
    }
  }

  /** The head of a ranking that keeps the larger entries is the largest entry. */
  lemma FirstIsMax<K>(es: seq<Entry<K>>, r: seq<Entry<K>>)
    requires |r| > 0 && SortedDesc(r, Total)
    requires forall e :: e in r ==> e in es
    requires forall i, e :: 0 <= i < |r| && e in es && e !in r ==> e.total <= r[i].total
    ensures r[0] in es
    ensures forall e :: e in es ==> e.total <= r[0].total
  {
    forall e | e in es ensures e.total <= r[0].total {
      if e in r {
        var m :| 0 <= m < |r| && r[m] == e;
        if m > 0 {
          assert Total(r[0]) >= Total(r[m]);
        }
      }
    }
  }

  /** `topPlacesData`: the eight places with the largest spending. */
  function TopPlaces(filtered: seq<Tx>): (r: seq<Entry<string>>)
    ensures |r| <= 8 && SortedDesc(r, Total) && Distinct(KeysOf(r))
    ensures forall e :: e in r ==> e in PlaceTotals(filtered)
    ensures forall i, e :: 0 <= i < |r| && e in PlaceTotals(filtered) && e !in r ==>
      e.total <= r[i].total
    ensures r == [] <==> Expenses(filtered) == []
  {
    var pt := PlaceTotals(filtered);
    assert Distinct(KeysOf(pt));
    assert |pt| == 0 <==> Expenses(filtered) == [] by {
      DedupEmpty(Map(Expenses(filtered), PlaceKey));
    }
    TopEntries(pt, 8)
  }

  /** The ranking holds eight places, or all of them when there are fewer,
      each drawn from the grouped totals. */
  lemma TopPlacesCount(filtered: seq<Tx>)
    ensures var r := TopPlaces(filtered);
      var pt := PlaceTotals(filtered);
      |r| == (if |pt| < 8 then |pt| else 8) && multiset(r) <= multiset(pt)
  {
    TopNCount(PlaceTotals(filtered), Total, 8);
  }

  /** Places with equal totals keep the order in which they were first seen. */
  lemma TopPlacesStable(filtered: seq<Tx>, v: real)
    ensures Filter(TopPlaces(filtered), KeyIs(Total, v))
      <= Filter(PlaceTotals(filtered), KeyIs(Total, v))
  {
    TopNStable(PlaceTotals(filtered), Total, 8, v);
  }

  lemma DedupEmpty<T(!new)>(s: seq<T>)
    ensures Dedup(s) == [] <==> s == []
  {
    if s != [] {
      assert s[0] in s;
    }
  }

  // ---------------------------------------------------------------------
  // Weekday totals

  /** `new Date(t.date).getDay()` for a stored calendar day. */
  function DowOf(t: Tx): (w: int)
    ensures 0 <= w < 7
    ensures ValidDate(t.date) ==> w == (DayNumber(t.date) - DayNumber(KnownSunday)) % 7
  {
    if ValidDate(t.date) then DayOfWeek(t.date) else 0
  }

  /** Reference definition: what was spent on weekday `w`. */
  function WeekdayTotal(es: seq<Tx>, w: int): real {
    SumOf(es, (t: Tx) => if DowOf(t) == w then AbsAmount(t) else 0.0)
  }

  /** `sums[dow] += Math.abs(amount)` over the given rows. */
  function Buckets(es: seq<Tx>): (r: seq<real>)
    ensures |r| == 7
    ensures forall w :: 0 <= w < 7 ==> r[w] >= 0.0
  {
    if |es| == 0 then [0.0, 0.0, 0.0, 0.0, 0.0, 0.0, 0.0]
    else
      var b := Buckets(Init(es));
      var w := DowOf(Last(es));
      b[w := b[w] + AbsAmount(Last(es))]
  }

  lemma {:induction false} BucketsSpec(es: seq<Tx>, w: int)
    requires 0 <= w < 7
    ensures Buckets(es)[w] == WeekdayTotal(es, w)
  {
    if |es| > 0 {
      BucketsSpec(Init(es), w);
    }
  }

  lemma {:induction false} BucketsSum(es: seq<Tx>)
    ensures SumOf(Buckets(es), Id) == SumOf(es, AbsAmount)
  {
    if |es| == 0 {
      SumOfZeros(Buckets(es));
    } else {
      var b := Buckets(Init(es));
      BucketsSum(Init(es));
      SumOfUpdate(b, DowOf(Last(es)), AbsAmount(Last(es)));
    }
  }

  /** `weekdayData`: seven totals, Sunday first; each is that weekday's
      spending, and together they are all of the month's spending. */
  function WeekdaySums(filtered: seq<Tx>): (r: seq<real>)
    ensures |r| == 7
    ensures forall w :: 0 <= w < 7 ==> r[w] >= 0.0 && r[w] == WeekdayTotal(Expenses(filtered), w)
    ensures SumOf(r, Id) == SumOf(Expenses(filtered), AbsAmount)
  {
    var es := Expenses(filtered);
    assert forall w :: 0 <= w < 7 ==> Buckets(es)[w] == WeekdayTotal(es, w) by {
      forall w | 0 <= w < 7 ensures Buckets(es)[w] == WeekdayTotal(es, w) {
        BucketsSpec(es, w);
      }
    }
    BucketsSum(es);
    Buckets(es)
  }

  // ---------------------------------------------------------------------
  // Month highlights

  /** `key` is the `i`-th distinct day and every earlier day spent strictly less. */
  predicate FirstToReach(days: seq<Date>, es: seq<Tx>, i: int, total: real) {
    0 <= i < |days|
    && SumFor(es, DateOf, AbsAmount, days[i]) == total
    && forall j :: 0 <= j < i ==> SumFor(es, DateOf, AbsAmount, days[j]) < total
  }

  /** `priciestDay`: none without expenses; otherwise a day with expenses whose
      total is the largest of any day, and the first such day in order of
      appearance. */
  function PriciestDay(filtered: seq<Tx>): (r: Option<Entry<Date>>)
    ensures r.None? <==> Expenses(filtered) == []
    ensures r.Some? ==> exists t :: t in Expenses(filtered) && t.date == r.value.key
    ensures r.Some? ==> r.value.total == SumFor(Expenses(filtered), DateOf, AbsAmount, r.value.key)
    ensures r.Some? ==> forall d :: SumFor(Expenses(filtered), DateOf, AbsAmount, d) <= r.value.total
    ensures r.Some? ==>
      exists i :: FirstToReach(Dedup(Map(Expenses(filtered), DateOf)), Expenses(filtered), i, r.value.total)
        && Dedup(Map(Expenses(filtered), DateOf))[i] == r.value.key
  {
    var es := Expenses(filtered);
    if es == [] then None
    else
      DayGroupsNonEmpty(es);
      BestDayOccurs(es);
      BestDayIsMax(es);
      BestDayIsFirst(es);
      Some(FirstMax(GroupSum(es, DateOf, AbsAmount)))
  }

  lemma DayGroupsNonEmpty(es: seq<Tx>)
    requires es != []
    ensures |GroupSum(es, DateOf, AbsAmount)| > 0
  {
    GroupSumSpec(es, DateOf, AbsAmount);
    DedupEmpty(Map(es, DateOf));
  }

  /** The best day group is a day on which some expense fell, and carries that day's total. */
  lemma BestDayOccurs(es: seq<Tx>)
    requires es != []
    ensures |GroupSum(es, DateOf, AbsAmount)| > 0
    ensures var best := FirstMax(GroupSum(es, DateOf, AbsAmount));
      (exists t :: t in es && t.date == best.key)
      && best.total == SumFor(es, DateOf, AbsAmount, best.key)
  {
    DayGroupsNonEmpty(es);
    var g := GroupSum(es, DateOf, AbsAmount);
    GroupSumSpec(es, DateOf, AbsAmount);
    var best := FirstMax(g);
    var i :| 0 <= i < |g| && g[i] == best;
    assert KeysOf(g)[i] == best.key;
    assert best.key in Map(es, DateOf);
    var k :| 0 <= k < |es| && Map(es, DateOf)[k] == best.key;
    assert es[k] in es;
  }

  /** No day's total exceeds the best group's. */
  lemma BestDayIsMax(es: seq<Tx>)
    requires es != []
    ensures |GroupSum(es, DateOf, AbsAmount)| > 0
    ensures var best := FirstMax(GroupSum(es, DateOf, AbsAmount));
      forall d :: SumFor(es, DateOf, AbsAmount, d) <= best.total
  {
    DayGroupsNonEmpty(es);
    var g := GroupSum(es, DateOf, AbsAmount);
    GroupSumSpec(es, DateOf, AbsAmount);
    var best := FirstMax(g);
    var days := KeysOf(g);
    forall d ensures SumFor(es, DateOf, AbsAmount, d) <= best.total {
      SumForNonNeg(es, DateOf, AbsAmount, best.key);
      if d in days {
        var i :| 0 <= i < |days| && days[i] == d;
        assert g[i] in g;
      } else {
        SumForAbsent(es, DateOf, AbsAmount, d);
      }
    }
  }

  /** Every day listed before the best one has a strictly smaller total. */
  lemma BestDayIsFirst(es: seq<Tx>)
    requires es != []
    ensures |GroupSum(es, DateOf, AbsAmount)| > 0
    ensures var best := FirstMax(GroupSum(es, DateOf, AbsAmount));
      exists i :: FirstToReach(Dedup(Map(es, DateOf)), es, i, best.total)
        && Dedup(Map(es, DateOf))[i] == best.key
  {
    DayGroupsNonEmpty(es);
    var g := GroupSum(es, DateOf, AbsAmount);
    GroupSumSpec(es, DateOf, AbsAmount);
    var i := FirstMaxAt(g);
    ReachFromGroups(es, g, i);
  }

  /** A group that outweighs every group before it is the first day to reach its total. */
  lemma ReachFromGroups(es: seq<Tx>, g: seq<Entry<Date>>, i: int)
    requires KeysOf(g) == Dedup(Map(es, DateOf))
    requires forall j :: 0 <= j < |g| ==> g[j].total == SumFor(es, DateOf, AbsAmount, g[j].key)
    requires 0 <= i < |g| && forall j :: 0 <= j < i ==> g[j].total < g[i].total
    ensures FirstToReach(KeysOf(g), es, i, g[i].total) && KeysOf(g)[i] == g[i].key
  {
  }

  /** `topExpenses`: the three largest expenses by magnitude, largest first. */
  function TopExpenses(filtered: seq<Tx>): (r: seq<Tx>)
    ensures |r| <= 3 && (|Expenses(filtered)| <= 3 ==> |r| == |Expenses(filtered)|)
    ensures SortedDesc(r, AbsAmount)
    ensures forall t :: t in r ==> t in filtered && IsExpense(t)
    ensures forall i, t :: 0 <= i < |r| && t in Expenses(filtered) && t !in r ==>
      AbsAmount(t) <= AbsAmount(r[i])
  {
    TopNProperties(Expenses(filtered), AbsAmount, 3);
    Take(SortDesc(Expenses(filtered), AbsAmount), 3)
  }

  /** Three expenses, or all of them when there are fewer, none repeated
      more often than in the filtered list. */
  lemma TopExpensesCount(filtered: seq<Tx>)
    ensures var r := TopExpenses(filtered);
      var es := Expenses(filtered);
      |r| == (if |es| < 3 then |es| else 3) && multiset(r) <= multiset(es)
  {
    TopNCount(Expenses(filtered), AbsAmount, 3);
  }

  /** Expenses of equal magnitude keep their order in the filtered list. */
  lemma TopExpensesStable(filtered: seq<Tx>, v: real)
    ensures Filter(TopExpenses(filtered), KeyIs(AbsAmount, v))
      <= Filter(Expenses(filtered), KeyIs(AbsAmount, v))
  {
    TopNStable(Expenses(filtered), AbsAmount, 3, v);
  }

  // ---------------------------------------------------------------------
  // Year selector

  function YearOf(t: Tx): int {
    t.date.year
  }

  function YearKey(y: int): real {
    y as real
  }

  /** Some row of the history is dated in year `y`. */
  predicate HasYear(txs: seq<Tx>, y: int) {
    exists t :: t in txs && t.date.year == y
  }

  /** `years`: every year that occurs in the history, once, newest first. */
  function Years(txs: seq<Tx>): (r: seq<int>)
    ensures forall y :: y in r <==> HasYear(txs, y)
    ensures StrictlyDecreasing(r)
  {
    var ys := Dedup(Map(txs, YearOf));
    var r := SortDesc(ys, YearKey);
    YearsPresent(txs);
    SortMembers(ys, YearKey);
    StrictlyDescending(ys);
    r
  }

  predicate StrictlyDecreasing(s: seq<int>) {
    forall i, j :: 0 <= i < j < |s| ==> s[i] > s[j]
  }

  lemma StrictlyDescending(ys: seq<int>)
    requires Distinct(ys)
    ensures StrictlyDecreasing(SortDesc(ys, YearKey))
  {
    var r := SortDesc(ys, YearKey);
    DistinctSub(r, ys);
    forall i, j | 0 <= i < j < |r| ensures r[i] > r[j] {
      assert YearKey(r[i]) >= YearKey(r[j]);
      assert r[i] != r[j];
    }
  }

  lemma YearsPresent(txs: seq<Tx>)
    ensures forall y :: y in Dedup(Map(txs, YearOf)) <==> HasYear(txs, y)
  {
    forall y ensures y in Map(txs, YearOf) <==> HasYear(txs, y) {
      if y in Map(txs, YearOf) {
        var k :| 0 <= k < |txs| && Map(txs, YearOf)[k] == y;
        assert txs[k] in txs;
      }
      if HasYear(txs, y) {
        var t :| t in txs && t.date.year == y;
        var k :| 0 <= k < |txs| && txs[k] == t;
        assert Map(txs, YearOf)[k] == y;
      }
    }
  }
}

=== FILE: recurring.dfy ===
/** Recurring-expense detection (`recurringExpenses`): expenses of the
    trailing six months grouped by normalised description, groups seen at
    least three times, ranked by their total spend. */
module Recurring {
  import opened Calendar
  import opened Seqs
  import opened Ledger
  import Text

  const NoDescription: string := "Sem descrição"
  const MinCount: nat := 3
  const MaxItems: nat := 6

  /** `thresholdDate.setMonth(thresholdDate.getMonth() - 6)` on today's date. */
  function Threshold(now: Date): (d: Date)
    requires ValidDate(now)
    ensures ValidDate(d)
    ensures MonthIndex(MonthOf(d)) == MonthIndex(MonthOf(now)) - 6
      || MonthIndex(MonthOf(d)) == MonthIndex(MonthOf(now)) - 5
  {
    ShiftMonthsKeepingDay(now, -6)
  }

  /** A row that counts: an expense not dated before the threshold. */
  predicate Qualifies(t: Tx, threshold: Date) {
    IsExpense(t) && !DateLt(t.date, threshold)
  }

  /** `t.description || 'Sem descrição'`: the name shown for a group. */
  function DisplayName(t: Tx): (n: string)
    ensures n != ""
  {
    if t.description != "" then t.description else NoDescription
  }

  /** The grouping key: the display name trimmed and lower-cased. */
  function RecKey(t: Tx): string {
    Text.ToLower(Text.Trim(DisplayName(t)))
  }

  function Rows(txs: seq<Tx>, threshold: Date): (r: seq<Tx>)
    ensures forall t :: t in r <==> t in txs && Qualifies(t, threshold)
  {
    Filter(txs, (t: Tx) => Qualifies(t, threshold))
  }

  // ---------------------------------------------------------------------
  // Reference definitions over the qualifying rows

  /** How many rows fall in group `k`. */
  function CountFor(rows: seq<Tx>, k: string): nat {
    if |rows| == 0 then 0
    else CountFor(Init(rows), k) + (if RecKey(Last(rows)) == k then 1 else 0)
  }

  /** The display name of the first row in group `k`. */
  function FirstName(rows: seq<Tx>, k: string): string
    requires k in Map(rows, RecKey)
  {
    if k in Map(Init(rows), RecKey) then FirstName(Init(rows), k) else DisplayName(Last(rows))
  }

  // ---------------------------------------------------------------------
  // The grouping map (`Map<key, {name, total, count}>`)

  datatype Group = Group(key: string, name: string, total: real, count: nat)

  function GroupKey(g: Group): string {
    g.key
  }

  function GroupKeys(gs: seq<Group>): seq<string> {
    Map(gs, GroupKey)
  }

  /** The position of the group with key `k`, or -1. */
  function FindKey(gs: seq<Group>, k: string): (i: int)
    ensures -1 <= i < |gs|
    ensures i == -1 <==> k !in GroupKeys(gs)
    ensures i >= 0 ==> gs[i].key == k
  {
    if |gs| == 0 then -1
    else if Last(gs).key == k then |gs| - 1
    else
      var i := FindKey(Init(gs), k);
      assert GroupKeys(gs) == GroupKeys(Init(gs)) + [Last(gs).key];
      i
  }

  /** `existing.total += v; existing.count += 1`, creating the group with
      `name` the first time `k` is seen. */
  function AddRow(gs: seq<Group>, k: string, name: string, v: real): (r: seq<Group>)
    requires Distinct(GroupKeys(gs))
    ensures Distinct(GroupKeys(r))
    ensures GroupKeys(r) == if k in GroupKeys(gs) then GroupKeys(gs) else GroupKeys(gs) + [k]
    ensures forall i :: 0 <= i < |gs| ==> r[i].name == gs[i].name
    ensures |r| > |gs| ==> r[|gs|].name == name
    ensures forall i :: 0 <= i < |r| ==>
      r[i].total == (if i < |gs| then gs[i].total else 0.0) + (if r[i].key == k then v else 0.0)
    ensures forall i :: 0 <= i < |r| ==>
      r[i].count == (if i < |gs| then gs[i].count else 0) + (if r[i].key == k then 1 else 0)
  {
    var i := FindKey(gs, k);
    if i >= 0 then
      var r := gs[i := gs[i].(total := gs[i].total + v, count := gs[i].count + 1)];
      assert GroupKeys(r) == GroupKeys(gs);
      assert forall j :: 0 <= j < |gs| && j != i ==> gs[j].key != k by {
        assert forall j :: 0 <= j < |gs| ==> GroupKeys(gs)[j] == gs[j].key;
      }
      r
    else
      var r := gs + [Group(k, name, v, 1)];
      assert GroupKeys(r) == GroupKeys(gs) + [k];
      r
  }

  function GroupRows(rows: seq<Tx>): (r: seq<Group>)
    ensures Distinct(GroupKeys(r))
  {
    if |rows| == 0 then []
    else
      var t := Last(rows);
      AddRow(GroupRows(Init(rows)), RecKey(t), DisplayName(t), AbsAmount(t))
  }

  /** `g` is the group of key `k`: its count, total and name are those of the
      rows with that key. */
  predicate Summarises(rows: seq<Tx>, g: Group) {
    g.key in Map(rows, RecKey)
    && g.count == CountFor(rows, g.key)
    && g.total == SumFor(rows, RecKey, AbsAmount, g.key)
    && g.name == FirstName(rows, g.key)
  }

  lemma {:induction false} CountForAbsent(rows: seq<Tx>, k: string)
    requires k !in Map(rows, RecKey)
    ensures CountFor(rows, k) == 0
    ensures SumFor(rows, RecKey, AbsAmount, k) == 0.0
  {
    if |rows| > 0 {
      assert Map(rows, RecKey) == Map(Init(rows), RecKey) + [RecKey(Last(rows))];
      CountForAbsent(Init(rows), k);
    }
  }

  lemma MapSnoc(rows: seq<Tx>)
    requires |rows| > 0
    ensures Map(rows, RecKey) == Map(Init(rows), RecKey) + [RecKey(Last(rows))]
  {
  }

  /** One group per distinct key, in first-seen order. */
  lemma {:induction false} GroupRowsKeys(rows: seq<Tx>)
    ensures GroupKeys(GroupRows(rows)) == Dedup(Map(rows, RecKey))
  {
    if |rows| > 0 {
      GroupRowsKeys(Init(rows));
      MapSnoc(rows);
      assert Init(Map(rows, RecKey)) == Map(Init(rows), RecKey);
    }
  }

  /** Each group summarises the rows of its key. */
  lemma {:induction false} GroupRowsSpec(rows: seq<Tx>, i: int)
    requires 0 <= i < |GroupRows(rows)|
    ensures Summarises(rows, GroupRows(rows)[i])
  {
    var g0 := GroupRows(Init(rows));
    GroupRowsKeys(Init(rows));
    MapSnoc(rows);
    if i < |g0| {
      GroupRowsSpec(Init(rows), i);
      SummaryStepOld(rows, i);
    } else {
      SummaryStepNew(rows, i);
    }
  }

  lemma SummaryStepOld(rows: seq<Tx>, i: int)
    requires |rows| > 0 && 0 <= i < |GroupRows(Init(rows))|
    requires Summarises(Init(rows), GroupRows(Init(rows))[i])
    ensures Summarises(rows, GroupRows(rows)[i])
  {
    var t := Last(rows);
    var g0 := GroupRows(Init(rows));
    assert GroupRows(rows) == AddRow(g0, RecKey(t), DisplayName(t), AbsAmount(t));
    AddRowSummary(rows, g0, i);
    KeyStaysPresent(rows, g0[i].key);
  }

  /** Adding the last row keeps every earlier group a summary of its rows. */
  lemma {:induction false} AddRowSummary(rows: seq<Tx>, gs: seq<Group>, i: int)
    requires |rows| > 0 && Distinct(GroupKeys(gs))
    requires 0 <= i < |gs| && Summarises(Init(rows), gs[i])
    ensures var t := Last(rows); var g := AddRow(gs, RecKey(t), DisplayName(t), AbsAmount(t));
      && g[i].key == gs[i].key
      && g[i].count == CountFor(rows, gs[i].key)
      && g[i].total == SumFor(rows, RecKey, AbsAmount, gs[i].key)
      && g[i].name == FirstName(Init(rows), gs[i].key)
  {
    var t := Last(rows);
    var g := AddRow(gs, RecKey(t), DisplayName(t), AbsAmount(t));
    var key := gs[i].key;
    assert GroupKeys(g)[i] == GroupKeys(gs)[i];
    assert g[i].key == key;
    assert g[i].count == gs[i].count + (if key == RecKey(t) then 1 else 0);
    assert g[i].total == gs[i].total + (if key == RecKey(t) then AbsAmount(t) else 0.0);
    KeyStaysPresent(rows, key);
    CountStep(rows, key);
    TotalStep(rows, key);
  }

  lemma KeyStaysPresent(rows: seq<Tx>, key: string)
    requires |rows| > 0 && key in Map(Init(rows), RecKey)
    ensures key in Map(rows, RecKey)
    ensures FirstName(rows, key) == FirstName(Init(rows), key)
  {
    MapSnoc(rows);
  }

  lemma CountStep(rows: seq<Tx>, key: string)
    requires |rows| > 0
    ensures CountFor(rows, key) == CountFor(Init(rows), key) + (if key == RecKey(Last(rows)) then 1 else 0)
  {
  }

  lemma TotalStep(rows: seq<Tx>, key: string)
    requires |rows| > 0
    ensures SumFor(rows, RecKey, AbsAmount, key)
      == SumFor(Init(rows), RecKey, AbsAmount, key) + (if key == RecKey(Last(rows)) then AbsAmount(Last(rows)) else 0.0)
  {
  }

  lemma SummaryStepNew(rows: seq<Tx>, i: int)
    requires |rows| > 0 && |GroupRows(Init(rows))| <= i < |GroupRows(rows)|
    ensures Summarises(rows, GroupRows(rows)[i])
  {
    var t := Last(rows);
    var k := RecKey(t);
    var g0 := GroupRows(Init(rows));
    var g := GroupRows(rows);
    GroupRowsKeys(Init(rows));
    MapSnoc(rows);
    assert GroupKeys(g) == GroupKeys(g0) + [k];
    assert i == |g0| && GroupKeys(g)[i] == g[i].key;
    assert k !in Map(Init(rows), RecKey);
    CountForAbsent(Init(rows), k);
  }

  // ---------------------------------------------------------------------
  // Selection and ranking

  datatype Item = Item(name: string, avg: real, count: nat)

  /** The sort key `avg * count`: the group's total spend. */
  function Spend(x: Item): real {
    x.avg * x.count as real
  }

  /** `x.total / x.count`. */
  function Average(total: real, count: nat): real
    requires count > 0
  {
    total / count as real
  }

  function ToItem(g: Group): Item
    requires Frequent(g)
  {
    Item(g.name, Average(g.total, g.count), g.count)
  }

  predicate Frequent(g: Group) {
    g.count >= MinCount
  }

  function ToItems(gs: seq<Group>): (r: seq<Item>)
    requires forall i :: 0 <= i < |gs| ==> Frequent(gs[i])
    ensures |r| == |gs|
    ensures forall i :: 0 <= i < |gs| ==> r[i] == ToItem(gs[i])
  {
    if |gs| == 0 then [] else ToItems(Init(gs)) + [ToItem(Last(gs))]
  }

  /** `x` is the item of the key `k` group: seen `count >= 3` times, its
      average is the group total over its count, and it carries the group's
      first-seen name. */
  predicate ItemOf(rows: seq<Tx>, x: Item, k: string) {
    k in Map(rows, RecKey)
    && x.count == CountFor(rows, k) && x.count >= MinCount
    && x.avg == Average(SumFor(rows, RecKey, AbsAmount, k), x.count)
    && x.name == FirstName(rows, k)
  }

  /** `x` is the item of some frequent group. */
  ghost predicate Described(rows: seq<Tx>, x: Item) {
    exists k :: ItemOf(rows, x, k)
  }

  /** Some item of `items` is the one for key `k`. */
  ghost predicate Listed(rows: seq<Tx>, items: seq<Item>, k: string) {
    exists x :: x in items && ItemOf(rows, x, k)
  }

  lemma DivMul(a: real, t: real, c: real)
    requires c > 0.0 && a == t / c
    ensures a * c == t
  {
  }

  lemma ItemOfGroup(rows: seq<Tx>, g: Group)
    requires Summarises(rows, g) && Frequent(g)
    ensures ItemOf(rows, ToItem(g), g.key)
  {
  }

  /** The frequent groups as items, before ranking: every item describes a
      key seen at least three times and every such key has an item.
      `CandidatesOnePerKey` adds that there is one item per key, in
      first-seen order. */
  function Candidates(rows: seq<Tx>): (r: seq<Item>)
    ensures forall x :: x in r ==> Described(rows, x)
    ensures forall k :: k in Map(rows, RecKey) && CountFor(rows, k) >= MinCount ==> Listed(rows, r, k)
  {
    var gs := GroupRows(rows);
    GroupRowsKeys(rows);
    AllSummarised(rows);
    var kept := Filter(gs, Frequent);
    CandidatesSound(rows, gs, kept);
    CandidatesComplete(rows, gs, kept);
    ToItems(kept)
  }

  lemma AllSummarised(rows: seq<Tx>)
    ensures forall j :: 0 <= j < |GroupRows(rows)| ==> Summarises(rows, GroupRows(rows)[j])
  {
    forall j | 0 <= j < |GroupRows(rows)| ensures Summarises(rows, GroupRows(rows)[j]) {
      GroupRowsSpec(rows, j);
    }
  }

  lemma CandidatesSound(rows: seq<Tx>, gs: seq<Group>, kept: seq<Group>)
    requires forall j :: 0 <= j < |gs| ==> Summarises(rows, gs[j])
    requires forall i :: 0 <= i < |kept| ==> kept[i] in gs && Frequent(kept[i])
    ensures forall x :: x in ToItems(kept) ==> Described(rows, x)
  {
    var items := ToItems(kept);
    forall x | x in items ensures Described(rows, x) {
      var i :| 0 <= i < |items| && items[i] == x;
      var g := kept[i];
      assert g in kept;
      var j :| 0 <= j < |gs| && gs[j] == g;
      ItemOfGroup(rows, g);
    }
  }

  lemma {:induction false} CandidatesComplete(rows: seq<Tx>, gs: seq<Group>, kept: seq<Group>)
    requires forall j :: 0 <= j < |gs| ==> Summarises(rows, gs[j])
    requires GroupKeys(gs) == Dedup(Map(rows, RecKey))
    requires kept == Filter(gs, Frequent)
    ensures forall k :: k in Map(rows, RecKey) && CountFor(rows, k) >= MinCount ==>
      Listed(rows, ToItems(kept), k)
  {
    forall k | k in Map(rows, RecKey) && CountFor(rows, k) >= MinCount
      ensures Listed(rows, ToItems(kept), k)
    {
      KeyListed(rows, gs, kept, k);
    }
  }

  lemma KeyListed(rows: seq<Tx>, gs: seq<Group>, kept: seq<Group>, k: string)
    requires forall j :: 0 <= j < |gs| ==> Summarises(rows, gs[j])
    requires GroupKeys(gs) == Dedup(Map(rows, RecKey))
    requires kept == Filter(gs, Frequent)
    requires k in Map(rows, RecKey) && CountFor(rows, k) >= MinCount
    ensures Listed(rows, ToItems(kept), k)
  {
    assert k in GroupKeys(gs);
    var j :| 0 <= j < |gs| && GroupKeys(gs)[j] == k;
    FrequentGroupListed(rows, gs, kept, j);
  }

  lemma FrequentGroupListed(rows: seq<Tx>, gs: seq<Group>, kept: seq<Group>, j: int)
    requires 0 <= j < |gs| && Summarises(rows, gs[j]) && Frequent(gs[j])
    requires kept == Filter(gs, Frequent)
    ensures Listed(rows, ToItems(kept), gs[j].key)
  {
    var g := gs[j];
    assert g in gs;
    assert g in kept;
    var i :| 0 <= i < |kept| && kept[i] == g;
    ItemOfGroup(rows, g);
    assert ToItems(kept)[i] in ToItems(kept);
  }

  /** Reference: the keys seen at least three times, in first-seen order
      (the insertion order of the source's `Map`). */
  function FrequentKeys(rows: seq<Tx>): (ks: seq<string>)
    ensures Distinct(ks)
    ensures forall k :: k in ks <==> k in Map(rows, RecKey) && CountFor(rows, k) >= MinCount
  {
    var all := Dedup(Map(rows, RecKey));
    var ks := Filter(all, (k: string) => CountFor(rows, k) >= MinCount);
    DistinctSub(ks, all);
    ks
  }

  /** One item per frequent key: the `i`-th candidate is the item of the
      `i`-th frequent key, so no group is listed twice and none is missing. */
  lemma CandidatesOnePerKey(rows: seq<Tx>)
    ensures |Candidates(rows)| == |FrequentKeys(rows)|
    ensures forall i :: 0 <= i < |Candidates(rows)| ==>
      ItemOf(rows, Candidates(rows)[i], FrequentKeys(rows)[i])
  {
    var gs := GroupRows(rows);
    GroupRowsKeys(rows);
    AllSummarised(rows);
    var kept := Filter(gs, Frequent);
    assert Candidates(rows) == ToItems(kept);
    KeptKeysAreFrequent(rows, gs, kept);
    KeptItems(rows, gs, kept);
  }

  lemma KeptKeysAreFrequent(rows: seq<Tx>, gs: seq<Group>, kept: seq<Group>)
    requires forall j :: 0 <= j < |gs| ==> Summarises(rows, gs[j])
    requires GroupKeys(gs) == Dedup(Map(rows, RecKey))
    requires kept == Filter(gs, Frequent)
    ensures GroupKeys(kept) == FrequentKeys(rows)
  {
    var often := (k: string) => CountFor(rows, k) >= MinCount;
    MapFilter(gs, GroupKey, Frequent, often);
  }

  lemma KeptItems(rows: seq<Tx>, gs: seq<Group>, kept: seq<Group>)
    requires forall j :: 0 <= j < |gs| ==> Summarises(rows, gs[j])
    requires kept == Filter(gs, Frequent)
    ensures forall i :: 0 <= i < |kept| ==> ItemOf(rows, ToItems(kept)[i], GroupKeys(kept)[i])
  {
    forall i | 0 <= i < |kept| ensures ItemOf(rows, ToItems(kept)[i], GroupKeys(kept)[i]) {
      var g := kept[i];
      assert g in kept;
      var j :| 0 <= j < |gs| && gs[j] == g;
      ItemOfGroup(rows, g);
    }
  }

  /** `recurringExpenses`: nothing for an empty history; otherwise at most six
      frequent groups, largest total spend first, and no frequent group left
      out spends more than one kept. */
  function RecurringExpenses(txs: seq<Tx>, now: Date): (r: seq<Item>)
    requires ValidDate(now)
    ensures |txs| == 0 ==> r == []
    ensures |r| <= MaxItems
    ensures forall x :: x in r ==> x.count >= MinCount
    ensures forall x :: x in r ==> Described(Rows(txs, Threshold(now)), x)
    ensures SortedDesc(r, Spend)
    ensures forall i, x :: 0 <= i < |r| && x in Candidates(Rows(txs, Threshold(now))) && x !in r ==>
      Spend(x) <= Spend(r[i])
    ensures |Candidates(Rows(txs, Threshold(now)))| <= MaxItems ==>
      |r| == |Candidates(Rows(txs, Threshold(now)))|
  {
    if |txs| == 0 then []
    else
      var cs := Candidates(Rows(txs, Threshold(now)));
      TopNProperties(cs, Spend, MaxItems);
      Take(SortDesc(cs, Spend), MaxItems)
  }

  /** Six items, or every frequent group when there are fewer (there is one
      candidate per frequent key), none repeated more often than among the
      candidates. */
  lemma RecurringCount(txs: seq<Tx>, now: Date)
    requires ValidDate(now)
    ensures var r := RecurringExpenses(txs, now);
      var cs := Candidates(Rows(txs, Threshold(now)));
      multiset(r) <= multiset(cs)
      && |cs| == |FrequentKeys(Rows(txs, Threshold(now)))|
      && (|txs| > 0 ==> |r| == if |cs| < MaxItems then |cs| else MaxItems)
  {
    CandidatesOnePerKey(Rows(txs, Threshold(now)));
    if |txs| > 0 {
      TopNCount(Candidates(Rows(txs, Threshold(now))), Spend, MaxItems);
    }
  }

  /** Frequent groups with equal spend keep their order among the candidates. */
  lemma RecurringStable(txs: seq<Tx>, now: Date, v: real)
    requires ValidDate(now)
    ensures Filter(RecurringExpenses(txs, now), KeyIs(Spend, v))
      <= Filter(Candidates(Rows(txs, Threshold(now))), KeyIs(Spend, v))
  {
    if |txs| > 0 {
      TopNStable(Candidates(Rows(txs, Threshold(now))), Spend, MaxItems, v);
    }
  }

  /** The ranking by `avg * count` is the ranking by total spend: for an
      item of group `k` (see `ItemOf`), `Spend` is the group's total. */
  lemma SpendIsTotal(x: Item, total: real)
    requires x.count >= MinCount && x.avg == Average(total, x.count)
    ensures Spend(x) == total
  {
    DivMul(x.avg, total, x.count as real);
  }
}

=== FILE: seqs.dfy ===
/** Sequence building blocks shared by the dashboard aggregates: filtering,
    summing, the stable descending sort behind `Array.prototype.sort`,
    truncation (`slice(0, n)`), first-seen de-duplication (`new Set` /
    `new Map` insertion order) and grouping into keyed totals. Every fold here
    recurses on the LAST element, so it walks the input in the same order as
    the source's `forEach`. */
module Seqs {

  function Last<T>(s: seq<T>): T
    requires |s| > 0
  {
    s[|s| - 1]
  }

  function Init<T>(s: seq<T>): seq<T>
    requires |s| > 0
  {
    s[..|s| - 1]
  }

  lemma InitLast<T>(s: seq<T>)
    requires |s| > 0
    ensures s == Init(s) + [Last(s)]
  {
  }

  // ---------------------------------------------------------------------
  // Filter

  function Filter<T(!new)>(s: seq<T>, p: T -> bool): (r: seq<T>)
    ensures |r| <= |s|
    ensures forall x :: x in r <==> x in s && p(x)
    ensures forall i :: 0 <= i < |r| ==> p(r[i])
    ensures multiset(r) <= multiset(s)
  {
    if |s| == 0 then []
    else
      InitLast(s);
      Filter(Init(s), p) + (if p(Last(s)) then [Last(s)] else [])
  }

  lemma {:induction false} FilterNone<T(!new)>(s: seq<T>, p: T -> bool)
    requires forall x :: x in s ==> !p(x)
    ensures Filter(s, p) == []
  {
    if |s| > 0 {
      assert Last(s) in s;
      assert forall x :: x in Init(s) ==> x in s;
      FilterNone(Init(s), p);
    }
  }

  lemma FilterAppend<T(!new)>(a: seq<T>, b: seq<T>, p: T -> bool)
    ensures Filter(a + b, p) == Filter(a, p) + Filter(b, p)
    decreases |b|
  {
    if |b| > 0 {
      assert Init(a + b) == a + Init(b);
      assert Last(a + b) == Last(b);
      FilterAppend(a, Init(b), p);
      var t := if p(Last(b)) then [Last(b)] else [];
      Reassociate(Filter(a, p), Filter(Init(b), p), t);
    } else {
      assert a + b == a;
    }
  }

  /** Filtering from the front: the head is kept exactly when it qualifies. */
  lemma FilterCons<T(!new)>(x: T, s: seq<T>, p: T -> bool)
    ensures Filter([x] + s, p) == (if p(x) then [x] else []) + Filter(s, p)
  {
    FilterAppend([x], s, p);
    FilterSingle(x, p);
  }

  /** The same, for a sequence split at its head. */
  lemma {:induction false} FilterHead<T(!new)>(s: seq<T>, p: T -> bool)
    requires |s| > 0
    ensures Filter(s, p) == (if p(s[0]) then [s[0]] else []) + Filter(s[1..], p)
  {
    calc {
      Filter(s, p);
      { assert s == s[..1] + s[1..]; }
      Filter(s[..1] + s[1..], p);
      { FilterAppend(s[..1], s[1..], p); }
      Filter(s[..1], p) + Filter(s[1..], p);
      { assert s[..1] == [s[0]]; FilterSingle(s[0], p); }
      (if p(s[0]) then [s[0]] else []) + Filter(s[1..], p);
    }
  }

  lemma FilterSingle<T(!new)>(x: T, p: T -> bool)
    ensures Filter([x], p) == if p(x) then [x] else []
  {
    assert Init([x]) == [];
    assert Last([x]) == x;
    assert Filter([], p) == [];
  }

  lemma Reassociate<T>(x: seq<T>, y: seq<T>, z: seq<T>)
    ensures (x + y) + z == x + (y + z)
  {
  }

  // ---------------------------------------------------------------------
  // Sums

  function SumOf<T>(s: seq<T>, f: T -> real): real {
    if |s| == 0 then 0.0 else SumOf(Init(s), f) + f(Last(s))
  }

  lemma {:induction false} SumOfAppend<T>(a: seq<T>, b: seq<T>, f: T -> real)
    ensures SumOf(a + b, f) == SumOf(a, f) + SumOf(b, f)
    decreases |b|
  {
    if |b| > 0 {
      assert Init(a + b) == a + Init(b);
      assert Last(a + b) == Last(b);
      SumOfAppend(a, Init(b), f);
    } else {
      assert a + b == a;
    }
  }

  lemma {:induction false} SumOfNonNeg<T>(s: seq<T>, f: T -> real)
    requires forall x :: x in s ==> f(x) >= 0.0
    ensures SumOf(s, f) >= 0.0
  {
    if |s| > 0 {
      assert Last(s) in s;
      assert forall x :: x in Init(s) ==> x in s;
      SumOfNonNeg(Init(s), f);
    }
  }

  /** Splitting a sum by a predicate: the part where `p` holds plus the rest. */
  lemma {:induction false} SumOfSplit<T(!new)>(s: seq<T>, f: T -> real, p: T -> bool, q: T -> bool)
    requires forall x :: x in s ==> (p(x) <==> !q(x))
    ensures SumOf(s, f) == SumOf(Filter(s, p), f) + SumOf(Filter(s, q), f)
  {
    if |s| > 0 {
      var x, s0 := Last(s), Init(s);
      assert x in s;
      assert forall y :: y in s0 ==> y in s;
      SumOfSplit(s0, f, p, q);
      var fp := if p(x) then [x] else [];
      var fq := if q(x) then [x] else [];
      assert Filter(s, p) == Filter(s0, p) + fp;
      assert Filter(s, q) == Filter(s0, q) + fq;
      SumOfAppend(Filter(s0, p), fp, f);
      SumOfAppend(Filter(s0, q), fq, f);
      SumOfSingle(x, f);
      assert SumOf(s, f) == SumOf(s0, f) + f(x);
    }
  }

  /** A sum of non-negative terms is at least any one of them. */
  lemma {:induction false} SumOfAtLeastOne<T>(s: seq<T>, f: T -> real, i: int)
    requires 0 <= i < |s|
    requires forall x :: x in s ==> f(x) >= 0.0
    ensures SumOf(s, f) >= f(s[i])
  {
    assert forall y :: y in Init(s) ==> y in s;
    if i == |s| - 1 {
      SumOfNonNeg(Init(s), f);
    } else {
      assert Last(s) in s;
      assert Init(s)[i] == s[i];
      SumOfAtLeastOne(Init(s), f, i);
    }
  }

  /** ... and at least any two of them together. */
  lemma {:induction false} SumOfAtLeastTwo<T>(s: seq<T>, f: T -> real, i: int, j: int)
    requires 0 <= i < |s| && 0 <= j < |s| && i != j
    requires forall x :: x in s ==> f(x) >= 0.0
    ensures SumOf(s, f) >= f(s[i]) + f(s[j])
  {
    var n := |s| - 1;
    assert forall y :: y in Init(s) ==> y in s;
    if i == n {
      assert Init(s)[j] == s[j];
      SumOfAtLeastOne(Init(s), f, j);
    } else if j == n {
      assert Init(s)[i] == s[i];
      SumOfAtLeastOne(Init(s), f, i);
    } else {
      assert Last(s) in s;
      assert Init(s)[i] == s[i] && Init(s)[j] == s[j];
      SumOfAtLeastTwo(Init(s), f, i, j);
    }
  }

  /** Totals that are all non-negative, with a positive one under another
      key than `top`, add up to strictly more than `top` alone. */
  lemma SumExceedsEntry<K>(es: seq<Entry<K>>, top: Entry<K>, k: K)
    requires top in es && k in KeysOf(es) && k != top.key
    requires forall e :: e in es ==> e.total >= 0.0
    requires forall e :: e in es && e.key == k ==> e.total > 0.0
    ensures SumOf(es, Total) > top.total
  {
    var i :| 0 <= i < |es| && es[i] == top;
    var j :| 0 <= j < |es| && KeysOf(es)[j] == k;
    assert es[j] in es;
    SumOfAtLeastTwo(es, Total, i, j);
  }

  lemma SumOfSingle<T>(x: T, f: T -> real)
    ensures SumOf([x], f) == f(x)
  {
    assert Init([x]) == [];
  }

  /** Sums do not depend on the order of the rows. */
  lemma {:induction false} SumOfPermutation<T>(a: seq<T>, b: seq<T>, f: T -> real)
    requires multiset(a) == multiset(b)
    ensures SumOf(a, f) == SumOf(b, f)
    decreases |a|
  {
    if |a| == 0 {
      assert |b| == |multiset(b)| == 0;
    } else {
      var x := Last(a);
      assert x in multiset(a);
      var j :| 0 <= j < |b| && b[j] == x;
      var b' := b[..j] + b[j + 1..];
      assert b == b[..j] + [x] + b[j + 1..];
      InitLast(a);
      assert multiset(Init(a)) + multiset{x} == multiset(a);
      assert multiset(b) == multiset(b[..j]) + multiset{x} + multiset(b[j + 1..]);
      assert multiset(b') == multiset(b[..j]) + multiset(b[j + 1..]);
      assert multiset(Init(a)) == multiset(a) - multiset{x};
      assert multiset(b') == multiset(b) - multiset{x};
      SumOfPermutation(Init(a), b', f);
      SumOfAppend(b[..j], b[j + 1..], f);
      SumOfAppend(b[..j] + [x], b[j + 1..], f);
      SumOfAppend(b[..j], [x], f);
      SumOfSingle(x, f);
    }
  }

  /** Filtering keeps, for each row, either all of its copies or none. */
  lemma {:induction false} FilterCount<T(!new)>(s: seq<T>, p: T -> bool, x: T)
    ensures multiset(Filter(s, p))[x] == if p(x) then multiset(s)[x] else 0
  {
    if |s| > 0 {
      FilterCount(Init(s), p, x);
      InitLast(s);
      assert multiset(s) == multiset(Init(s)) + multiset{Last(s)};
    }
  }

  /** Two filters that agree on every row select the same rows. */
  lemma FilterSameRows<T(!new)>(a: seq<T>, b: seq<T>, p: T -> bool, q: T -> bool)
    requires multiset(a) == multiset(b)
    requires forall x :: x in a ==> (p(x) <==> q(x))
    ensures multiset(Filter(a, p)) == multiset(Filter(b, q))
  {
    forall x ensures multiset(Filter(a, p))[x] == multiset(Filter(b, q))[x] {
      FilterCount(a, p, x);
      FilterCount(b, q, x);
      if x !in a {
        assert multiset(a)[x] == 0;
      }
    }
  }

  // ---------------------------------------------------------------------
  // Stable descending sort

  ghost predicate SortedDesc<T>(s: seq<T>, key: T -> real) {
    forall i, j :: 0 <= i < j < |s| ==> key(s[i]) >= key(s[j])
  }

  /** Places `x` after every element of the sorted `r` whose key is at least
      `x`'s: the later of two equal keys stays later, as in a stable sort. */
  function InsertDesc<T>(r: seq<T>, x: T, key: T -> real): (r': seq<T>)
    ensures multiset(r') == multiset(r) + multiset{x}
    ensures |r'| == |r| + 1
  {
    if |r| == 0 || key(Last(r)) >= key(x) then
      r + [x]
    else
      InitLast(r);
      InsertDesc(Init(r), x, key) + [Last(r)]
  }

  lemma {:induction false} InsertDescSorted<T>(r: seq<T>, x: T, key: T -> real)
    requires SortedDesc(r, key)
    ensures SortedDesc(InsertDesc(r, x, key), key)
  {
    if |r| == 0 || key(Last(r)) >= key(x) {
    } else {
      var r0, last := Init(r), Last(r);
      InsertDescSorted(r0, x, key);
      var rest := InsertDesc(r0, x, key);
      forall y | y in rest ensures key(y) >= key(last) {
        assert y in multiset(rest);
        if y != x {
          assert y in multiset(r0);
          var i :| 0 <= i < |r0| && r0[i] == y;
          assert r[i] == y && r[|r| - 1] == last;
        }
      }
      var r' := rest + [last];
      assert InsertDesc(r, x, key) == r';
      forall i, j | 0 <= i < j < |r'| ensures key(r'[i]) >= key(r'[j]) {
        if j == |r'| - 1 {
          assert r'[i] in rest;
        } else {
          assert r'[i] == rest[i] && r'[j] == rest[j];
        }
      }
    }
  }

  /** `Array.prototype.sort` with a comparator `key(b) - key(a)`: stable,
      largest key first. */
  function SortDesc<T>(s: seq<T>, key: T -> real): (r: seq<T>)
    ensures multiset(r) == multiset(s)
    ensures |r| == |s|
    ensures SortedDesc(r, key)
  {
    if |s| == 0 then []
    else
      InitLast(s);
      var r0 := SortDesc(Init(s), key);
      InsertDescSorted(r0, Last(s), key);
      InsertDesc(r0, Last(s), key)
  }

  /** Holds of the elements whose key is `v`. */
  function KeyIs<T>(key: T -> real, v: real): T -> bool {
    x => key(x) == v
  }

  /** Inserting `x` puts it after every element already there with the same
      key: the elements of each key keep their order. */
  lemma {:induction false} InsertDescStable<T(!new)>(r: seq<T>, x: T, key: T -> real, v: real)
    ensures Filter(InsertDesc(r, x, key), KeyIs(key, v))
      == Filter(r, KeyIs(key, v)) + (if key(x) == v then [x] else [])
  {
    var p := KeyIs(key, v);
    FilterSingle(x, p);
    if |r| == 0 || key(Last(r)) >= key(x) {
      FilterAppend(r, [x], p);
    } else {
      var r0, l := Init(r), Last(r);
      var tx := if key(x) == v then [x] else [];
      var tl := if key(l) == v then [l] else [];
      calc {
        Filter(InsertDesc(r, x, key), p);
        Filter(InsertDesc(r0, x, key) + [l], p);
        { FilterAppend(InsertDesc(r0, x, key), [l], p); FilterSingle(l, p); }
        Filter(InsertDesc(r0, x, key), p) + tl;
        { InsertDescStable(r0, x, key, v); }
        Filter(r0, p) + tx + tl;
        { SwapDisjoint(Filter(r0, p), tx, tl); }
        Filter(r0, p) + tl + tx;
        { InitLast(r); FilterAppend(r0, [l], p); }
        Filter(r, p) + tx;
      }
    }
  }

  /** At most one of two singletons is there, so their order does not matter. */
  lemma SwapDisjoint<T>(a: seq<T>, b: seq<T>, c: seq<T>)
    requires b == [] || c == []
    ensures a + b + c == a + c + b
  {
  }

  /** The sort is stable: for every key, the elements carrying it come out in
      the order they went in. */
  lemma {:induction false} SortDescStable<T(!new)>(s: seq<T>, key: T -> real, v: real)
    ensures Filter(SortDesc(s, key), KeyIs(key, v)) == Filter(s, KeyIs(key, v))
  {
    if |s| > 0 {
      InitLast(s);
      SortDescStable(Init(s), key, v);
      InsertDescStable(SortDesc(Init(s), key), Last(s), key, v);
    }
  }

  /** Of the elements with any one key, the first `n` of the sort keep a
      prefix of them, in their original order. */
  lemma {:induction false} TopNStable<T(!new)>(s: seq<T>, key: T -> real, n: nat, v: real)
    ensures Filter(Take(SortDesc(s, key), n), KeyIs(key, v)) <= Filter(s, KeyIs(key, v))
  {
    var sorted := SortDesc(s, key);
    var r := Take(sorted, n);
    assert sorted == r + sorted[|r|..];
    FilterAppend(r, sorted[|r|..], KeyIs(key, v));
    SortDescStable(s, key, v);
  }

  /** The first `n` of the sort are `n` elements of `s`, or all of them when
      there are fewer, none repeated more often than in `s`. */
  lemma TopNCount<T>(s: seq<T>, key: T -> real, n: nat)
    ensures var r := Take(SortDesc(s, key), n);
      |r| == (if |s| < n then |s| else n) && multiset(r) <= multiset(s)
  {
    TakeSub(SortDesc(s, key), n);
  }

  /** `Take` keeps elements of `s` only, each at most as often. */
  lemma TakeSub<T>(s: seq<T>, n: nat)
    ensures multiset(Take(s, n)) <= multiset(s)
  {
    assert s == Take(s, n) + s[|Take(s, n)|..];
  }

  lemma SortMembers<T>(s: seq<T>, key: T -> real)
    ensures forall x :: x in SortDesc(s, key) <==> x in s
  {
    var r := SortDesc(s, key);
    forall x ensures x in r <==> x in s {
      assert x in r <==> x in multiset(r);
      assert x in s <==> x in multiset(s);
    }
  }

  /** `slice(0, n)`. */
  function Take<T>(s: seq<T>, n: nat): (r: seq<T>)
    ensures |r| == if |s| < n then |s| else n
    ensures r == s[..|r|]
  {
    if |s| < n then s else s[..n]
  }

  /** The first `n` of a stable descending sort: at most `n` elements, still
      in descending order, all drawn from `s`, and nothing left behind beats
      anything kept. */
  lemma {:induction false} TopNProperties<T>(s: seq<T>, key: T -> real, n: nat)
    ensures var r := Take(SortDesc(s, key), n);
      && |r| <= n
      && (|s| <= n ==> |r| == |s|)
      && SortedDesc(r, key)
      && (forall x :: x in r ==> x in s)
      && (forall i, x :: 0 <= i < |r| && x in s && x !in r ==> key(x) <= key(r[i]))
  {
    var sorted := SortDesc(s, key);
    var r := Take(sorted, n);
    forall x | x in r ensures x in s {
      assert x in multiset(sorted);
    }
    forall i, x | 0 <= i < |r| && x in s && x !in r ensures key(x) <= key(r[i]) {
      assert x in multiset(sorted);
      var j :| 0 <= j < |sorted| && sorted[j] == x;
      assert forall k :: 0 <= k < |r| ==> r[k] == sorted[k];
      assert j >= |r|;
    }
  }

  // ---------------------------------------------------------------------
  // First-seen de-duplication

  /** The distinct elements of `s` in order of first appearance. */
  function Dedup<T(==,!new)>(s: seq<T>): (r: seq<T>)
    ensures forall x :: x in r <==> x in s
    ensures Distinct(r)
  {
    if |s| == 0 then []
    else
      InitLast(s);
      var r0 := Dedup(Init(s));
      if Last(s) in r0 then r0 else r0 + [Last(s)]
  }

  function Map<T, U>(s: seq<T>, f: T -> U): (r: seq<U>)
    ensures |r| == |s|
    ensures forall i :: 0 <= i < |s| ==> r[i] == f(s[i])
  {
    seq(|s|, i requires 0 <= i < |s| => f(s[i]))
  }

  lemma MapSnocOf<T, U>(s: seq<T>, f: T -> U)
    requires |s| > 0
    ensures Map(s, f) == Map(Init(s), f) + [f(Last(s))]
  {
  }

  /** Filtering then mapping is mapping then filtering, when the two tests
      agree on every element. */
  lemma {:induction false} MapFilter<T(!new), U(!new)>(s: seq<T>, f: T -> U, p: T -> bool, q: U -> bool)
    requires forall i :: 0 <= i < |s| ==> (p(s[i]) <==> q(f(s[i])))
    ensures Map(Filter(s, p), f) == Filter(Map(s, f), q)
  {
    if |s| > 0 {
      var x := Last(s);
      MapFilter(Init(s), f, p, q);
      MapSnocOf(s, f);
      assert Init(Map(s, f)) == Map(Init(s), f);
      assert Last(Map(s, f)) == f(x);
      if p(x) {
        MapSnocOf(Filter(s, p), f);
        assert Init(Filter(s, p)) == Filter(Init(s), p);
      } else {
        assert Filter(s, p) == Filter(Init(s), p);
      }
    }
  }

  // ---------------------------------------------------------------------
  // Grouping into keyed totals (`Map<key, number>` with `set(k, get(k) + v)`)

  datatype Entry<K> = Entry(key: K, total: real)

  function Total<K>(e: Entry<K>): real {
    e.total
  }

  predicate Distinct<T(==)>(s: seq<T>) {
    forall i, j :: 0 <= i < j < |s| ==> s[i] != s[j]
  }

  function KeysOf<K>(es: seq<Entry<K>>): seq<K> {
    Map(es, (e: Entry<K>) => e.key)
  }

  /** The sum of `val` over the elements of `s` whose key is `k`. */
  function SumFor<T, K(==)>(s: seq<T>, key: T -> K, val: T -> real, k: K): real {
    if |s| == 0 then 0.0
    else SumFor(Init(s), key, val, k) + (if key(Last(s)) == k then val(Last(s)) else 0.0)
  }

  /** Adds `v` to the entry for `k`, appending a new entry if `k` is not yet there. */
  function AddTo<K(==)>(es: seq<Entry<K>>, k: K, v: real): (r: seq<Entry<K>>)
    requires Distinct(KeysOf(es))
    ensures Distinct(KeysOf(r))
    ensures KeysOf(r) == if k in KeysOf(es) then KeysOf(es) else KeysOf(es) + [k]
    ensures forall i :: 0 <= i < |r| ==>
      r[i].total == (if i < |es| then es[i].total else 0.0) + (if r[i].key == k then v else 0.0)
  {
    if |es| == 0 then [Entry(k, v)]
    else
      var e := Last(es);
      assert KeysOf(es) == KeysOf(Init(es)) + [e.key];
      if e.key == k then
        var r := Init(es) + [Entry(k, e.total + v)];
        assert KeysOf(r) == KeysOf(es);
        r
      else
        assert k in KeysOf(es) <==> k in KeysOf(Init(es));
        if k in KeysOf(Init(es)) then
          var r0 := AddTo(Init(es), k, v);
          assert KeysOf(r0 + [e]) == KeysOf(r0) + [e.key];
          r0 + [e]
        else
          var r := Init(es) + [e, Entry(k, v)];
          assert KeysOf(r) == KeysOf(es) + [k];
          r
  }

  /** Groups `s` by `key`, summing `val`; entries appear in first-seen key order. */
  function GroupSum<T, K(==)>(s: seq<T>, key: T -> K, val: T -> real): (r: seq<Entry<K>>)
    ensures Distinct(KeysOf(r))
  {
    if |s| == 0 then []
    else AddTo(GroupSum(Init(s), key, val), key(Last(s)), val(Last(s)))
  }

  /** The grouped entries are the distinct keys in first-seen order, and each
      carries the sum of its own group. */
  lemma {:induction false} GroupSumSpec<T, K(!new)>(s: seq<T>, key: T -> K, val: T -> real)
    ensures KeysOf(GroupSum(s, key, val)) == Dedup(Map(s, key))
    ensures forall i :: 0 <= i < |GroupSum(s, key, val)| ==>
      GroupSum(s, key, val)[i].total == SumFor(s, key, val, GroupSum(s, key, val)[i].key)
  {
    if |s| > 0 {
      GroupSumSpec(Init(s), key, val);
      GroupSumKeysStep(s, key, val);
      GroupSumTotalsStep(s, key, val);
    }
  }

  lemma GroupSumKeysStep<T, K(!new)>(s: seq<T>, key: T -> K, val: T -> real)
    requires |s| > 0
    requires KeysOf(GroupSum(Init(s), key, val)) == Dedup(Map(Init(s), key))
    ensures KeysOf(GroupSum(s, key, val)) == Dedup(Map(s, key))
  {
    var m := Map(s, key);
    var m0 := Map(Init(s), key);
    var k := key(Last(s));
    assert Init(m) == m0 by {
      forall i | 0 <= i < |m0| ensures Init(m)[i] == m0[i] {
        assert Init(s)[i] == s[i];
      }
    }
    assert Last(m) == k;
    assert Dedup(m) == if k in Dedup(m0) then Dedup(m0) else Dedup(m0) + [k];
  }

  lemma GroupSumTotalsStep<T, K(!new)>(s: seq<T>, key: T -> K, val: T -> real)
    requires |s| > 0
    requires KeysOf(GroupSum(Init(s), key, val)) == Dedup(Map(Init(s), key))
    requires forall i :: 0 <= i < |GroupSum(Init(s), key, val)| ==>
      GroupSum(Init(s), key, val)[i].total == SumFor(Init(s), key, val, GroupSum(Init(s), key, val)[i].key)
    ensures forall i :: 0 <= i < |GroupSum(s, key, val)| ==>
      GroupSum(s, key, val)[i].total == SumFor(s, key, val, GroupSum(s, key, val)[i].key)
  {
    var g0 := GroupSum(Init(s), key, val);
    var g := GroupSum(s, key, val);
    forall i | 0 <= i < |g| ensures g[i].total == SumFor(s, key, val, g[i].key) {
      if i < |g0| {
        OldEntryTotal(s, key, val, i);
      } else {
        NewEntryTotal(s, key, val, i);
      }
    }
  }

  /** An entry already present before the last element absorbs it only if the keys match. */
  lemma OldEntryTotal<T, K(!new)>(s: seq<T>, key: T -> K, val: T -> real, i: int)
    requires |s| > 0 && 0 <= i < |GroupSum(Init(s), key, val)|
    requires GroupSum(Init(s), key, val)[i].total == SumFor(Init(s), key, val, GroupSum(Init(s), key, val)[i].key)
    ensures i < |GroupSum(s, key, val)|
    ensures GroupSum(s, key, val)[i].total == SumFor(s, key, val, GroupSum(s, key, val)[i].key)
  {
    var g0 := GroupSum(Init(s), key, val);
    var g := GroupSum(s, key, val);
    assert KeysOf(g)[i] == KeysOf(g0)[i];
  }

  /** A new entry holds exactly the last element's value. */
  lemma NewEntryTotal<T, K(!new)>(s: seq<T>, key: T -> K, val: T -> real, i: int)
    requires |s| > 0 && |GroupSum(Init(s), key, val)| <= i < |GroupSum(s, key, val)|
    requires KeysOf(GroupSum(Init(s), key, val)) == Dedup(Map(Init(s), key))
    ensures GroupSum(s, key, val)[i].total == SumFor(s, key, val, GroupSum(s, key, val)[i].key)
  {
    var g0 := GroupSum(Init(s), key, val);
    var g := GroupSum(s, key, val);
    var k := key(Last(s));
    assert KeysOf(g) == KeysOf(g0) + [k];
    assert g[i].key == k;
    assert k !in KeysOf(g0);
    SumForAbsent(Init(s), key, val, k);
  }



  lemma {:induction false} SumForAbsent<T, K(!new)>(s: seq<T>, key: T -> K, val: T -> real, k: K)
    requires k !in Dedup(Map(s, key))
    ensures SumFor(s, key, val, k) == 0.0
  {
    if |s| > 0 {
      assert Map(s, key) == Map(Init(s), key) + [key(Last(s))];
      assert Map(s, key)[|s| - 1] == key(Last(s));
      assert key(Last(s)) in Map(s, key);
      assert forall y :: y in Map(Init(s), key) ==> y in Map(s, key);
      SumForAbsent(Init(s), key, val, k);
    }
  }

  lemma SumForNonEmpty<T, K>(s: seq<T>, key: T -> K, val: T -> real, k: K)
    requires SumFor(s, key, val, k) != 0.0
    ensures s != []
  {
  }

  lemma {:induction false} SumForNonNeg<T, K>(s: seq<T>, key: T -> K, val: T -> real, k: K)
    requires forall x :: x in s ==> val(x) >= 0.0
    ensures SumFor(s, key, val, k) >= 0.0
  {
    if |s| > 0 {
      assert Last(s) in s;
      assert forall y :: y in Init(s) ==> y in s;
      SumForNonNeg(Init(s), key, val, k);
    }
  }

  /** Adding `v` to one entry raises the sum of all totals by exactly `v`. */
  lemma {:induction false} AddToSum<K>(es: seq<Entry<K>>, k: K, v: real)
    requires Distinct(KeysOf(es))
    ensures SumOf(AddTo(es, k, v), Total) == SumOf(es, Total) + v
  {
    if |es| == 0 {
      SumOfSingle(Entry(k, v), Total);
    } else {
      var e := Last(es);
      if e.key == k {
        assert Init(Init(es) + [Entry(k, e.total + v)]) == Init(es);
      } else {
        assert KeysOf(es) == KeysOf(Init(es)) + [e.key];
        assert Distinct(KeysOf(Init(es))) by {
          assert forall i :: 0 <= i < |Init(es)| ==> KeysOf(Init(es))[i] == KeysOf(es)[i];
        }
        if k in KeysOf(Init(es)) {
          var r0 := AddTo(Init(es), k, v);
          AddToSum(Init(es), k, v);
          assert Init(r0 + [e]) == r0;
        } else {
          var r := Init(es) + [e, Entry(k, v)];
          assert Init(r) == es;
        }
      }
    }
  }

  /** Grouping neither loses nor invents any amount: the totals add up to the
      sum over the input. */
  lemma {:induction false} GroupSumTotal<T, K>(s: seq<T>, key: T -> K, val: T -> real)
    ensures SumOf(GroupSum(s, key, val), Total) == SumOf(s, val)
  {
    if |s| > 0 {
      GroupSumTotal(Init(s), key, val);
      AddToSum(GroupSum(Init(s), key, val), key(Last(s)), val(Last(s)));
    }
  }

  /** A distinct sequence holds every value at most once. */
  lemma {:induction false} DistinctCount<T>(s: seq<T>, x: T)
    requires Distinct(s)
    ensures multiset(s)[x] <= 1
  {
    if |s| > 0 {
      InitLast(s);
      assert Distinct(Init(s)) by {
        assert forall i :: 0 <= i < |Init(s)| ==> Init(s)[i] == s[i];
      }
      DistinctCount(Init(s), x);
      if Last(s) == x {
        assert forall i :: 0 <= i < |Init(s)| ==> Init(s)[i] != x by {
          assert forall i :: 0 <= i < |Init(s)| ==> Init(s)[i] == s[i] && s[i] != s[|s| - 1];
        }
        assert x !in Init(s);
      }
    }
  }

  /** Whatever is drawn from a distinct sequence, without repetition of
      elements, is distinct itself. */
  lemma DistinctSub<T>(a: seq<T>, b: seq<T>)
    requires multiset(a) <= multiset(b) && Distinct(b)
    ensures Distinct(a)
  {
    forall i, j | 0 <= i < j < |a| ensures a[i] != a[j] {
      if a[i] == a[j] {
        var x := a[i];
        assert a == a[..j] + [a[j]] + a[j + 1..];
        assert x in a[..j];
        assert multiset(a)[x] >= 2;
        DistinctCount(b, x);
        assert false;
      }
    }
  }

  /** The keyed sum over a sequence of reals: `Id` sums the values themselves. */
  function Id(x: real): real {
    x
  }

  /** Adding `v` at one position raises the sum by `v`. */
  lemma {:induction false} SumOfUpdate(s: seq<real>, i: int, v: real)
    requires 0 <= i < |s|
    ensures SumOf(s[i := s[i] + v], Id) == SumOf(s, Id) + v
  {
    var s' := s[i := s[i] + v];
    if i == |s| - 1 {
      assert Init(s') == Init(s);
    } else {
      assert Init(s') == Init(s)[i := s[i] + v];
      SumOfUpdate(Init(s), i, v);
    }
  }

  lemma {:induction false} SumOfZeros(s: seq<real>)
    requires forall k :: 0 <= k < |s| ==> s[k] == 0.0
    ensures SumOf(s, Id) == 0.0
  {
    if |s| > 0 {
      SumOfZeros(Init(s));
    }
  }

  // ---------------------------------------------------------------------
  // First maximum (`if (!best || v > best.v) best = ...`)

  /** The first entry whose total is maximal: later ties do not replace it. */
  function FirstMax<K>(es: seq<Entry<K>>): (r: Entry<K>)
    requires |es| > 0
    ensures r in es
    ensures forall e :: e in es ==> e.total <= r.total
    ensures exists i :: 0 <= i < |es| && es[i] == r && forall j :: 0 <= j < i ==> es[j].total < r.total
  {
    if |es| == 1 then
      assert es[0] == es[|es| - 1];
      es[0]
    else
      InitLast(es);
      var best := FirstMax(Init(es));
      if Last(es).total > best.total then
        assert es[|es| - 1] == Last(es);
        Last(es)
      else
        best
  }

  /** The position of `FirstMax`: no entry before it reaches its total. */
  lemma FirstMaxAt<K>(es: seq<Entry<K>>) returns (i: int)
    requires |es| > 0
    ensures 0 <= i < |es| && es[i] == FirstMax(es)
    ensures forall j :: 0 <= j < i ==> es[j].total < es[i].total
  {
    i :| 0 <= i < |es| && es[i] == FirstMax(es) && forall j :: 0 <= j < i ==> es[j].total < FirstMax(es).total;
  }

}

=== FILE: series.dfy ===
/** The two time series of the dashboard: the daily running balance of the
    selected month (`saldoLineData`) and the six-month income/expense bars
    (`monthlyBarData`). Both read the full history, not `filtered`. */
module Series {
  import opened Calendar
  import opened Seqs
  import opened Ledger
  import opened Period

  // ---------------------------------------------------------------------
  // Daily running balance

  /** `saldoAnterior`: the net of every row dated before the month starts. */
  function BalanceBefore(txs: seq<Tx>, ym: YearMonth): real
    requires ValidMonth(ym)
  {
    Net(Filter(txs, (t: Tx) => DateLt(t.date, FirstDay(ym))))
  }

  /** Reference definition: the net of the month's rows dated on day `k` or earlier. */
  function NetThrough(txs: seq<Tx>, ym: YearMonth, k: int): real
    requires ValidMonth(ym)
  {
    if |txs| == 0 then 0.0
    else
      var t := Last(txs);
      NetThrough(Init(txs), ym, k) + (if InPeriod(t, ym) && t.date.day <= k then t.amount else 0.0)
  }

  /** `dailyNet`: the month's rows summed per date, in `forEach` order. */
  function DailyNet(txs: seq<Tx>, ym: YearMonth): map<Date, real>
    requires ValidMonth(ym)
  {
    if |txs| == 0 then map[]
    else
      var m := DailyNet(Init(txs), ym);
      var t := Last(txs);
      if InPeriod(t, ym) then m[t.date := Lookup(m, t.date) + t.amount] else m
  }

  /** `map.get(key) || 0`. */
  function Lookup<K>(m: map<K, real>, k: K): real {
    if k in m then m[k] else 0.0
  }

  /** The map entry for day `k` is exactly what day `k` adds to the running net. */
  lemma {:induction false} DailyNetLookup(txs: seq<Tx>, ym: YearMonth, k: int)
    requires ValidMonth(ym) && WellDated(txs)
    ensures Lookup(DailyNet(txs, ym), Date(ym.year, ym.month, k))
      == NetThrough(txs, ym, k) - NetThrough(txs, ym, k - 1)
  {
    if |txs| > 0 {
      var t := Last(txs);
      assert t in txs;
      assert WellDated(Init(txs)) by {
        assert forall x :: x in Init(txs) ==> x in txs;
      }
      DailyNetLookup(Init(txs), ym, k);
      if InPeriod(t, ym) {
        InPeriodIff(t, ym);
      }
    }
  }

  lemma {:induction false} NetThroughZero(txs: seq<Tx>, ym: YearMonth)
    requires ValidMonth(ym) && WellDated(txs)
    ensures NetThrough(txs, ym, 0) == 0.0
  {
    if |txs| > 0 {
      assert Last(txs) in txs;
      assert forall x :: x in Init(txs) ==> x in txs;
      NetThroughZero(Init(txs), ym);
    }
  }

  /** By the month's last day every row of the month has been counted. */
  lemma {:induction false} NetThroughMonthEnd(txs: seq<Tx>, ym: YearMonth)
    requires ValidMonth(ym) && WellDated(txs)
    ensures NetThrough(txs, ym, DaysInMonth(ym.year, ym.month)) == Net(PeriodTxs(txs, ym))
  {
    if |txs| > 0 {
      var t := Last(txs);
      assert t in txs;
      assert forall x :: x in Init(txs) ==> x in txs;
      NetThroughMonthEnd(Init(txs), ym);
      PeriodNetSnoc(txs, ym);
      if InPeriod(t, ym) {
        DayWithinMonth(t, ym);
      }
    }
  }

  /** The month's net grows by the last row exactly when that row is in the month. */
  lemma PeriodNetSnoc(txs: seq<Tx>, ym: YearMonth)
    requires ValidMonth(ym) && |txs| > 0
    ensures Net(PeriodTxs(txs, ym))
      == Net(PeriodTxs(Init(txs), ym)) + (if InPeriod(Last(txs), ym) then Last(txs).amount else 0.0)
  {
    var t := Last(txs);
    var s := PeriodTxs(Init(txs), ym);
    assert PeriodTxs(txs, ym) == s + (if InPeriod(t, ym) then [t] else []);
    if InPeriod(t, ym) {
      NetSnoc(s, t);
    } else {
      assert s + [] == s;
    }
  }

  lemma NetSnoc(s: seq<Tx>, t: Tx)
    ensures Net(s + [t]) == Net(s) + t.amount
  {
    assert Init(s + [t]) == s;
  }

  /** A well-dated row of the month falls on one of its days. */
  lemma DayWithinMonth(t: Tx, ym: YearMonth)
    requires ValidMonth(ym) && ValidDate(t.date) && InPeriod(t, ym)
    ensures t.date.day <= DaysInMonth(ym.year, ym.month)
  {
    InPeriodIff(t, ym);
  }

  /** Reference series: the first `n` points, point `k` being the opening
      balance plus the month's net through day `k`. */
  function Points(txs: seq<Tx>, ym: YearMonth, before: real, n: nat): (r: seq<real>)
    requires ValidMonth(ym)
    ensures |r| == n
  {
    if n == 0 then [] else Points(txs, ym, before, n - 1) + [before + NetThrough(txs, ym, n)]
  }

  lemma {:induction false} PointsAt(txs: seq<Tx>, ym: YearMonth, before: real, n: nat)
    requires ValidMonth(ym)
    ensures forall k :: 1 <= k <= n ==> Points(txs, ym, before, n)[k - 1] == before + NetThrough(txs, ym, k)
  {
    if n > 0 {
      PointsAt(txs, ym, before, n - 1);
      var p := Points(txs, ym, before, n - 1);
      forall k | 1 <= k <= n
        ensures Points(txs, ym, before, n)[k - 1] == before + NetThrough(txs, ym, k)
      {
        if k < n {
          assert Points(txs, ym, before, n)[k - 1] == p[k - 1];
        }
      }
    }
  }

  /** `saldoLineData`: no points for an empty history; otherwise one point
      per day of the month, the point for day `k` being the balance before
      the month plus the month's net through day `k`. */
  method DailyBalance(txs: seq<Tx>, ym: YearMonth) returns (values: seq<real>)
    requires ValidMonth(ym) && WellDated(txs)
    ensures |txs| == 0 ==> values == []
    ensures |txs| > 0 ==> |values| == DaysInMonth(ym.year, ym.month)
    ensures forall k :: 1 <= k <= |values| ==>
      values[k - 1] == BalanceBefore(txs, ym) + NetThrough(txs, ym, k)
    ensures |txs| > 0 ==>
      values[|values| - 1] == BalanceBefore(txs, ym) + Net(PeriodTxs(txs, ym))
  {
    if |txs| == 0 {
      return [];
    }
    var before := BalanceBefore(txs, ym);
    var lastDay := DaysInMonth(ym.year, ym.month);
    values := RunningBalance(txs, ym, before, lastDay);
    PointsAt(txs, ym, before, lastDay);
    NetThroughMonthEnd(txs, ym);
  }

  /** The loop of `saldoLineData`: starting from `before`, add each day's
      entry of `dailyNet` and record the running value. */
  method RunningBalance(txs: seq<Tx>, ym: YearMonth, before: real, lastDay: nat) returns (values: seq<real>)
    requires ValidMonth(ym) && WellDated(txs)
    ensures values == Points(txs, ym, before, lastDay)
  {
    var daily := DailyNet(txs, ym);
    var running := before;
    values := [];
    NetThroughZero(txs, ym);
    var d := 1;
    while d <= lastDay
      invariant 1 <= d <= lastDay + 1
      invariant running == before + NetThrough(txs, ym, d - 1)
      invariant values == Points(txs, ym, before, d - 1)
    {
      DailyNetLookup(txs, ym, d);
      running := running + Lookup(daily, Date(ym.year, ym.month, d));
      values := values + [running];
      d := d + 1;
    }
  }

  /** The series reconciles with the KPIs: the month-end point minus the
      opening balance is the month's income plus expense (blank search, all types). */
  lemma SeriesReconcilesWithKpis(txs: seq<Tx>, ym: YearMonth)
    requires ValidMonth(ym) && WellDated(txs)
    ensures var k := ComputeKpis(Filtered(txs, ym, "", All));
      NetThrough(txs, ym, DaysInMonth(ym.year, ym.month)) == k.income + k.expense
  {
    NetThroughMonthEnd(txs, ym);
    UnfilteredIsPeriod(txs, ym, "");
    KpisOrderIndependent(Filtered(txs, ym, "", All), PeriodTxs(txs, ym));
  }

  // ---------------------------------------------------------------------
  // Six-month bars

  datatype Bucket = Bucket(income: real, expense: real)

  datatype Bar = Bar(month: YearMonth, income: real, expense: real)

  function MonthOfTx(t: Tx): YearMonth {
    MonthOf(t.date)
  }

  /** `agg`: per calendar month, the income sum and the (signed) sum of every
      non-income row, over the whole history. */
  function MonthAgg(txs: seq<Tx>): map<YearMonth, Bucket> {
    if |txs| == 0 then map[]
    else
      var agg := MonthAgg(Init(txs));
      var t := Last(txs);
      var key := MonthOfTx(t);
      var cur := if key in agg then agg[key] else Bucket(0.0, 0.0);
      agg[key := if t.kind == Income then cur.(income := cur.income + t.amount)
                 else cur.(expense := cur.expense + t.amount)]
  }

  function GetBucket(agg: map<YearMonth, Bucket>, m: YearMonth): Bucket {
    if m in agg then agg[m] else Bucket(0.0, 0.0)
  }

  /** Reference definitions: the sum of a month's income rows and of its
      non-income rows, read straight off the history. */
  function MonthIncome(txs: seq<Tx>, m: YearMonth): real {
    SumOf(txs, (t: Tx) => if IsIncome(t) && MonthOfTx(t) == m then t.amount else 0.0)
  }

  function MonthExpense(txs: seq<Tx>, m: YearMonth): real {
    SumOf(txs, (t: Tx) => if !IsIncome(t) && MonthOfTx(t) == m then t.amount else 0.0)
  }

  /** Every bucket of `agg` holds exactly its month's sums. */
  lemma {:induction false} MonthAggLookup(txs: seq<Tx>, m: YearMonth)
    ensures GetBucket(MonthAgg(txs), m) == Bucket(MonthIncome(txs, m), MonthExpense(txs, m))
  {
    if |txs| > 0 {
      var t := Last(txs);
      var agg0 := MonthAgg(Init(txs));
      var b0 := GetBucket(agg0, m);
      MonthAggLookup(Init(txs), m);
      if MonthOfTx(t) == m {
        var b := if t.kind == Income then b0.(income := b0.income + t.amount)
                 else b0.(expense := b0.expense + t.amount);
        assert MonthAgg(txs) == agg0[m := b];
      } else {
        assert GetBucket(MonthAgg(txs), m) == b0;
      }
    }
  }

  function MakeBar(agg: map<YearMonth, Bucket>, ym: YearMonth, i: int): Bar {
    var m := AddMonths(ym, i - 5);
    var b := GetBucket(agg, m);
    Bar(m, b.income, Abs(b.expense))
  }

  /** `monthlyBarData`: nothing for an empty history; otherwise exactly six
      consecutive months ending at the selected one, each with that month's
      income and the magnitude of its expenses. */
  function MonthlyBars(txs: seq<Tx>, ym: YearMonth): (bars: seq<Bar>)
    requires ValidMonth(ym)
    ensures |txs| == 0 <==> bars == []
    ensures |txs| > 0 ==> |bars| == 6
    ensures forall i :: 0 <= i < |bars| ==>
      ValidMonth(bars[i].month) && MonthIndex(bars[i].month) == MonthIndex(ym) - 5 + i
    ensures forall i :: 0 <= i < |bars| ==>
      bars[i].income == MonthIncome(txs, bars[i].month)
      && bars[i].expense == Abs(MonthExpense(txs, bars[i].month))
      && bars[i].expense >= 0.0
  {
    if |txs| == 0 then []
    else
      var agg := MonthAgg(txs);
      var bars := seq(6, i requires 0 <= i < 6 => MakeBar(agg, ym, i));
      assert forall i :: 0 <= i < 6 ==> bars[i] == MakeBar(agg, ym, i);
      assert forall i :: 0 <= i < 6 ==>
        bars[i].income == MonthIncome(txs, bars[i].month)
        && bars[i].expense == Abs(MonthExpense(txs, bars[i].month)) by {
        forall i | 0 <= i < 6
          ensures bars[i].income == MonthIncome(txs, bars[i].month)
          ensures bars[i].expense == Abs(MonthExpense(txs, bars[i].month))
        {
          MonthAggLookup(txs, AddMonths(ym, i - 5));
        }
      }
      bars
  }

  /** The last bar is the selected month itself. */
  lemma LastBarIsSelected(txs: seq<Tx>, ym: YearMonth)
    requires ValidMonth(ym) && |txs| > 0
    ensures MonthlyBars(txs, ym)[5].month == ym
  {
    MonthIndexInjective(MonthlyBars(txs, ym)[5].month, ym);
  }

  /** A month without rows shows zero income and zero expense. */
  lemma {:induction false} EmptyMonthIsZero(txs: seq<Tx>, m: YearMonth)
    requires forall t :: t in txs ==> MonthOf(t.date) != m
    ensures MonthIncome(txs, m) == 0.0 && MonthExpense(txs, m) == 0.0
  {
    if |txs| > 0 {
      assert Last(txs) in txs;
      assert forall t :: t in Init(txs) ==> t in txs;
      EmptyMonthIsZero(Init(txs), m);
    }
  }
}

=== FILE: sheets.dfy ===
/** The row and range arithmetic around the spreadsheet calls: the quoted
    tab name, the search for a row by its first cell, the one-row delete
    range, the row number read from an append's `updatedRange`, and the
    cached sheet id. A tab is an in-memory grid of cell texts; the API
    calls themselves are outside the model. */
module Sheets {
  import opened Wrappers
  import opened Text
  import opened Numerals

  // ---------------------------------------------------------------------
  // Tab names in A1 notation

  /** `name.replace(/'/g, "''")`. */
  function DoubleQuotes(name: string): (r: string)
    ensures |r| >= |name|
  {
    if |name| == 0 then ""
    else (if name[0] == '\'' then "''" else [name[0]]) + DoubleQuotes(name[1..])
  }

  /** The range naming a whole tab: the name with every `'` doubled,
      between single quotes. */
  function QuoteTab(name: string): string {
    "'" + DoubleQuotes(name) + "'"
  }

  /** The range `findRowByFirstCell` reads: column A of the tab. */
  function ColumnA(name: string): string {
    QuoteTab(name) + "!A:A"
  }

  /** Undoes `DoubleQuotes`; `None` when a `'` stands alone. */
  function Undouble(s: string): Option<string> {
    if |s| == 0 then Some("")
    else if s[0] == '\'' then
      if |s| >= 2 && s[1] == '\'' then
        match Undouble(s[2..])
        case Some(r) => Some("'" + r)
        case None => None
      else None
    else
      match Undouble(s[1..])
      case Some(r) => Some([s[0]] + r)
      case None => None
  }

  /** Reads a quoted tab name back. */
  function Unquote(q: string): Option<string> {
    if |q| >= 2 && q[0] == '\'' && q[|q| - 1] == '\'' then Undouble(q[1..|q| - 1]) else None
  }

  lemma {:induction false} UndoubleDoubleQuotes(name: string)
    ensures Undouble(DoubleQuotes(name)) == Some(name)
  {
    if |name| > 0 {
      UndoubleDoubleQuotes(name[1..]);
      var d := DoubleQuotes(name[1..]);
      if name[0] == '\'' {
        assert ("''" + d)[2..] == d;
        assert "'" + name[1..] == name;
      } else {
        assert ([name[0]] + d)[1..] == d;
        assert [name[0]] + name[1..] == name;
      }
    }
  }

  lemma {:induction false} DoubleQuotesUndouble(s: string, name: string)
    requires Undouble(s) == Some(name)
    ensures DoubleQuotes(name) == s
    decreases |s|, 1
  {
    if |s| > 0 {
      if s[0] == '\'' {
        DoubleQuotesUndoubleQuote(s, name);
      } else {
        DoubleQuotesUndoubleOther(s, name);
      }
    }
  }

  /** A doubled `'` at the front reads back as one `'`, which doubles again. */
  lemma {:induction false} DoubleQuotesUndoubleQuote(s: string, name: string)
    requires |s| > 0 && s[0] == '\'' && Undouble(s) == Some(name)
    ensures DoubleQuotes(name) == s
    decreases |s|, 0
  {
    assert |s| >= 2 && s[1] == '\'';
    var r := Undouble(s[2..]).value;
    assert name == "'" + r;
    DoubleQuotesUndouble(s[2..], r);
    assert name[0] == '\'' && name[1..] == r;
    calc {
      DoubleQuotes(name);
      "''" + DoubleQuotes(name[1..]);
      "''" + s[2..];
      { assert s == "''" + s[2..]; }
      s;
    }
  }

  /** Any other first character is read back and quoted as itself. */
  lemma {:induction false} DoubleQuotesUndoubleOther(s: string, name: string)
    requires |s| > 0 && s[0] != '\'' && Undouble(s) == Some(name)
    ensures DoubleQuotes(name) == s
    decreases |s|, 0
  {
    var r := Undouble(s[1..]).value;
    assert name == [s[0]] + r;
    DoubleQuotesUndouble(s[1..], r);
    assert name[0] == s[0] && name[1..] == r;
    calc {
      DoubleQuotes(name);
      [s[0]] + DoubleQuotes(name[1..]);
      [s[0]] + s[1..];
      { assert s == [s[0]] + s[1..]; }
      s;
    }
  }

  /** Quoting is undone by reading back, and a quoted range names exactly
      one tab: `Unquote` and `QuoteTab` are inverse to each other. */
  lemma QuoteRoundTrip(name: string, q: string)
    ensures Unquote(QuoteTab(name)) == Some(name)
    ensures Unquote(q) == Some(name) ==> QuoteTab(name) == q
  {
    QuoteTabShape(name);
    UndoubleDoubleQuotes(name);
    if Unquote(q) == Some(name) {
      DoubleQuotesUndouble(q[1..|q| - 1], name);
      QuotedShape(q);
    }
  }

  lemma QuoteTabShape(name: string)
    ensures var t := QuoteTab(name);
      |t| >= 2 && t[0] == '\'' && t[|t| - 1] == '\'' && t[1..|t| - 1] == DoubleQuotes(name)
  {
  }

  lemma QuotedShape(q: string)
    requires |q| >= 2 && q[0] == '\'' && q[|q| - 1] == '\''
    ensures q == "'" + q[1..|q| - 1] + "'"
  {
  }

  lemma {:induction false} DoubleQuotesPlain(s: string)
    requires '\'' !in s
    ensures DoubleQuotes(s) == s
  {
    if |s| > 0 {
      assert s[0] in s;
      DoubleQuotesPlain(s[1..]);
      assert s == [s[0]] + s[1..];
    }
  }

  /** Quoting adds no `!` of its own. */
  lemma {:induction false} DoubleQuotesKeepsBang(s: string)
    ensures '!' in DoubleQuotes(s) <==> '!' in s
  {
    if |s| > 0 {
      DoubleQuotesKeepsBang(s[1..]);
      assert s == [s[0]] + s[1..];
    }
  }

  // ---------------------------------------------------------------------
  // Finding and deleting a row

  type Grid = seq<seq<string>>

  /** `(rows[i]?.[0] ?? '').toString()`: a row without cells reads as "". */
  function FirstCell(row: seq<string>): string {
    if |row| == 0 then "" else row[0]
  }

  /** Reference definition: the 1-based number of the first row whose
      first cell is `key`. */
  function FirstRow(rows: Grid, key: string): (r: Option<nat>)
    ensures r.Some? ==> 1 <= r.value <= |rows|
  {
    if |rows| == 0 then None
    else if FirstCell(rows[0]) == key then Some(1)
    else
      match FirstRow(rows[1..], key)
      case Some(n) => Some(n + 1)
      case None => None
  }

  predicate NoMatchBelow(rows: Grid, key: string, n: int) {
    forall i :: 0 <= i < n && i < |rows| ==> FirstCell(rows[i]) != key
  }

  /** `FirstRow` finds the smallest matching row, and finds nothing only
      when no row matches. */
  lemma {:induction false} FirstRowSpec(rows: Grid, key: string)
    ensures FirstRow(rows, key).Some? ==>
      FirstCell(rows[FirstRow(rows, key).value - 1]) == key
      && NoMatchBelow(rows, key, FirstRow(rows, key).value - 1)
    ensures FirstRow(rows, key).None? <==> NoMatchBelow(rows, key, |rows|)
  {
    if |rows| > 0 {
      FirstRowSpec(rows[1..], key);
      if FirstCell(rows[0]) != key {
        assert forall i :: 1 <= i < |rows| ==> rows[i] == rows[1..][i - 1];
      }
    }
  }

  /** `findRowByFirstCell`: a linear scan returning a 1-based row number. */
  method FindRowByFirstCell(rows: Grid, key: string) returns (r: Option<nat>)
    ensures r.Some? ==> 1 <= r.value <= |rows| && FirstCell(rows[r.value - 1]) == key
    ensures r.Some? ==> NoMatchBelow(rows, key, r.value - 1)
    ensures r.None? <==> NoMatchBelow(rows, key, |rows|)
  {
    var i := 0;
    while i < |rows|
      invariant 0 <= i <= |rows|
      invariant NoMatchBelow(rows, key, i)
    {
      if FirstCell(rows[i]) == key {
        return Some(i + 1);
      }
      i := i + 1;
    }
    return None;
  }

  /** The scan and the reference definition agree on every grid. */
  lemma FindAgreesWithFirstRow(rows: Grid, key: string, r: Option<nat>)
    requires r.Some? ==> 1 <= r.value <= |rows| && FirstCell(rows[r.value - 1]) == key
    requires r.Some? ==> NoMatchBelow(rows, key, r.value - 1)
    requires r.None? <==> NoMatchBelow(rows, key, |rows|)
    ensures r == FirstRow(rows, key)
  {
    FirstRowSpec(rows, key);
  }

  /** The `deleteDimension` range: 0-based start, exclusive end. */
  datatype RowRange = RowRange(startIndex: int, endIndex: int)

  /** `deleteRowByNumber`'s range for a 1-based row number. */
  function DeleteRange(rowNumber: int): RowRange {
    RowRange(rowNumber - 1, rowNumber)
  }

  /** What `deleteDimension` does to the tab's rows. */
  function ApplyDelete(rows: Grid, g: RowRange): Grid
    requires 0 <= g.startIndex <= g.endIndex <= |rows|
  {
    rows[..g.startIndex] + rows[g.endIndex..]
  }

  /** Deleting row `n` removes exactly that row: the rows above keep their
      place and the rows below move up by one. */
  lemma DeleteRangeIsOneRow(rows: Grid, n: int)
    requires 1 <= n <= |rows|
    ensures var after := ApplyDelete(rows, DeleteRange(n));
      && |after| == |rows| - 1
      && (forall i :: 0 <= i < n - 1 ==> after[i] == rows[i])
      && (forall i :: n - 1 <= i < |after| ==> after[i] == rows[i + 1])
      && multiset(after) + multiset{rows[n - 1]} == multiset(rows)
  {
    assert rows == rows[..n - 1] + [rows[n - 1]] + rows[n..];
  }

  /** The sheet id lookup failed: no tab with that title, or no id. */
  datatype LookupError = TabNotFound(tab: string)

  /** `deleteRowByFirstCell`: `Ok(false)` and nothing deleted when no row
      matches; otherwise the first matching row is deleted, which needs the
      sheet id (an error there is thrown to the caller). */
  function DeleteRowByFirstCell(rows: Grid, key: string, sheetId: Result<int, LookupError>)
    : (r: Result<(bool, Grid), LookupError>)
    ensures NoMatchBelow(rows, key, |rows|) ==> r == Ok((false, rows))
    ensures !NoMatchBelow(rows, key, |rows|) && sheetId.Err? ==> r == Err(sheetId.error)
  {
    FirstRowSpec(rows, key);
    match FirstRow(rows, key)
    case None => Ok((false, rows))
    case Some(n) =>
      if n == 0 then Ok((false, rows))
      else
        match sheetId
        case Err(e) => Err(e)
        case Ok(_) => Ok((true, ApplyDelete(rows, DeleteRange(n))))
  }

  function CountKey(rows: Grid, key: string): nat {
    if |rows| == 0 then 0
    else (if FirstCell(rows[0]) == key then 1 else 0) + CountKey(rows[1..], key)
  }

  lemma {:induction false} CountKeyAppend(a: Grid, b: Grid, key: string)
    ensures CountKey(a + b, key) == CountKey(a, key) + CountKey(b, key)
  {
    if |a| == 0 {
      assert a + b == b;
    } else {
      assert (a + b)[1..] == a[1..] + b;
      CountKeyAppend(a[1..], b, key);
    }
  }

  lemma {:induction false} CountKeyNone(rows: Grid, key: string)
    requires NoMatchBelow(rows, key, |rows|)
    ensures CountKey(rows, key) == 0
  {
    if |rows| > 0 {
      assert NoMatchBelow(rows[1..], key, |rows| - 1) by {
        assert forall i :: 0 <= i < |rows| - 1 ==> rows[1..][i] == rows[i + 1];
      }
      CountKeyNone(rows[1..], key);
    }
  }

  /** A successful delete removes exactly the first row carrying the key:
      the other rows keep their order, and one occurrence of the key is gone. */
  lemma DeleteRemovesFirstMatch(rows: Grid, key: string, id: int)
    requires !NoMatchBelow(rows, key, |rows|)
    ensures FirstRow(rows, key).Some?
    ensures var r := DeleteRowByFirstCell(rows, key, Ok(id));
      var n := FirstRow(rows, key).value;
      && r.Ok? && r.value.0
      && FirstCell(rows[n - 1]) == key && NoMatchBelow(rows, key, n - 1)
      && r.value.1 == rows[..n - 1] + rows[n..]
      && CountKey(r.value.1, key) == CountKey(rows, key) - 1
  {
    FirstRowSpec(rows, key);
    var n := FirstRow(rows, key).value;
    assert rows == rows[..n - 1] + ([rows[n - 1]] + rows[n..]);
    CountKeyAppend(rows[..n - 1], [rows[n - 1]] + rows[n..], key);
    CountKeyAppend([rows[n - 1]], rows[n..], key);
    CountKeyAppend(rows[..n - 1], rows[n..], key);
    assert CountKey([rows[n - 1]], key) == 1 by {
      assert [rows[n - 1]][1..] == [];
    }
  }

  /** As written, deleting a matching row from a tab whose id is 0 fails with
      "tab not found" and deletes nothing; with the corrected lookup the row
      is deleted. */
  lemma DeleteOnZeroIdTab(rows: Grid, key: string, tab: string)
    requires !NoMatchBelow(rows, key, |rows|)
    ensures DeleteRowByFirstCell(rows, key, GetSheetId(None, [TabProps(Some(0), Some(tab))], tab).0)
      == Err(TabNotFound(tab))
    ensures var r := DeleteRowByFirstCell(rows, key, GetSheetIdCorrected(None, [TabProps(Some(0), Some(tab))], tab).0);
      r.Ok? && r.value.0
  {
    ZeroIdNeverCached(tab);
    DeleteRemovesFirstMatch(rows, key, 0);
  }

  /** A row appended under a fresh key is the one a delete by that key
      removes, so append-then-delete leaves the tab as it was. */
  lemma DeleteUndoesAppend(rows: Grid, row: seq<string>, id: int)
    requires NoMatchBelow(rows, FirstCell(row), |rows|)
    ensures DeleteRowByFirstCell(rows + [row], FirstCell(row), Ok(id)) == Ok((true, rows))
  {
    var all := rows + [row];
    var key := FirstCell(row);
    FirstRowSpec(all, key);
    assert !NoMatchBelow(all, key, |all|) by {
      assert FirstCell(all[|rows|]) == key;
    }
    var n := FirstRow(all, key).value;
    assert n == |all| by {
      assert forall i :: 0 <= i < |rows| ==> all[i] == rows[i];
    }
    assert FirstRow(all, key) == Some(|all|);
    assert all[..n - 1] == rows;
    assert all[n..] == [];
    assert ApplyDelete(all, DeleteRange(n)) == rows;
  }

  // ---------------------------------------------------------------------
  // The row number of an append

  /** The A1 range the API reports for one appended row `n` of a tab
      (columns A to H). */
  function AppendedRange(tab: string, n: nat): string {
    QuoteTab(tab) + "!" + CellSpan(n)
  }

  function CellSpan(n: nat): string {
    "A" + Dec(n) + ":H" + Dec(n)
  }

  /** `Number(x?.match(/\d+/)?.[0] || 0)`: the first digit run's value, or 0. */
  function DigitRunValue(x: string): nat {
    var run := FirstDigitRun(x);
    if run == "" then 0 else ValueOf(run)
  }

  /** `appendToSheet`'s `rowNumber` as written: the digits of the segment
      between the first and the second `!` of `updatedRange`. */
  function RowNumberAsWritten(updatedRange: string): nat {
    var parts := Split(updatedRange, '!');
    if |parts| < 2 then 0 else DigitRunValue(parts[1])
  }

  /** The row number taken from the cell part, after the last `!`. A quoted
      tab name may itself contain `!`, the cell part never does. */
  function RowNumber(updatedRange: string): nat {
    var parts := Split(updatedRange, '!');
    if |parts| < 2 then 0 else DigitRunValue(parts[|parts| - 1])
  }

  lemma CellSpanFacts(n: nat)
    ensures '!' !in CellSpan(n)
    ensures DigitRunValue(CellSpan(n)) == n
  {
    var d := Dec(n);
    NoBangInDigits(d);
    CellSpanTail(n);
    FirstDigitRunPrefix(d, ":H" + d);
    SkipLetter(CellSpan(n));
    ValueOfDec(n);
  }

  lemma NoBangInDigits(d: string)
    requires AllDigits(d)
    ensures '!' !in d
  {
    assert forall k :: 0 <= k < |d| ==> d[k] != '!';
  }

  lemma CellSpanTail(n: nat)
    ensures CellSpan(n)[0] == 'A'
    ensures CellSpan(n)[1..] == Dec(n) + (":H" + Dec(n))
  {
  }

  lemma SkipLetter(s: string)
    requires |s| > 0 && !IsDigit(s[0])
    ensures FirstDigitRun(s) == FirstDigitRun(s[1..])
  {
  }

  /** The segment after the last separator is the last part. */
  lemma {:induction false} SplitLast(x: string, sep: char, y: string)
    requires sep !in y
    ensures |Split(x + [sep] + y, sep)| >= 2
    ensures Split(x + [sep] + y, sep)[|Split(x + [sep] + y, sep)| - 1] == y
    decreases |x|
  {
    var i := IndexOf(x, sep);
    if i < 0 {
      SplitAfterFirst(x, sep, y);
      SplitNone(y, sep);
    } else {
      var rest := x[i + 1..];
      SplitLast(rest, sep, y);
      Regroup(x, i, sep, y);
      SplitAfterFirst(x[..i], sep, rest + [sep] + y);
      LastOfCons(x[..i], Split(rest + [sep] + y, sep));
    }
  }

  lemma Regroup(x: string, i: int, sep: char, y: string)
    requires 0 <= i < |x| && x[i] == sep
    ensures x + [sep] + y == x[..i] + [sep] + (x[i + 1..] + [sep] + y)
  {
    assert x == x[..i] + [sep] + x[i + 1..];
  }

  lemma LastOfCons(a: string, l: seq<string>)
    requires |l| >= 1
    ensures ([a] + l)[|[a] + l| - 1] == l[|l| - 1]
  {
  }

  /** For any tab, the corrected reading gives back the appended row. */
  lemma RowNumberOfAppend(tab: string, n: nat)
    ensures RowNumber(AppendedRange(tab, n)) == n
  {
    CellSpanFacts(n);
    SplitLast(QuoteTab(tab), '!', CellSpan(n));
  }

  /** As written, the row number is right as long as the tab name has no `!`. */
  lemma RowNumberAsWrittenWithoutBang(tab: string, n: nat)
    requires '!' !in tab
    ensures RowNumberAsWritten(AppendedRange(tab, n)) == n
  {
    CellSpanFacts(n);
    DoubleQuotesKeepsBang(tab);
    var q := QuoteTab(tab);
    assert '!' !in q;
    SplitJoin([q, CellSpan(n)], '!');
    assert Join([q, CellSpan(n)], '!') == AppendedRange(tab, n) by {
      assert [q, CellSpan(n)][1..] == [CellSpan(n)];
    }
  }

  /** As written, a tab named "Q1!<m>" makes every append report row `m`
      (the digits inside the tab name), whatever row was appended. */
  lemma RowNumberAsWrittenMisreads(m: nat, n: nat)
    ensures RowNumberAsWritten(AppendedRange("Q1!" + Dec(m), n)) == m
    ensures RowNumber(AppendedRange("Q1!" + Dec(m), n)) == n
  {
    var d := Dec(m);
    var tab := "Q1!" + d;
    var c := CellSpan(n);
    RowNumberOfAppend(tab, n);
    CellSpanFacts(n);
    MisreadTabPlain(d);
    DoubleQuotesPlain(tab);
    NoBangInDigits(d);
    var parts := [ "'Q1", d + "'", c];
    Join3("'Q1", d + "'", c, '!');
    MisreadShape(d, c);
    SplitJoin(parts, '!');
    FirstDigitRunPrefix(d, "'");
    ValueOfDec(m);
  }

  lemma MisreadTabPlain(d: string)
    requires AllDigits(d)
    ensures '\'' !in "Q1!" + d
  {
    assert forall k :: 0 <= k < |d| ==> d[k] != '\'';
  }

  lemma Join3(a: string, b: string, c: string, sep: char)
    ensures Join([a, b, c], sep) == a + [sep] + (b + [sep] + c)
  {
    assert [a, b, c][1..] == [b, c];
    assert [b, c][1..] == [c];
    assert Join([b, c], sep) == b + [sep] + c;
  }

  lemma MisreadShape(d: string, c: string)
    ensures "'" + ("Q1!" + d) + "'" + "!" + c == "'Q1" + ['!'] + (d + "'" + ['!'] + c)
  {
  }

  // ---------------------------------------------------------------------
  // The sheet id

  /** The `properties` of one tab as `spreadsheets.get` returns them. */
  datatype TabProps = TabProps(sheetId: Option<int>, title: Option<string>)

  /** Tab `i` is the first one titled `tab`. */
  predicate FirstTitled(tabs: seq<TabProps>, tab: string, i: int) {
    0 <= i < |tabs| && tabs[i].title == Some(tab)
    && forall j :: 0 <= j < i ==> tabs[j].title != Some(tab)
  }

  /** `sheets.find(s => s.properties?.title === tab)`. */
  function FindTab(tabs: seq<TabProps>, tab: string): (r: Option<nat>)
    ensures r.Some? ==> FirstTitled(tabs, tab, r.value)
    ensures r.None? ==> forall i :: 0 <= i < |tabs| ==> tabs[i].title != Some(tab)
  {
    if |tabs| == 0 then None
    else if tabs[0].title == Some(tab) then Some(0)
    else
      match FindTab(tabs[1..], tab)
      case Some(i) =>
        assert forall j :: 1 <= j <= i ==> tabs[j] == tabs[1..][j - 1];
        Some(i + 1)
      case None =>
        assert forall i :: 1 <= i < |tabs| ==> tabs[i] == tabs[1..][i - 1];
        None
  }

  /** The lookup as written: `!target?.properties?.sheetId` also rejects the
      id 0, which is a valid sheet id. */
  function LookupAsWritten(tabs: seq<TabProps>, tab: string): (r: Result<int, LookupError>)
    ensures r.Ok? <==> exists i :: FirstTitled(tabs, tab, i) && tabs[i].sheetId.Some? && tabs[i].sheetId != Some(0)
    ensures r.Ok? ==> exists i :: FirstTitled(tabs, tab, i) && tabs[i].sheetId == Some(r.value)
  {
    match FindTab(tabs, tab)
    case None => Err(TabNotFound(tab))
    case Some(i) =>
      match tabs[i].sheetId
      case None => Err(TabNotFound(tab))
      case Some(id) => if id == 0 then Err(TabNotFound(tab)) else Ok(id)
  }

  /** The lookup rejecting only a missing tab or a missing id. */
  function Lookup(tabs: seq<TabProps>, tab: string): (r: Result<int, LookupError>)
    ensures r.Ok? <==> exists i :: FirstTitled(tabs, tab, i) && tabs[i].sheetId.Some?
    ensures r.Ok? ==> exists i :: FirstTitled(tabs, tab, i) && tabs[i].sheetId == Some(r.value)
  {
    match FindTab(tabs, tab)
    case None => Err(TabNotFound(tab))
    case Some(i) =>
      match tabs[i].sheetId
      case None => Err(TabNotFound(tab))
      case Some(id) => Ok(id)
  }

  /** As written, a tab whose id is 0 is reported as missing; the
      corrected lookup finds it. */
  lemma SheetIdZeroRejected(tab: string)
    ensures LookupAsWritten([TabProps(Some(0), Some(tab))], tab) == Err(TabNotFound(tab))
    ensures Lookup([TabProps(Some(0), Some(tab))], tab) == Ok(0)
  {
  }

  /** The two lookups agree on every tab whose id is not 0. */
  lemma LookupsAgreeOffZero(tabs: seq<TabProps>, tab: string)
    requires Lookup(tabs, tab) != Ok(0)
    ensures LookupAsWritten(tabs, tab) == Lookup(tabs, tab)
  {
  }

  /** The cache step of `getSheetId`: the cached id when there is one,
      otherwise the lookup's result, whose success is cached. */
  function WithCache(cache: Option<int>, lookup: Result<int, LookupError>)
    : (r: (Result<int, LookupError>, Option<int>))
  {
    if cache.Some? then (Ok(cache.value), cache)
    else
      match lookup
      case Ok(id) => (Ok(id), Some(id))
      case Err(e) => (Err(e), None)
  }

  /** `getSheetId` as written, on the lookup that rejects the id 0.
      Returns the result and the new cache. */
  function GetSheetId(cache: Option<int>, tabs: seq<TabProps>, tab: string)
    : (r: (Result<int, LookupError>, Option<int>))
    ensures cache.Some? ==> r == (Ok(cache.value), cache)
    ensures cache.None? ==> r.0 == LookupAsWritten(tabs, tab)
    ensures r.0.Ok? ==> r.1 == Some(r.0.value)
    ensures r.0.Err? ==> r.1 == cache
  {
    WithCache(cache, LookupAsWritten(tabs, tab))
  }

  /** `getSheetId` on the corrected lookup. */
  function GetSheetIdCorrected(cache: Option<int>, tabs: seq<TabProps>, tab: string)
    : (r: (Result<int, LookupError>, Option<int>))
    ensures cache.None? ==> r.0 == Lookup(tabs, tab)
  {
    WithCache(cache, Lookup(tabs, tab))
  }

  /** As written, a tab with id 0 is never found and never cached, so every
      delete on it throws; the corrected version finds and caches it. */
  lemma ZeroIdNeverCached(tab: string)
    ensures GetSheetId(None, [TabProps(Some(0), Some(tab))], tab) == (Err(TabNotFound(tab)), None)
    ensures GetSheetIdCorrected(None, [TabProps(Some(0), Some(tab))], tab) == (Ok(0), Some(0))
  {
    SheetIdZeroRejected(tab);
  }

  /** Off the id 0, the two versions answer and cache alike. */
  lemma GetSheetIdsAgreeOffZero(cache: Option<int>, tabs: seq<TabProps>, tab: string)
    requires Lookup(tabs, tab) != Ok(0)
    ensures GetSheetId(cache, tabs, tab) == GetSheetIdCorrected(cache, tabs, tab)
  {
    LookupsAgreeOffZero(tabs, tab);
  }

  /** Once an id is cached, later calls return it whatever the spreadsheet
      now says, e.g. after the tab was renamed. */
  lemma CachedIdIsStable(tabs: seq<TabProps>, later: seq<TabProps>, tab: string)
    requires GetSheetId(None, tabs, tab).0.Ok?
    ensures var first := GetSheetId(None, tabs, tab);
      GetSheetId(first.1, later, tab) == first
  {
  }
}

=== FILE: text.dfy ===
/** The JavaScript string operations the dashboard and the API rely on:
    `trim`, `toLowerCase`, `includes` and a first-occurrence `replace`. */
module Text {

  /** ECMAScript WhiteSpace and LineTerminator code points (what `trim` and
      `Number` strip). */
  predicate IsSpace(c: char) {
    c == '\U{0009}' || c == '\U{000A}' || c == '\U{000B}' || c == '\U{000C}' || c == '\U{000D}'
    || c == ' ' || c == '\U{00A0}' || c == '\U{1680}'
    || ('\U{2000}' <= c <= '\U{200A}')
    || c == '\U{2028}' || c == '\U{2029}' || c == '\U{202F}' || c == '\U{205F}'
    || c == '\U{3000}' || c == '\U{FEFF}'
  }

  /** Drops leading white space. */
  function TrimStart(s: string): string {
    if |s| > 0 && IsSpace(s[0]) then TrimStart(s[1..]) else s
  }

  /** Drops trailing white space. */
  function TrimEnd(s: string): string {
    if |s| > 0 && IsSpace(s[|s| - 1]) then TrimEnd(s[..|s| - 1]) else s
  }

  /** `String.prototype.trim`: the longest slice that neither starts nor ends
      with white space. */
  function Trim(s: string): string {
    TrimEnd(TrimStart(s))
  }

  /** `TrimStart` removes a prefix made only of white space, and stops at the
      first other character. */
  lemma {:induction false} TrimStartSpec(s: string)
    ensures |TrimStart(s)| <= |s| && TrimStart(s) == s[|s| - |TrimStart(s)|..]
    ensures forall k :: 0 <= k < |s| - |TrimStart(s)| ==> IsSpace(s[k])
    ensures |TrimStart(s)| > 0 ==> !IsSpace(TrimStart(s)[0])
  {
    if |s| > 0 && IsSpace(s[0]) {
      TrimStartSpec(s[1..]);
    }
  }

  /** `TrimEnd` removes a suffix made only of white space, and stops at the
      last other character. */
  lemma {:induction false} TrimEndSpec(s: string)
    ensures |TrimEnd(s)| <= |s| && TrimEnd(s) == s[..|TrimEnd(s)|]
    ensures forall k :: |TrimEnd(s)| <= k < |s| ==> IsSpace(s[k])
    ensures |TrimEnd(s)| > 0 ==> !IsSpace(TrimEnd(s)[|TrimEnd(s)| - 1])
  {
    if |s| > 0 && IsSpace(s[|s| - 1]) {
      TrimEndSpec(s[..|s| - 1]);
    }
  }

  /** `r` is the slice of `s` at `i` with only white space around it. */
  ghost predicate SpaceAround(s: string, r: string, i: int) {
    0 <= i <= |s| - |r| && r == s[i..i + |r|]
    && (forall k :: 0 <= k < i ==> IsSpace(s[k]))
    && (forall k :: i + |r| <= k < |s| ==> IsSpace(s[k]))
  }

  lemma TrimSpec(s: string)
    ensures exists i :: SpaceAround(s, Trim(s), i)
    ensures |Trim(s)| > 0 ==> !IsSpace(Trim(s)[0]) && !IsSpace(Trim(s)[|Trim(s)| - 1])
  {
    var t := TrimStart(s);
    TrimStartSpec(s);
    TrimEndSpec(t);
    var i := |s| - |t|;
    var r := Trim(s);
    assert r == s[i..i + |r|];
    assert SpaceAround(s, r, i);
    if |r| > 0 {
      assert r[0] == t[0];
    }
  }

  lemma AllSpaceTrim(s: string)
    requires forall k :: 0 <= k < |s| ==> IsSpace(s[k])
    ensures Trim(s) == ""
  {
    AllSpaceTrimStart(s);
  }

  lemma {:induction false} AllSpaceTrimStart(s: string)
    requires forall k :: 0 <= k < |s| ==> IsSpace(s[k])
    ensures TrimStart(s) == ""
  {
    if |s| > 0 {
      AllSpaceTrimStart(s[1..]);
    }
  }

  /** A string trims to nothing exactly when every character is white space. */
  lemma {:induction false} TrimEmptyIff(s: string)
    ensures Trim(s) == "" <==> forall k :: 0 <= k < |s| ==> IsSpace(s[k])
  {
    if forall k :: 0 <= k < |s| ==> IsSpace(s[k]) {
      AllSpaceTrim(s);
    } else {
      var k :| 0 <= k < |s| && !IsSpace(s[k]);
      TrimSpec(s);
      var i :| SpaceAround(s, Trim(s), i);
    }
  }

  lemma {:induction false} TrimIdempotent(s: string)
    ensures Trim(Trim(s)) == Trim(s)
  {
    var r := Trim(s);
    TrimSpec(s);
    if |r| > 0 {
      assert TrimStart(r) == r;
      assert TrimEnd(r) == r;
    }
  }

  /** Trimming strips exactly the white space around text that neither starts nor ends with it. */
  lemma TrimAround(pre: string, x: string, post: string)
    requires forall k :: 0 <= k < |pre| ==> IsSpace(pre[k])
    requires forall k :: 0 <= k < |post| ==> IsSpace(post[k])
    requires |x| > 0 && !IsSpace(x[0]) && !IsSpace(x[|x| - 1])
    ensures Trim(pre + x + post) == x
  {
    assert pre + x + post == pre + (x + post);
    TrimStartAround(pre, x + post);
    TrimEndAround(x, post);
  }

  lemma {:induction false} TrimStartAround(pre: string, x: string)
    requires forall k :: 0 <= k < |pre| ==> IsSpace(pre[k])
    requires |x| > 0 && !IsSpace(x[0])
    ensures TrimStart(pre + x) == x
  {
    if |pre| > 0 {
      assert (pre + x)[1..] == pre[1..] + x;
      TrimStartAround(pre[1..], x);
    } else {
      assert pre + x == x;
    }
  }

  lemma {:induction false} TrimEndAround(x: string, post: string)
    requires forall k :: 0 <= k < |post| ==> IsSpace(post[k])
    requires |x| > 0 && !IsSpace(x[|x| - 1])
    ensures TrimEnd(x + post) == x
  {
    if |post| > 0 {
      assert (x + post)[..|x + post| - 1] == x + post[..|post| - 1];
      TrimEndAround(x, post[..|post| - 1]);
    } else {
      assert x + post == x;
    }
  }

  /** `toLowerCase` on the Basic Latin and Latin-1 letters. */
  function LowerChar(c: char): char {
    if 'A' <= c <= 'Z' then (c as int + 32) as char
    else if '\U{00C0}' <= c <= '\U{00DE}' && c != '\U{00D7}' then (c as int + 32) as char
    else c
  }

  function ToLower(s: string): (r: string)
    ensures |r| == |s|
    ensures forall i :: 0 <= i < |s| ==> r[i] == LowerChar(s[i])
  {
    seq(|s|, i requires 0 <= i < |s| => LowerChar(s[i]))
  }

  lemma ToLowerIdempotent(s: string)
    ensures ToLower(ToLower(s)) == ToLower(s)
  {
  }

  /** Lower-casing never creates nor removes white space, so it commutes with `trim`. */
  lemma LowerCharSpace(c: char)
    ensures IsSpace(LowerChar(c)) <==> IsSpace(c)
  {
  }

  /** `p` occurs in `s` starting at index `i`. */
  predicate OccursAt(s: string, p: string, i: int) {
    0 <= i <= |s| - |p| && s[i..i + |p|] == p
  }

  /** `s.includes(p)`. */
  function Contains(s: string, p: string): (b: bool)
    ensures b <==> exists i :: OccursAt(s, p, i)
  {
    if |p| <= |s| && s[..|p|] == p then
      assert OccursAt(s, p, 0);
      true
    else if |s| == 0 then
      false
    else
      var b := Contains(s[1..], p);
      if b then
        var i :| OccursAt(s[1..], p, i);
        assert s[1..][i..i + |p|] == s[i + 1..i + 1 + |p|];
        assert OccursAt(s, p, i + 1);
        true
      else
        forall i | 1 <= i && OccursAt(s, p, i) ensures OccursAt(s[1..], p, i - 1) {
          assert s[1..][i - 1..i - 1 + |p|] == s[i..i + |p|];
        }
        false
  }

  /** The empty pattern occurs everywhere, so an empty search matches any text. */
  lemma ContainsEmpty(s: string)
    ensures Contains(s, "")
  {
    assert OccursAt(s, "", 0);
  }

  /** The index of the first `c` in `s`, or -1. */
  function IndexOf(s: string, c: char): (i: int)
    ensures -1 <= i < |s|
    ensures i == -1 <==> c !in s
    ensures i >= 0 ==> s[i] == c && c !in s[..i]
  {
    if |s| == 0 then -1
    else if s[0] == c then 0
    else
      var j := IndexOf(s[1..], c);
      if j == -1 then -1
      else
        assert s[..j + 1] == [s[0]] + s[1..][..j];
        j + 1
  }

  /** `s.replace(a, b)` with a one-character string pattern: only the first
      occurrence changes. */
  function ReplaceFirst(s: string, a: char, b: char): (r: string)
    ensures |r| == |s|
    ensures a !in s ==> r == s
    ensures a in s ==> r[IndexOf(s, a)] == b
    ensures forall k :: 0 <= k < |s| && k != IndexOf(s, a) ==> r[k] == s[k]
  {
    var i := IndexOf(s, a);
    if i < 0 then s else s[..i] + [b] + s[i + 1..]
  }

  /** `s.replace(/c/g, '')`. */
  function RemoveAll(s: string, c: char): (r: string)
    ensures c !in r
    ensures |r| <= |s|
    ensures forall x :: x in r <==> x in s && x != c
  {
    if |s| == 0 then s
    else if s[0] == c then RemoveAll(s[1..], c)
    else [s[0]] + RemoveAll(s[1..], c)
  }

  lemma {:induction false} RemoveAllAbsent(s: string, c: char)
    requires c !in s
    ensures RemoveAll(s, c) == s
  {
    if |s| > 0 {
      assert s == [s[0]] + s[1..];
      RemoveAllAbsent(s[1..], c);
    }
  }

  /** Removing a character works piecewise over a concatenation. */
  lemma {:induction false} RemoveAllAppend(a: string, b: string, c: char)
    ensures RemoveAll(a + b, c) == RemoveAll(a, c) + RemoveAll(b, c)
  {
    if |a| == 0 {
      assert a + b == b;
    } else {
      assert (a + b)[0] == a[0];
      assert (a + b)[1..] == a[1..] + b;
      RemoveAllAppend(a[1..], b, c);
    }
  }

  /** In `a + [c] + b` with no `c` in `a`, the first `c` is the one after `a`. */
  lemma IndexOfAfter(a: string, c: char, b: string)
    requires c !in a
    ensures IndexOf(a + [c] + b, c) == |a|
  {
    var t := a + [c] + b;
    assert t[|a|] == c;
    assert t[..|a|] == a;
    assert forall k :: 0 <= k < |a| ==> t[k] == a[k] && a[k] in a;
  }

  /** `s.split(sep)` for a one-character separator. */
  function Split(s: string, sep: char): (parts: seq<string>)
    ensures |parts| >= 1
    ensures forall i :: 0 <= i < |parts| ==> sep !in parts[i]
    decreases |s|
  {
    var i := IndexOf(s, sep);
    if i < 0 then [s] else [s[..i]] + Split(s[i + 1..], sep)
  }

  /** `parts.join(sep)`. */
  function Join(parts: seq<string>, sep: char): string
    requires |parts| >= 1
  {
    if |parts| == 1 then parts[0] else parts[0] + [sep] + Join(parts[1..], sep)
  }

  lemma {:induction false} JoinSplit(s: string, sep: char)
    ensures Join(Split(s, sep), sep) == s
    decreases |s|
  {
    var i := IndexOf(s, sep);
    if i >= 0 {
      JoinSplit(s[i + 1..], sep);
      Around(s, i);
    }
  }

  lemma Around(s: string, i: int)
    requires 0 <= i < |s|
    ensures s == s[..i] + [s[i]] + s[i + 1..]
  {
  }

  lemma {:induction false} SplitJoin(parts: seq<string>, sep: char)
    requires |parts| >= 1
    requires forall i :: 0 <= i < |parts| ==> sep !in parts[i]
    ensures Split(Join(parts, sep), sep) == parts
  {
    if |parts| > 1 {
      var tail := parts[1..];
      assert forall i :: 0 <= i < |tail| ==> sep !in tail[i] by {
        assert forall i :: 0 <= i < |tail| ==> tail[i] == parts[i + 1];
      }
      SplitJoin(tail, sep);
      SplitAfterFirst(parts[0], sep, Join(tail, sep));
      assert parts == [parts[0]] + tail;
    } else {
      assert IndexOf(parts[0], sep) == -1;
    }
  }

  /** Splitting at a first separator peels off the text before it. */
  lemma SplitAfterFirst(a: string, sep: char, b: string)
    requires sep !in a
    ensures Split(a + [sep] + b, sep) == [a] + Split(b, sep)
  {
    var s := a + [sep] + b;
    IndexOfAfter(a, sep, b);
    SplitPieces(a, sep, b);
  }

  lemma SplitPieces(a: string, sep: char, b: string)
    ensures (a + [sep] + b)[..|a|] == a
    ensures (a + [sep] + b)[|a| + 1..] == b
  {
  }

  /** Text without the separator is a single part. */
  lemma SplitNone(s: string, sep: char)
    requires sep !in s
    ensures Split(s, sep) == [s]
  {
  }
}

=== FILE: wrappers.dfy ===
/** Option and Result: the model's stand-ins for `null`/`undefined` and for
    the exceptions and error responses of the original program. */
module Wrappers {

  datatype Option<+T> = None | Some(value: T) {
    function GetOr(default: T): T {
      match this
      case Some(v) => v
      case None => default
    }
  }

  datatype Result<+R, +E> = Ok(value: R) | Err(error: E)
}
